=== FILE: README.md ===
# SafeHome core in Dafny

SafeHome is a home-services booking platform. Customers book services such as
cleaning or plumbing, providers accept and carry out the tasks, and bookings are
paid through Stripe Checkout. A COVID restriction lookup warns either side about
the restriction level at the booking's location.

This project models the deterministic core of the Django backend and of the
Next.js frontend. Each module follows one source file:

- **Backend.** The COVID restriction service and endpoint (`CovidViews`, with the
  restriction table in `CovidTable`). The `Payment` model's state machine and
  save-time rules (`PaymentsModels`). The checkout, webhook and QR-data views
  (`PaymentsViews`). The `Booking` model (`BookingsModels`), its owner-scoped
  views (`BookingsViews`) and its serializers (`BookingsSerializers`). The
  registration serializer (`AccountsSerializers`). The middleware
  (`CoreMiddleware`) and the response envelope (`CoreUtils`).
- **Frontend.** The hex codec and the `iv:ciphertext:tag` framing of the
  client-side encryption (`FrontendCrypto`). The zod schemas of the login,
  registration, booking and profile forms (`Validations`, over `Zod`). The COVID
  query builder (`CovidApi`). The map location logic (`SimpleMap`). The dashboard
  pagination (`Pagination`). The booking-detail actions and provider box
  (`BookingActions`, `BookingProviderInfo`). The available-tasks hook and list
  (`AvailableTasks`).
- **Shared helpers.** `Wrappers` (Option/Result), `Text` (Python and JavaScript
  string operations, split/join, decimal digits) and `Assoc` (ordered
  association lists, standing for Python dicts and JSON objects).

Conventions:

- Money is integer cents. Both money columns are two-decimal `Decimal`s, so
  cents are exact.
- Python and JavaScript truthiness are written out as predicates.
- Ordered dictionaries are sequences of pairs, because insertion order decides
  the COVID city search and the tie-break of the most common level.
- External services become parameters:
  - Stripe's outcomes are inputs;
  - the backend cipher is a pair of functions, with a soundness predicate that
    the lemmas assume;
  - random draws are a sequence of tokens;
  - the frontend `enc` takes the IV and the sealed bytes as inputs, and `dec` stops at the IV and sealed bytes it would hand to the decryption primitive;
  - the clock is a `now` argument;
  - `Number()`, `Date` parsing and zod's email test are function arguments.
- Framework behaviour the source relies on is written out where it decides an outcome: how Django REST framework builds, trims and validates fields, how Django parses a UUID id, and the `save` each model method ends with.

## Model

| member | source | states |
|---|---|---|
| CovidViews.NormalizeCode | backend/covid/views.py:192-193 | A falsy country or state counts as absent; a present one is its upper-cased text, never empty. |
| CovidViews.CityAcrossStatesSpec | backend/covid/views.py:210-215 | The city-only search finds nothing exactly when no state lists the city; otherwise it answers the level from the first state, in table order, that lists it. |
| CovidViews.ArgMax | backend/covid/views.py:235-239 | `max(..., key=counts.get)` picks an entry of maximal count, and no earlier entry has that count. |
| CovidViews.TallyIsTallyOf | backend/covid/views.py:235-237 | The counting loop leaves each level of the state once, with its number of occurrences, in order of first occurrence. |
| CovidViews.ArgMaxIsMostCommon | backend/covid/views.py:228-239 | The level picked from the tally occurs in the state and no level occurs more often. |
| CovidViews.ArgMaxOccursFirst | backend/covid/views.py:228-239 | Among equally common levels, the one picked occurs first in the state's city order. |
| CovidViews.FirstModeUnique | backend/covid/views.py:228-239 | The first-occurring most common level is unique, so the state default is fully determined. |
| CovidViews.StateDefaultIsFirstMode | backend/covid/views.py:228-239 | For a non-empty state, the default is the first-encountered most common level, never 'unknown'. |
| CovidViews.LookupUnknownWithoutLocation | backend/covid/views.py:204-223 | An unknown country, neither state nor city, or a state not in the country all answer 'unknown'. |
| CovidViews.LookupCityWithoutState | backend/covid/views.py:210-215 | A city without a state answers 'unknown' when no state lists it, else the level from the first state that does. |
| CovidViews.LookupStateWithoutCity | backend/covid/views.py:225-239 | A state without a city answers the state's first-encountered most common level. |
| CovidViews.LookupCityInState | backend/covid/views.py:244-247 | With both a state and a city, the answer is the city's entry in that state, else 'unknown'; there is no fallback to the state default. |
| CovidViews.CleanCityIsTitleCase | backend/covid/views.py:194-201 | Every cleaned city is unchanged by title-casing. |
| CovidViews.NonTitleKeyUnreachable | backend/covid/views.py:194-201 | No input city can match a table key that title-casing would change. |
| CovidViews.LowerWordKeyUnreachable | backend/covid/views.py:194-201 | A key with a word that starts lower-case cannot be matched. |
| CovidViews.PortageLaPrairieUnreachable | backend/covid/views.py:138 | No input city ever cleans to the Manitoba key 'Portage la Prairie'. |
| CovidViews.PortageLaPrairieIsUnknown | backend/covid/views.py:138 | Asking for Portage la Prairie in CA/MB, spelled as in the table, answers 'unknown'. |
| CovidViews.ManitobaMissesLongNames | backend/covid/views.py:134-139 | Every 18-character cleaned city other than the unreachable key is absent from Manitoba and answers 'unknown'. |
| CovidViews.CleanCitySpellings | backend/covid/views.py:194-201 | Any letter case, plus any run of trailing slashes and spaces, cleans to the same city as the plain spelling, e.g. 'adelaide' and 'Adelaide/' behave like 'Adelaide'. |
| CovidViews.CleanCityIgnoresCase | backend/covid/views.py:194-201 | Two cities that differ only in letter case clean to the same city. |
| CovidViews.AlternatingTieDefaultsToFirst | backend/covid/views.py:235-239 | A low/medium two-to-two tie defaults to the level listed first. |
| CovidViews.SouthAustraliaDefaultIsLow | backend/covid/views.py:228-239 | AU/SA without a city answers 'low'. |
| CovidViews.CovidRestrictionLookup | backend/covid/views.py:250-293 | A falsy country gives 400 'Country parameter is required'; otherwise 200 with the level and the raw parameters echoed. |
| PaymentsModels.StatusCodeRoundTrip | backend/payments/models.py:33-47 | Status codes and the six statuses correspond one to one, and the choices list every status. |
| PaymentsModels.NewPayment | backend/payments/models.py:33-91 | A new payment is pending, in USD, with no token, intent, method or payment time. |
| PaymentsModels.Clean | backend/payments/models.py:135-145 | Exactly the payments with a positive amount and a three-character currency pass; the amount error is reported first. |
| PaymentsModels.GenerateQrToken | backend/payments/models.py:157-165 | The token is the first draw not held by an existing payment. |
| PaymentsModels.Save | backend/payments/models.py:147-155 | Saving succeeds exactly for valid payments; a saved payment has a token, its own if it had one, else a fresh one; failures are clean's error. |
| PaymentsModels.MarkAsPaid | backend/payments/models.py:167-177 | Paid at `now`, the intent and method replaced only by truthy arguments, then saved: the save succeeds exactly for a valid payment and otherwise gives clean's error; the row keeps its QR token or gets one no payment holds; nothing else changes. |
| PaymentsModels.MarkAsFailed | backend/payments/models.py:179-182 | Failed from any status, then saved: succeeds exactly for a valid payment, keeps or draws the QR token, and changes nothing else. |
| PaymentsModels.Cancel | backend/payments/models.py:184-188 | Pending or processing becomes cancelled and is saved (clean's error for an invalid row, the token kept or drawn); any other payment is returned as it is, unsaved. |
| PaymentsModels.Refund | backend/payments/models.py:190-194 | Paid becomes refunded and is saved (clean's error for an invalid row, the token kept or drawn); any other payment is returned as it is, unsaved. |
| PaymentsModels.GuardedTransitionsIdempotent | backend/payments/models.py:184-194 | Cancelling a saved cancellation again gives the same result; likewise refunding. |
| PaymentsModels.PredicatesMatchTransitions | backend/payments/models.py:197-215 | can_cancel and can_refund hold exactly when the transition has an effect; can_refund equals is_paid; the two are never both true; a pending payment can be cancelled. |
| PaymentsModels.TransitionsKeepValid | backend/payments/models.py:135-194 | From a valid payment, the save each transition ends with succeeds, the row stays valid and a row that has a QR token keeps it. |
| PaymentsViews.PaymentById | backend/payments/views.py:286 | A payment is found exactly when one has the id, and the one found has it. |
| PaymentsViews.AmountRule | backend/payments/views.py:98-107 | The amount the view states: the quote when it is set and non-zero, else the budget when set and non-zero; none when neither is; never zero. |
| PaymentsViews.QuoteIsNoAttribute | backend/bookings/models.py:10-182 | 'provider_quote' is none of the attributes of a Booking: its columns, pk, and the address and phone properties. |
| PaymentsViews.LookupStep | backend/payments/views.py:63-83 | A missing or empty booking_id gives 400. An id that is no UUID makes the lookup raise, answered 500 'Internal error: ' with the validation text. An unknown booking gives 404. Otherwise the lookup yields the booking found. |
| PaymentsViews.CheckoutDecision | backend/payments/views.py:56-160 | As written, the checkout always answers at once. It gives the lookup's error when the lookup fails, and for every found booking the 500 "Internal error: 'Booking' object has no attribute 'provider_quote'", because reading the quote raises. |
| PaymentsViews.FixedCheckoutDecision | backend/payments/views.py:63-141 | With the booking's quote supplied, the checks run in order: the lookup's errors, then no price 400, then no secret key 500. Otherwise a session is requested for one USD line item of the amount rule's result, with booking_id as sent and user_id as metadata. |
| PaymentsViews.Checkout | backend/payments/views.py:56-160 | As written, the answer is the decision's immediate response, never a 200: no Stripe session is ever created. |
| PaymentsViews.Complete | backend/payments/views.py:121-160 | Stripe's outcome completes a requested session: the session id and url on success, 400 for a Stripe error, 500 for anything else. |
| PaymentsViews.FixedCheckout | backend/payments/views.py:98-160 | The corrected checkout answers with the decision's response, or, for a requested session, 200 on success, 400 for a Stripe error and 500 for anything else. |
| PaymentsViews.AsWrittenCheckoutFails | backend/payments/views.py:98-160 | Any request that names an existing booking gets the 500 of the missing provider_quote attribute, whatever the budget, the secret key and Stripe's outcome. |
| PaymentsViews.FixedCheckoutAgreesWithoutBooking | backend/payments/views.py:63-83 | The correction changes nothing for a request whose booking is not found. |
| PaymentsViews.CheckoutIgnoresOwnership | backend/payments/views.py:91-96 | The ownership check is disabled, so two requesters get the same answer as written. Corrected, they get the same verdict, and session requests that differ only in the user_id metadata. |
| PaymentsViews.MissingKeyOnlyWithPrice | backend/payments/views.py:98-118 | In the corrected checkout, a booking without a price gets 'No price available' (400) even when the secret key is missing, because the amount is computed first. |
| PaymentsViews.QuoteTakesPrecedence | backend/payments/views.py:98-107 | In the corrected checkout, a booking with a quote is charged the quote, whatever its budget. |
| PaymentsViews.MalformedBookingIdIsInternalError | backend/payments/views.py:77-83 | An id such as 'test' (no hyphen, brace or 'u', and not 32 characters long) gets a 500 carrying the invalid-UUID message, as written and corrected. This happens before the price and the secret key are looked at. |
| PaymentsViews.CheckoutAcceptsAnySpelling | backend/payments/views.py:77-141 | Two spellings of one UUID get the same answer as written. Corrected, their session requests differ only in the booking_id metadata, which keeps the spelling sent. |
| PaymentsViews.OwnedIndices | backend/payments/views.py:199-202 | The payments matching `booking__user_id`, listed once each and in table order. |
| PaymentsViews.StripeWebhook | backend/payments/views.py:163-227 | A missing signature, an invalid payload or an invalid signature gives 400 and changes nothing; a verified event is acknowledged; only a completed session can change payments, and the table keeps its length. |
| PaymentsViews.MissingMetadataChangesNothing | backend/payments/views.py:189-216 | A completed session without both booking_id and user_id changes no payment. |
| PaymentsViews.CompletedSessionMarksUsersPayment | backend/payments/views.py:189-216 | With both ids present and the user's single, valid payment found, that payment alone is marked paid by 'stripe' at `now` with the session's intent, keeping its QR token or receiving one no other payment holds. |
| PaymentsViews.WebhookKeepsTokensDistinct | backend/payments/views.py:189-216 | QR tokens that were distinct before the webhook are distinct after it. |
| PaymentsViews.WebhookChangesOnlyThatUsersPayment | backend/payments/views.py:163-227 | Any payment the webhook changes came from a completed session, belongs to the user named in the metadata and is now paid. |
| Text.CentsText | backend/payments/views.py:299 | `str(amount)` of a two-decimal amount has two digits after the point and a minus sign exactly for negative amounts. |
| Text.CentsTextRoundTrip | backend/payments/views.py:299 | The text of a non-negative amount reads back as the amount in cents. |
| PaymentsViews.PaymentQrData | backend/payments/views.py:280-309 | 200 exactly for an existing payment whose booking belongs to the requester, carrying its token, status, amount and currency; otherwise 404 'Payment not found'. |
| PaymentsViews.QrDataMasksOwnership | backend/payments/views.py:289-309 | Someone else's payment gets the same answer as a payment id that does not exist. |
| BookingsModels.ParseServiceType | backend/bookings/models.py:16-22 | A stored code names a service type exactly when it is that type's code. |
| BookingsModels.ParseBookingStatus | backend/bookings/models.py:108-115 | A stored code names a status exactly when it is that status's code. |
| BookingsModels.ServiceTypeRoundTrip | backend/bookings/models.py:16-22 | Every service type is a listed choice and its code parses back to it. |
| BookingsModels.BookingStatusRoundTrip | backend/bookings/models.py:108-115 | Every status is a listed choice and its code parses back to it. |
| BookingsModels.NewBooking | backend/bookings/models.py:44-129 | Defaults: service type 'other', country 'US', one hour, status 'pending', confirmation code '0000' of at most 4 characters, no contact details. |
| BookingsModels.BookingById | backend/bookings/views.py:49 | For a canonical id, as the `<uuid:pk>` route hands it over, a booking is found exactly when a row has the id, and the one found has it. |
| BookingsModels.ParseUuid | backend/core/models.py:8-13 | A UUID value is 32 lower-case ASCII hex digits. There is no value for an id that is not 32 ASCII hex digits once 'urn:', 'uuid:', the end braces and the hyphens are removed; that includes some spellings `int(hex, 16)` accepts (see Left out). |
| BookingsModels.FindBooking | backend/payments/views.py:77-83 | A client-sent id is malformed exactly when it does not parse as a UUID; otherwise a booking is found exactly when a row's id denotes the same UUID, and the one found does. |
| BookingsModels.HyphensDoNotMatter | backend/core/models.py:8-13 | An id and its spelling without hyphens denote the same UUID, or are both malformed. |
| BookingsModels.CaseDoesNotMatter | backend/core/models.py:8-13 | Thirty-two hex digits and their upper-case spelling denote the same UUID, the lower-case digits. |
| BookingsModels.BracesDoNotMatter | backend/core/models.py:8-13 | Surrounding braces do not change the UUID an id denotes. |
| BookingsModels.SpellingsFindSameBooking | backend/payments/views.py:77-83 | Two spellings of one UUID find the same booking, or are both malformed. |
| BookingsModels.TestIdIsMalformed | backend/tests/test_stripe_checkout.py:208-212 | Any id with no hyphen, brace or 'u' whose length is not 32, such as 'test', is malformed whatever the table holds. |
| BookingsModels.SettersTouchOnlyTheirField | backend/bookings/models.py:159-172 | set_address writes only address_enc, set_phone only phone_enc, each with the encryption of the text. |
| BookingsModels.SetGetRoundTrip | backend/bookings/models.py:159-179 | With a sound cipher, setting then getting returns the text, and each setter leaves the other field's reading alone. |
| BookingsModels.UnsetFieldsReadEmpty | backend/bookings/models.py:163-179 | An empty encrypted field reads as the empty string. |
| BookingsViews.UserBookings | backend/bookings/views.py:34-36 | With the model ordering `-created_at`, the list is newest first and holds exactly the user's rows of the table, each as often as it occurs. |
| BookingsViews.NewestFirstSpec | backend/bookings/models.py:146 | Ordering by `-created_at` yields a newest-first rearrangement of the rows. |
| BookingsViews.ListIsExactlyTheUsersBookings | backend/bookings/views.py:34-36 | A booking is listed for a user exactly when it is in the table and belongs to that user. |
| BookingsViews.GetObject | backend/bookings/views.py:46-56 | A found booking has the id, belongs to the requester and is in the table; an id no row has gives NotFound. |
| BookingsViews.GetObjectFindsOnlyOwnBookings | backend/bookings/views.py:46-76 | With unique ids, a booking is found exactly when a row with the id belongs to the requester. |
| BookingsViews.ForeignBookingIsNotFound | backend/bookings/views.py:46-76 | Another user's booking is refused with NotFound, the same class and status as a missing id. |
| BookingsViews.Assignments | backend/bookings/views.py:83-92 | The entries assigned verbatim are exactly the request entries other than address and phone, in request order. |
| BookingsViews.AssignmentsKeepPlainRequests | backend/bookings/views.py:83-92 | A request without address or phone is assigned in full and unchanged. |
| BookingsViews.ApplyUpdate | backend/bookings/views.py:78-94 | The update fails with a TypeError exactly when a sent address or phone is not a string; a stored row carries the re-encrypted address and phone that were sent and the old ciphertext of those not sent, keeps its id and owner, and has updated_at = now. |
| BookingsViews.AssignColumn | backend/bookings/views.py:90-94 | `setattr` then `save` for one key: a storable value reads back as sent and no other column changes; null in a non-null column, a negative duration or any value in a ciphertext column is refused; updated_at is left to save. |
| BookingsViews.AssignAllStoresEach | backend/bookings/views.py:90-92 | With distinct keys, the loop leaves every assigned column reading as the value sent. |
| BookingsViews.AssignAllFailsOnCiphertext | backend/bookings/views.py:90-94 | An entry naming a ciphertext column makes the loop fail, whatever comes before it. |
| BookingsViews.UpdateStoresSentColumns | backend/bookings/views.py:78-94 | With distinct keys, every column the request names reads back exactly as sent. |
| BookingsViews.UpdateKeepsUnsentColumns | backend/bookings/views.py:78-94 | A column the request does not name keeps its value through the update. |
| BookingsViews.UpdateRoutesContactDetails | backend/bookings/views.py:78-94 | With a sound cipher, the stored row reads back the address and phone sent and keeps the readings of those not sent. |
| BookingsViews.CiphertextKeysNeverStored | backend/bookings/views.py:90-94 | A request naming address_enc or phone_enc is never stored, so it cannot override the address or phone sent beside it. |
| BookingsViews.Update | backend/bookings/views.py:78-96 | The request stops exactly when the row cannot be stored; otherwise the row stored is the updated booking and the answer is its rendering. |
| BookingsViews.AsWrittenUpdateStoresThenFails | backend/bookings/views.py:94-96 | As written, a storable update is saved and rendering the answer then fails on 'service'. |
| BookingsViews.FixedUpdateAnswersWithSentDetails | backend/bookings/views.py:94-96 | With the corrected fields and a sound cipher, an update sending address and phone answers with exactly those values. |
| BookingsViews.CountStatus | backend/bookings/views.py:110-114 | A per-status count is the number of bookings carrying that status code. |
| BookingsViews.UserBookingStats | backend/bookings/views.py:99-117 | The total is the number of the user's bookings; each of the five counts is the number of them with that status; the five counts add up to at most the total. |
| BookingsViews.StatsJson | backend/bookings/views.py:108-117 | The stats object has the keys total, pending, confirmed, in_progress, completed and cancelled, in that order. |
| BookingsViews.StatusCountsPartition | backend/bookings/views.py:108-115 | The five per-status counts plus the bookings with no valid status add up to the number of bookings. |
| BookingsViews.NoUnknownIffAllValid | backend/bookings/views.py:108-115 | No booking is counted as unknown exactly when every status is one of the five choices. |
| BookingsViews.StatsTotalIsSumIffStatusesValid | backend/bookings/views.py:99-117 | The total equals the sum of the five counts exactly when every booking of the user has a valid status. |
| BookingsSerializers.ValidateStartTime | backend/bookings/serializers.py:34-38 | Only a start strictly after now passes; otherwise 'Start time must be in the future'. |
| BookingsSerializers.BuildFields | backend/bookings/serializers.py:26-31 | Building a serializer fails exactly when a listed name is no attribute of a booking, naming the first such; otherwise the fields are the list. |
| BookingsSerializers.ValidateServiceType | backend/bookings/models.py:44-50 | The service type may be left out; null is refused; a text passes exactly when it is one of the five choices, else it gets DRF's choice message. |
| BookingsSerializers.RunStartTime | backend/bookings/serializers.py:34-38 | The start time is required and not null, and passes exactly when it is after now; a past or present start gets 'Start time must be in the future'. |
| BookingsSerializers.CreateErrors | backend/bookings/serializers.py:10-38 | There are no errors exactly when every field passes: the service type, the address and phone fields, the city, state, country and notes columns, the start time and the duration. |
| BookingsSerializers.CreateValidated | backend/bookings/serializers.py:40-60 | The created booking is pending and belongs to the requester. It holds the trimmed city, state, country and notes, and the column defaults for fields not sent. The service type is the one sent, else 'other'. The address and phone are stored encrypted, as their trimmed values. |
| BookingsSerializers.CreateWith | backend/bookings/serializers.py:26-60 | The fields are built first. Then a request passes exactly when no field has an error. A refused request reports every field error; a passed one stores the validated booking. |
| BookingsSerializers.AsWrittenSerializersFail | backend/bookings/serializers.py:26-97 | As written, creating, showing and listing a booking all fail on 'service', whatever the input. |
| BookingsSerializers.FixedFieldsBuild | backend/bookings/serializers.py:26-97 | The corrected field lists build unchanged. |
| BookingsSerializers.FixedCreateChecksFields | backend/bookings/serializers.py:14-60 | With the corrected fields, a request passes exactly when it meets `CreateFieldsPass`, and a refused one reports every field error. `CreateFieldsPass` asks for: a listed service type or none; address, phone and city sent and not blank after trimming; city, state and country of at most 100 characters; a country, if sent, not blank; a start after now; a duration, if sent, of at least 0; no NUL character. |
| BookingsSerializers.CreateErrorsEmptyIffPass | backend/bookings/models.py:44-128 | The create fields report no error exactly when the request meets `CreateFieldsPass`, the rules read off the columns. |
| BookingsSerializers.CreateFieldMessages | backend/bookings/serializers.py:14-38 | A missing address gets 'This field is required.' and a blank one 'This field may not be blank.'. A city over 100 characters gets the max_length message. A start that is not in the future gets 'Start time must be in the future', and a negative duration 'Ensure this value is greater than or equal to 0.'. |
| BookingsSerializers.CreateStoresContactDetails | backend/bookings/serializers.py:40-60 | With a sound cipher, the created booking's address and phone decrypt to the trimmed text the client sent. |
| BookingsSerializers.ListRepresentation | backend/bookings/serializers.py:87-97 | The corrected list serializer always renders, with exactly its fields, in order. |
| BookingsSerializers.DetailRepresentation | backend/bookings/serializers.py:63-84 | The corrected detail output exists exactly when both contact fields decrypt, has exactly the detail fields, and carries the decrypted address and phone. |
| BookingsSerializers.ListHidesContactDetails | backend/bookings/serializers.py:63-97 | The list has no address or phone key and does not depend on the ciphertexts; the detail has both keys. |
| BookingsSerializers.DetailShowsCreatedContactDetails | backend/bookings/serializers.py:40-84 | A new booking's detail view shows the trimmed address and phone it was created with. |
| DrfFields.RunValidators | backend/accounts/serializers.py:32-49 | Every validator of a field runs: no message exactly when all pass, and the messages are exactly those of the failing validators. |
| DrfFields.RunCharField | backend/accounts/serializers.py:15-49 | A text field: absent is an error only when required; null only where allowed; blank after trimming is '' where allowed, else an error; any other value is trimmed, and passes exactly when its validators pass. |
| DrfFields.RunIntField | backend/bookings/models.py:101-105 | An integer field: absent is an error only when required; null only where allowed; an integer passes exactly when it is at least `min_value`, else it gets the min_value message. |
| AccountsSerializers.ValidateEmail | backend/accounts/serializers.py:51-55 | The custom email check passes exactly when no account has the value. |
| AccountsSerializers.ValidateUsername | backend/accounts/serializers.py:57-61 | The custom username check passes exactly when no account has the value. |
| AccountsSerializers.FieldErrors | backend/accounts/serializers.py:15-61 | The field errors are reported in field order, and there are none exactly when every one of the ten fields passes its own validation. |
| AccountsSerializers.Validate | backend/accounts/serializers.py:63-75 | Registration validates exactly when the fields pass, the trimmed password equals the trimmed confirmation and consent is true; what passes is the cleaned payload; field errors are reported before the confirmation and consent; a failure carries at least one error. |
| AccountsSerializers.DuplicateEmailRejected | backend/accounts/models.py:7 | A stored email fails first on 'email', with the unique column's message 'User with this email address already exists.'. |
| AccountsSerializers.DuplicateUsernameRejected | backend/accounts/serializers.py:34-36 | A stored username fails on 'username' with 'A user with that username already exists.'. |
| AccountsSerializers.CustomEmailTextUnreachable | backend/accounts/serializers.py:51-55 | The email field never reports the custom text 'A user with this email already exists.'. |
| AccountsSerializers.CustomUsernameTextUnreachable | backend/accounts/serializers.py:57-61 | The username field never reports the custom text 'A user with this username already exists.'. |
| AccountsSerializers.ShortTrimmedPasswordRejected | backend/accounts/serializers.py:15-20 | A password shorter than 8 characters once trimmed fails on 'password' with the min-length message. |
| AccountsSerializers.PaddedSevenCharacterPasswordRejected | backend/accounts/serializers.py:15-20 | The password '1234567 ' is refused. |
| AccountsSerializers.MalformedEmailRejected | backend/accounts/serializers.py:32-49 | An address the email validator refuses fails first on 'email' with 'Enter a valid email address.', taken or not. |
| AccountsSerializers.NotAnEmailRejected | backend/accounts/serializers.py:32-49 | 'not-an-email' is refused as an invalid address. |
| AccountsSerializers.ValidRegistrationIsTrimmed | backend/accounts/serializers.py:15-75 | What passes holds the trimmed, non-empty email and username, neither stored yet, a well-formed email and a trimmed password of at least 8 characters. |
| AccountsSerializers.ConfirmationCheckedBeforeConsent | backend/accounts/serializers.py:63-68 | A mismatched confirmation fails on password_confirm alone, whatever the consent. |
| AccountsSerializers.ConsentRequired | backend/accounts/serializers.py:70-73 | Otherwise-valid input passes exactly with consent, and fails on 'consent' without it. |
| AccountsSerializers.ConsentIp | backend/accounts/serializers.py:88-94 | The logged address is the first forwarded hop, else REMOTE_ADDR, else none. |
| AccountsSerializers.ConsentIpAgreesWithMiddleware | backend/accounts/serializers.py:88-94 | Whenever the request says where it came from, the consent log records the address the middleware logs. |
| AccountsSerializers.NormalizeEmail | backend/accounts/serializers.py:98-99 | The trimmed address keeps its local part and last '@' and has its domain lower-cased; an address without '@' is unchanged. |
| AccountsSerializers.CreateUser | backend/accounts/serializers.py:77-117 | An empty username is refused; a normalised email or username already stored is an integrity error; otherwise the user holds the normalised email and username, the password hash and the optional fields, and the consent log has policy version '1.0', the client address and the user agent. |
| AccountsSerializers.CreatedUserChecksTrimmedPassword | backend/accounts/serializers.py:98-101 | With a sound hasher, the stored hash verifies the password as typed, once trimmed. |
| AccountsSerializers.DomainCaseSlipsPastUniqueness | backend/accounts/serializers.py:98-101 | As written, an address whose domain has an upper-case letter, such as 'a@EXAMPLE.COM', passes the email field while its normalised form ('a@example.com') is already stored. `ValidatedEmailCanCollide` then makes creation fail with an integrity error. |
| AccountsSerializers.ValidatedEmailCanCollide | backend/accounts/serializers.py:96-107 | Any validated registration whose normalised email is stored fails at create with an integrity error. |
| AccountsSerializers.FixedValidate | backend/accounts/serializers.py:51-61 | The corrected check passes only registrations Validate passes, unchanged, whose normalised email and username are free; every Validate failure is kept. |
| AccountsSerializers.FixedRegistrationIsStored | backend/accounts/serializers.py:96-117 | Every registration the corrected check passes is created. |
| AccountsSerializers.CreateDropsConfirmationAndConsent | backend/accounts/serializers.py:80-81 | The stored user and log do not depend on password_confirm or consent. |
| CoreMiddleware.ProcessRequest | backend/core/middleware.py:23-26 | Requests under /api/ are marked CSRF-exempt; nothing else about a request changes. |
| CoreMiddleware.CsrfSkippedIffApiPath | backend/core/middleware.py:23-26 | CSRF checks are skipped exactly for paths starting with /api/. |
| CoreMiddleware.FirstForwardedHop | backend/core/middleware.py:75-78 | The first X-Forwarded-For hop contains no comma. |
| CoreMiddleware.ClientIp | backend/core/middleware.py:75-80 | The client address is the first forwarded hop, else REMOTE_ADDR, else 'unknown'. |
| CoreMiddleware.ClientIpIgnoresLaterHops | backend/core/middleware.py:75-80 | For a forwarded list 'a, b, c', the client is 'a', whatever the proxies appended. |
| CoreMiddleware.HandleValidationError | backend/core/middleware.py:123-133 | 400 'Validation Error'; the exception text only under DEBUG, else 'Invalid input data'; details only under DEBUG for a message dict. |
| CoreMiddleware.HandleApiException | backend/core/middleware.py:135-145 | The exception's own status, default 400, with its class name and detail. |
| CoreMiddleware.HandleServerError | backend/core/middleware.py:147-154 | Always 500 with error 'Internal Server Error'. |
| CoreMiddleware.ExceptionStatusMapping | backend/core/middleware.py:112-121 | ValidationError gives 400, APIException its status or 400, ValueError/TypeError 400, anything else 500; 500 arises only from those. |
| CoreMiddleware.ValidationMessageHiddenOutsideDebug | backend/core/middleware.py:123-133 | Outside DEBUG a validation failure never reveals the exception text or details. |
| CoreMiddleware.CustomExceptionHandler | backend/core/middleware.py:157-181 | None stays None; otherwise the same response plus the X-Request-ID header. |
| CoreUtils.CreateResponse | backend/core/utils.py:8-30 | The envelope has success, message and status_code in order, data exactly when it is not None, and the HTTP status equals status_code. |
| CoreUtils.SuccessResponse | backend/core/utils.py:33-35 | A success envelope with the given status and message, and data when given. |
| CoreUtils.ErrorResponse | backend/core/utils.py:38-40 | A failure envelope that never carries data. |
| CoreUtils.ValidationErrorResponse | backend/core/utils.py:43-50 | 400, failure, 'Validation failed', data = {errors}. |
| CoreUtils.EnvelopeDefaults | backend/core/utils.py:33-40 | success_response defaults to 200 'Success' without data; error_response to 400 'Error'. |
| CoreUtils.EnvelopeStatusAgrees | backend/core/utils.py:8-30 | Every envelope reports in its body the status it is sent with. |
| FrontendCrypto.ByteToHexDigits | frontend/src/lib/crypto.ts:47-51 | Each byte becomes exactly two lower-case digits, the high nibble first. |
| FrontendCrypto.BytesToHexSpec | frontend/src/lib/crypto.ts:47-51 | The hex text has two lower-case digits per byte, in byte order. |
| FrontendCrypto.HexToBytes | frontend/src/lib/crypto.ts:36-42 | The decoded array has one byte per two characters. |
| FrontendCrypto.PairRoundTrip | frontend/src/lib/crypto.ts:36-51 | The two digits of a byte parse back to that byte. |
| FrontendCrypto.HexRoundTrip | frontend/src/lib/crypto.ts:36-51 | hexToBytes(bytesToHex(b)) == b for every byte sequence. |
| FrontendCrypto.TagStart | frontend/src/lib/crypto.ts:82-84 | The split point leaves the last 16 bytes as the tag when there are at least 16. |
| FrontendCrypto.Enc | frontend/src/lib/crypto.ts:61-90 | enc fails exactly when the key is not set, with the key error. |
| FrontendCrypto.DecUnframe | frontend/src/lib/crypto.ts:99-118 | dec fails on an unset key; with a key it reports the format error exactly when the text does not split into three parts. |
| FrontendCrypto.HexHasNoColon | frontend/src/lib/crypto.ts:47-51 | Hex text never contains the ':' separator. |
| FrontendCrypto.EncIsJoin | frontend/src/lib/crypto.ts:82-89 | enc's output is the hex of the IV, the ciphertext and the tag, joined by colons. |
| FrontendCrypto.EncSplitsIntoFields | frontend/src/lib/crypto.ts:85-89 | Splitting enc's output on ':' gives back its three hex fields. |
| FrontendCrypto.EncHasThreeParts | frontend/src/lib/crypto.ts:85-107 | Every enc output passes dec's format check; with a 16-byte IV and tag, both outer fields are 32 characters. |
| FrontendCrypto.EncDecRoundTrip | frontend/src/lib/crypto.ts:61-118 | dec recovers exactly the IV and the sealed bytes enc framed, with ciphertext and tag recombined. |
| Zod.Min | frontend/src/lib/validations/auth.ts:10-14 | `min(n)` reports one issue at its path exactly when the UTF-16 length is below n. |
| Zod.Check | frontend/src/lib/validations/auth.ts:21-23 | A refinement reports an issue at its path exactly when its condition fails. |
| Zod.Enum | frontend/src/lib/validations/booking.ts:4-6 | An enum reports an issue at its path exactly when the value is not an option. |
| Validations.LoginIssues | frontend/src/lib/validations/auth.ts:3-7 | Login passes exactly with a valid email, a password of at least 8 and an allowed role when one is given. |
| Validations.RegisterFieldIssues | frontend/src/lib/validations/auth.ts:9-20 | The fields pass exactly with both names, a username of 3 or more, a valid email, a password of 8 or more, consent true and an allowed role. |
| Validations.RegisterIssues | frontend/src/lib/validations/auth.ts:9-33 | Registration passes exactly when the fields pass, the confirmation matches and a provider has a 16-character id. |
| Validations.MismatchReportedOnConfirmField | frontend/src/lib/validations/auth.ts:21-23 | A mismatched confirmation is reported on password_confirm, whatever else is wrong. |
| Validations.ProviderIdOnlyForProviders | frontend/src/lib/validations/auth.ts:24-33 | A customer's form is judged the same whatever provider id it carries. |
| Validations.ProviderNeedsSixteenCharacterId | frontend/src/lib/validations/auth.ts:24-33 | A provider passes only with a provider id of exactly 16 characters; a missing one is reported on provider_id. |
| Validations.ServiceTypesMatchBackend | frontend/src/lib/validations/booking.ts:4-6 | The form offers exactly the backend's service types, in the same order. |
| Validations.ServiceTypeIssues | frontend/src/lib/validations/booking.ts:4-6 | The service type passes exactly when it is given and one of the options; issues sit on service_type. |
| Validations.BookingFieldIssues | frontend/src/lib/validations/booking.ts:4-18 | The fields pass exactly when the service type, budget, date, time, duration, address, city and phone rules all hold. |
| Validations.BookingIssues | frontend/src/lib/validations/booking.ts:3-31 | A booking passes exactly when its fields pass and its date and time are strictly after now. |
| Validations.EmptyBudgetAccepted | frontend/src/lib/validations/booking.ts:7-10 | An absent or empty budget is never an error. |
| Validations.PastDateReportedOnDate | frontend/src/lib/validations/booking.ts:20-31 | A well-formed booking that is not in the future fails on 'date' alone. |
| Validations.ProfileIssues | frontend/src/lib/validations/profile.ts:4-8 | The profile passes exactly with both names non-empty and a valid email. |
| Validations.ProfileCityUnconstrained | frontend/src/lib/validations/profile.ts:8 | The city never affects the verdict. |
| Validations.NonEmptyNamePasses | frontend/src/lib/validations/profile.ts:5-7 | Non-empty names with a valid email always pass. |
| CovidApi.QueryParams | frontend/src/lib/apis/covid.ts:17-26 | Country comes first and always; then the state when truthy, then the cleaned city when not empty. |
| CovidApi.QueryParamsLookups | frontend/src/lib/apis/covid.ts:17-26 | Read back, the query holds the country, the truthy state and the cleaned city, and nothing for an absent one. |
| CovidApi.CleanCityParamSpec | frontend/src/lib/apis/covid.ts:21-22 | Cleaning yields a piece of the typed city without a trailing slash, and changes nothing exactly when the city is already clean. |
| CovidApi.CleanCitySentVerbatim | frontend/src/lib/apis/covid.ts:21-26 | An already clean city is sent verbatim. |
| CovidApi.SentCityHasNoTrailingSlash | frontend/src/lib/apis/covid.ts:21-26 | The city sent never ends with '/'. |
| SimpleMap.Location | frontend/src/components/maps/SimpleMap.tsx:29-34 | The location is empty exactly when both cleaned parts are, and it starts with the cleaned address. |
| SimpleMap.CleanPartSpec | frontend/src/components/maps/SimpleMap.tsx:25-26 | A cleaned part never ends with ',', and cleaning changes a part exactly when the part is not already clean. |
| SimpleMap.CleanPropsLocation | frontend/src/components/maps/SimpleMap.tsx:29-34 | With clean props: both parts joined by ', ', or the only non-empty one, or ''. |
| SimpleMap.Effect | frontend/src/components/maps/SimpleMap.tsx:37-40 | The map reloads exactly when the location changed or no map exists, and then records the location; otherwise nothing changes. |
| SimpleMap.SamePropsDoNotReload | frontend/src/components/maps/SimpleMap.tsx:37-40 | Once a map exists, rendering again with the same props does not reload it. |
| Pagination.TotalPages | frontend/src/components/dashboard/bookings/BookingsSection.tsx:106 | The fewest pages of three that hold all items. |
| Pagination.PageItems | frontend/src/components/dashboard/bookings/BookingsSection.tsx:107-111 | Page p in range is the non-empty slice [(p-1)*3, min(3p, n)); beyond the last page it is empty; never more than 3 items. |
| Pagination.PagesConcatenate | frontend/src/components/dashboard/all-services/AllServicesSection.tsx:22-25 | Concatenating the pages gives back every item in order, and each page holds one to three items. |
| Pagination.Window | frontend/src/components/dashboard/bookings/BookingsSection.tsx:117-133 | min(total, 5) consecutive ascending pages within [1, total], containing the current page when it is in range. |
| Pagination.LastPageLinkedOnce | frontend/src/components/dashboard/bookings/BookingsSection.tsx:177-191 | With the ellipsis, the last page is not in the window; without it, the last page is in the window. |
| Pagination.EllipsisHidesPagesIff | frontend/src/components/dashboard/services/ServicesSection.tsx:154-168 | The ellipsis hides at least one page exactly when the window ends two or more pages before the last. |
| Pagination.Previous | frontend/src/components/dashboard/bookings/BookingsSection.tsx:170 | The previous target is at least 1 and at most one before the current page. |
| Pagination.Next | frontend/src/components/dashboard/bookings/BookingsSection.tsx:195 | The next target is at most the last page and at most one after the current page. |
| Pagination.TargetsStayInRange | frontend/src/components/dashboard/services/ServicesSection.tsx:141-172 | From a page in range, every control leads to a page in range. |
| Pagination.ShowingRangeCountsPage | frontend/src/components/dashboard/bookings/BookingsSection.tsx:205 | On a page in range, the "Showing a-b" line counts exactly the items shown. |
| Pagination.PageList | frontend/src/components/dashboard/all-services/AllServicesSection.tsx:88 | The page links are exactly 1..total. |
| Pagination.WindowIsPageListWhenFew | frontend/src/components/dashboard/services/ServicesSection.tsx:94-100 | Up to five pages, the window is the full page list. |
| BookingActions.PayButtonFor | frontend/src/components/dashboard/booking-detail/BookingActions.tsx:45-62 | A pay control appears exactly for a customer's confirmed booking with a truthy quote or budget; it is the Paid badge exactly when the payment is paid, else enabled unless paying, reading 'Redirecting...' while paying. |
| BookingActions.ProvidersNeverPay | frontend/src/components/dashboard/booking-detail/BookingActions.tsx:45 | A provider never gets a pay control. |
| BookingActions.RenderedPayButton | frontend/src/components/dashboard/booking-detail/BookingActions.tsx:45-46 | For an object a serializer rendered, the pay control appears exactly when the serializer sends status and budget and the booking is confirmed with a budget; it is never the Paid badge, since provider_quote and payment_status are never sent. |
| BookingActions.DetailResponseNeverOffersPayment | frontend/src/components/dashboard/booking-detail/BookingActions.tsx:45 | The detail response sends no price, so the booking page never offers to pay. |
| BookingActions.ZeroBudgetOffersPaymentCheckoutRefuses | backend/payments/views.py:98-107 | A confirmed booking with a zero budget renders as '0.00', which is truthy, so the client offers 'Pay Now'. The checkout as written answers with the 500 of the missing provider_quote attribute. Corrected and without a quote, it answers 'No price available for this booking'. |
| BookingActions.QuotedBookingNotOffered | frontend/src/components/dashboard/booking-detail/BookingActions.tsx:45 | A booking the corrected checkout would price by its quote alone gets no pay control, because the quote is never sent. |
| BookingActions.CancelButtonFor | frontend/src/components/dashboard/booking-detail/BookingActions.tsx:67-71 | Cancel is offered exactly for pending or confirmed bookings, whatever the role, and is disabled while cancelling. |
| BookingActions.ActionsByStatus | frontend/src/components/dashboard/booking-detail/BookingActions.tsx:45-71 | Both actions appear together only on a confirmed booking; neither appears once work has started or ended. |
| BookingProviderInfo.Render | frontend/src/components/dashboard/booking-detail/BookingProviderInfo.tsx:19-49 | Nothing renders without a provider; otherwise the provider's email, and the quote row exactly when the quote is truthy. |
| BookingProviderInfo.ProviderNameCases | frontend/src/components/dashboard/booking-detail/BookingProviderInfo.tsx:23-25 | Only a first name shows it, only a last name shows it, both show them joined by a space, neither shows 'Not provided'. |
| BookingProviderInfo.BlankNameShowsEmpty | frontend/src/components/dashboard/booking-detail/BookingProviderInfo.tsx:23-25 | A blank first name with no last name shows an empty name rather than 'Not provided'. |
| BookingProviderInfo.TrimKeepsFullName | frontend/src/components/dashboard/booking-detail/BookingProviderInfo.tsx:23-24 | Two trimmed names joined by a space survive the trim unchanged. |
| AvailableTasks.ErrorMessage | frontend/src/hooks/use-available-tasks.ts:22 | The shown message is the error's own when it has one, never empty. |
| AvailableTasks.FetchTasks | frontend/src/hooks/use-available-tasks.ts:11-28 | Loading ends; a successful response with data replaces the list and clears the error; anything else keeps the list and sets a non-empty error. |
| AvailableTasks.UnknownErrorOnlyWithoutMessage | frontend/src/hooks/use-available-tasks.ts:18-24 | The default 'An unknown error occurred.' appears only when the error carries no message of its own. |
| AvailableTasks.RemoveIdCounts | frontend/src/hooks/use-available-tasks.ts:36 | The filter drops every task with the id and keeps every other task, each as often as before. |
| AvailableTasks.RemoveIdAppend | frontend/src/hooks/use-available-tasks.ts:36 | The filter distributes over concatenation, so the kept tasks keep their order. |
| AvailableTasks.RemoveIdAbsent | frontend/src/hooks/use-available-tasks.ts:36 | A list without that id is returned unchanged. |
| AvailableTasks.AcceptTask | frontend/src/hooks/use-available-tasks.ts:30-45 | Answers true exactly on a successful response, then keeping only tasks from the list with another id; otherwise the list is unchanged. |
| AvailableTasks.AcceptIdempotent | frontend/src/hooks/use-available-tasks.ts:30-37 | Accepting the same task twice changes the list only once. |
| AvailableTasks.RenderAsWritten | frontend/src/components/dashboard/all-services/AllServicesSection.tsx:27-113 | The empty card shows exactly when loading is over, there is no error and no task; controls show exactly with more than one page. |
| AvailableTasks.AcceptStrandsLastPage | frontend/src/components/dashboard/all-services/AllServicesSection.tsx:19-25 | As written: four tasks, page 2, the fourth accepted; the page shows no task and no control to leave it. |
| AvailableTasks.ClampPage | frontend/src/components/dashboard/all-services/AllServicesSection.tsx:19-25 | The clamped page is in range when any page exists, and a page in range is kept. |
| AvailableTasks.Render | frontend/src/components/dashboard/all-services/AllServicesSection.tsx:27-113 | The section with a clamped page shows the empty card under the same condition as the section as written. |
| AvailableTasks.ClampedPageShowsTasks | frontend/src/components/dashboard/all-services/AllServicesSection.tsx:19-25 | With the page clamped, a non-empty list always shows some tasks. |

## Left out

- Stripe (`Session.create`, `Webhook.construct_event`) is a foreign service. Its outcomes are inputs (`SessionOutcome`, `Verification`).
- The webhook's `payment_intent.payment_failed` branch only logs, so it is modelled as changing nothing.
- Cryptographic primitives are left out: Fernet and PBKDF2 on the backend, AES-GCM and key derivation in the browser.
- `backend/core/parsers.py` and `backend/accounts/authentication.py` are not part of this model. They wrap library decryption and simplejwt.
- The Django ORM, transactions and persistence are replaced by tables as sequences of rows and by explicit lookups. The model does not cover the model-level `full_clean` beyond `Payment.clean`. Column length limits are checked only where the booking create serializer checks them.
- The clock is the `now` argument. Time zones and `Date` parsing are the function argument `toInstant`.
- JavaScript `Number()` is the function argument `toNumber`. zod's email regular expression is the predicate argument `isEmail`.
- URL percent-encoding of the COVID query and the HTTP transport are not modelled.
- Google Maps script loading, geocoding and markers are not modelled, nor SimpleMap.tsx beyond lines 24-40.
- Number and date formatting in the frontend (`toFixed`, locale formatting) is not modelled.
- BookingActions.PayButtonFor reads the booking object the client holds. The model does not follow how the frontend's hooks assemble that object; `RenderedPayButton` covers the case where the object is exactly what a booking serializer rendered.
- Python's `upper`, `lower` and `title` are modelled on ASCII letters only; other characters are treated as uncased.
- The row lookups do not model the `NotFound` detail text of a missing id; only the class and status are compared.
- backend/bookings/models.py declares no `provider_quote` column, although the payment views and the frontend read one. `Booking` has no quote in the model either: reading one is the `AttributeError` of PaymentsViews.CheckoutDecision. The corrected checkout takes the quote as the function argument `quoteOf`.
- PaymentsViews.StripeWebhook requires `CanStore`: either every stored payment already has a QR token, or some random draw is free. The source's unbounded retry loop is not modelled.
- PaymentsModels.MarkAsPaid, MarkAsFailed, Cancel and Refund require `CanSave` for the same reason: the save they end with must be able to find a free token.
- PaymentsModels.GenerateQrToken requires that some draw is free. The source loops until `token_urlsafe` yields one; the model does not cover unbounded retries.
- CovidViews follows the code rather than backend/tests/test_covid_restrictions.py:74. That test expects 'unknown' for AU/SA without a city, but the code answers the state's most common level, 'low' (`SouthAustraliaDefaultIsLow`).
- FrontendCrypto.HexToBytes does not state what malformed hex decodes to. It models the `parseInt` `NaN`-to-0 conversion but proves only the length and the round trip.
- BookingsViews.AssignColumn covers the columns a JSON value can be assigned to directly. The primary key `id`, foreign keys (`user`, `provider`), a numeric `budget`, timestamps sent as text and keys that are not columns give `OutsideModel`. Timestamps are numbers.
- BookingsViews.ApplyUpdate does not enforce `max_length` on update. Model validation does not run on `save`, and whether the database refuses an over-long text depends on the backend, which is not part of this model.
- AccountsSerializers: Django's `EmailValidator` regular expressions and Python's `\w` on non-ASCII characters are the parameters `isEmail` and `isUnicodeWord`. The surrogate-character validator of `CharField` is not modelled.
- AccountsSerializers.CreateUser: the NFKC normalisation of the username and the password hasher are the parameters `normalizeUsername` and `makePassword`. `normalize_email` lower-cases the domain on ASCII letters only.
- AccountsSerializers.RunFlag takes an already-parsed boolean. `BooleanField`'s parsing of strings such as "true" or "0" is not modelled.
- `LoginSerializer` and `UserSerializer` (backend/accounts/serializers.py:120-148) are not modelled.
- BookingsModels.ParseUuid covers the spellings that leave 32 hex digits, in either letter case, once 'urn:' and 'uuid:' are removed, braces are stripped and hyphens dropped. `uuid.UUID` reads the 32 remaining characters with `int(hex, 16)`. The model refuses every spelling that `int(hex, 16)` accepts other than 32 ASCII hex digits, for example a leading '+', surrounding whitespace, '_' between digits, a '0x' or '0X' prefix, or non-ASCII decimal digits. For those ids the model answers `Malformed` where the source looks the booking up. A value that is already a `UUID` or an integer is not modelled.
- BookingsSerializers.CreateWith takes `start_time` as a timestamp and `duration_hours` as an integer, both already parsed. DRF's parsing of date-time and numeric text, and its messages for text that does not parse, are not modelled.
- BookingsSerializers.RunDuration does not model the upper bound DRF takes from the database backend's integer range for a `PositiveIntegerField`, because it depends on the backend.
- DrfFields.RunCharField does not model `CharField`'s surrogate-character validator.
- backend/tests/test_stripe_checkout.py:205-224 posts the id 'test' and expects the missing-key message. The code answers the invalid-UUID error first (`MalformedBookingIdIsInternalError`), and the model follows the code.
- Presentation components, toasts, loading spinners and the error alert's retry button are left out.

## Findings

| source | as written | input that shows it | evidently intended | confidence | as-written member | corrected member |
|---|---|---|---|---|---|---|
| frontend/src/hooks/use-available-tasks.ts:30-37 | Accepting a task removes it from the list, but AllServicesSection.tsx:19-25 keeps `currentPage`, so the list can shrink below the current page. | Four tasks with distinct ids, page 2 open, the fourth task accepted: page 2 slices nothing, and with one page left no pagination control is rendered to go back. | The page is clamped to the last existing page, so a non-empty list always shows tasks. | medium, not executed | AvailableTasks.AcceptStrandsLastPage | AvailableTasks.ClampedPageShowsTasks |
| backend/bookings/serializers.py:28-31 | The `Meta.fields` of all three booking serializers list 'service' (also lines 72-75 and 93-96). `Booking` has no such attribute; its column is `service_type` (backend/bookings/models.py:44). | Any create, detail or list request: `ModelSerializer` cannot build the field 'service' and raises `ImproperlyConfigured`. The update view stores the row before it fails the same way. | The lists name 'service_type', the column backend/tests/test_booking_api.py:74 evidently predates. | medium, not executed | BookingsSerializers.AsWrittenSerializersFail | BookingsSerializers.FixedCreateChecksFields |
| backend/payments/views.py:98-107 | The amount rule reads `booking.provider_quote`, but `Booking` has no such attribute (backend/bookings/models.py:10-182). | Any booking_id naming an existing booking: the read raises `AttributeError`, and the handler at lines 156-160 answers 500 "Internal error: 'Booking' object has no attribute 'provider_quote'". The price check, the secret key and Stripe are never reached. | The quote is read where the booking has one, else the budget, else the 400 'No price available for this booking'. | high, not executed | PaymentsViews.AsWrittenCheckoutFails | PaymentsViews.FixedCheckoutDecision |
| backend/accounts/serializers.py:98-101 | Uniqueness is checked on the email as typed, but `create_user` stores the normalised email, whose domain is lower-cased. The column is unique (backend/accounts/models.py:7). | 'a@EXAMPLE.COM' next to a stored 'a@example.com': the email passes validation, and the insert then violates the unique column. | The registration is refused at validation, because the address is compared in the form that is stored. | medium, not executed | AccountsSerializers.DomainCaseSlipsPastUniqueness | AccountsSerializers.FixedRegistrationIsStored |

=== FILE: accounts_serializers.dfy ===
/**
 * `RegisterSerializer` of backend/accounts/serializers.py as Django REST
 * framework runs it: every field of `Meta.fields` is trimmed, checked for
 * blank or null, and passed through its validators (uniqueness, length,
 * null characters, the email and username formats), all messages
 * collected; the custom `validate_email`/`validate_username` run after a
 * field passes; `validate` checks the confirmation and the consent; and
 * `create` calls `create_user`, which normalises the email and the
 * username and stores a password hash, and records the consent.  Existing
 * accounts are given as the sets of stored emails and usernames.
 */
module AccountsSerializers {
  import opened Wrappers
  import opened Text
  import opened CoreMiddleware
  import opened DrfFields

  /** The registration payload, one entry per field of `Meta.fields`. */
  datatype RegisterInput = RegisterInput(
    email: Sent,
    username: Sent,
    firstName: Sent,
    lastName: Sent,
    password: Sent,
    passwordConfirm: Sent,
    consent: SentFlag,
    role: Sent,
    city: Sent,
    vaccinated: SentFlag)

  /** The accounts already stored: their emails and usernames, both unique columns. */
  datatype Registry = Registry(emails: set<string>, usernames: set<string>)

  /** Every address `EmailValidator` accepts contains an `@` (it rejects any value without one first). */
  ghost predicate EmailCheckSound(checks: Checks) {
    forall v :: checks.isEmail(v) ==> '@' in v
  }

  /** The `unique` message of the email column, with the model's verbose names filled in. */
  const EmailTakenMessage: string := "User with this email address already exists."
  /** The `unique` message `AbstractUser` gives its username column. */
  const UsernameTakenMessage: string := "A user with that username already exists."
  /** The texts of the serializer's own `validate_email` and `validate_username`. */
  const CustomEmailTakenMessage: string := "A user with this email already exists."
  const CustomUsernameTakenMessage: string := "A user with this username already exists."
  const ConfirmationMessage: string := "Password confirmation does not match."
  const ConsentMessage: string := "You must agree to the terms and conditions."

  /** `min_length` of the password field. */
  const PasswordMinLength: nat := 8

  /** The email field: the unique column's validator, then `max_length` 254, null characters and the email format. */
  function EmailSpec(registry: Registry): CharSpec {
    CharSpec(true, false, false, [Unique(registry.emails, EmailTakenMessage), MaxLength(254), NoNullCharacters, EmailFormat])
  }

  /** The username field: the username format, the unique column's validator, `max_length` 150 and null characters. */
  function UsernameSpec(registry: Registry): CharSpec {
    CharSpec(true, false, false, [UsernameFormat, Unique(registry.usernames, UsernameTakenMessage), MaxLength(150), NoNullCharacters])
  }

  /** First and last name: optional, blank allowed, at most 150 characters. */
  const NameSpec: CharSpec := CharSpec(false, false, true, [MaxLength(150), NoNullCharacters])
  /** The declared password field: required, at least 8 characters. */
  const PasswordSpec: CharSpec := CharSpec(true, false, false, [MinLength(PasswordMinLength), NoNullCharacters])
  /** The declared confirmation field: required. */
  const ConfirmSpec: CharSpec := CharSpec(true, false, false, [NoNullCharacters])
  /** Role: optional, blank and null allowed, at most 50 characters. */
  const RoleSpec: CharSpec := CharSpec(false, true, true, [MaxLength(50), NoNullCharacters])
  /** City: optional, blank and null allowed, at most 100 characters. */
  const CitySpec: CharSpec := CharSpec(false, true, true, [MaxLength(100), NoNullCharacters])

  /** `validate_email`, run on the field's value once the field passed. */
  function ValidateEmail(value: string, emails: set<string>): (r: Result<string, string>)
    ensures r.Ok? <==> value !in emails
    ensures r.Ok? ==> r.value == value
  {
    if value in emails then Err(CustomEmailTakenMessage) else Ok(value)
  }

  /** `validate_username`, run on the field's value once the field passed. */
  function ValidateUsername(value: string, usernames: set<string>): (r: Result<string, string>)
    ensures r.Ok? <==> value !in usernames
    ensures r.Ok? ==> r.value == value
  {
    if value in usernames then Err(CustomUsernameTakenMessage) else Ok(value)
  }

  /** A field whose `validate_<field>` method runs after the field's own validation. */
  function WithMethod(r: Result<Sent, seq<string>>, validateField: string -> Result<string, string>): (out: Result<Sent, seq<string>>)
    ensures r.Err? ==> out == r
    ensures r.Ok? && !r.value.Str? ==> out == r
    ensures r.Ok? && r.value.Str? ==> out == if validateField(r.value.s).Ok? then Ok(Str(validateField(r.value.s).value)) else Err([validateField(r.value.s).error])
  {
    match r
    case Ok(Str(v)) => (match validateField(v) case Ok(w) => Ok(Str(w)) case Err(m) => Err([m]))
    case _ => r
  }

  /** The email field's outcome. */
  function EmailResult(input: RegisterInput, registry: Registry, checks: Checks): Result<Sent, seq<string>> {
    WithMethod(RunCharField(EmailSpec(registry), input.email, checks), v => ValidateEmail(v, registry.emails))
  }

  /** The username field's outcome. */
  function UsernameResult(input: RegisterInput, registry: Registry, checks: Checks): Result<Sent, seq<string>> {
    WithMethod(RunCharField(UsernameSpec(registry), input.username, checks), v => ValidateUsername(v, registry.usernames))
  }

  /** The field errors, one entry per failing field, in `Meta.fields` order. */
  function FieldErrors(input: RegisterInput, registry: Registry, checks: Checks): (errs: seq<(string, seq<string>)>)
    ensures errs == [] <==>
              EmailResult(input, registry, checks).Ok? && UsernameResult(input, registry, checks).Ok?
              && RunCharField(NameSpec, input.firstName, checks).Ok? && RunCharField(NameSpec, input.lastName, checks).Ok?
              && RunCharField(PasswordSpec, input.password, checks).Ok?
              && RunCharField(ConfirmSpec, input.passwordConfirm, checks).Ok? && RunFlag(true, input.consent).Ok?
              && RunCharField(RoleSpec, input.role, checks).Ok? && RunCharField(CitySpec, input.city, checks).Ok?
              && RunFlag(false, input.vaccinated).Ok?
  {
    ErrorsOf("email", EmailResult(input, registry, checks))
    + ErrorsOf("username", UsernameResult(input, registry, checks))
    + ErrorsOf("first_name", RunCharField(NameSpec, input.firstName, checks))
    + ErrorsOf("last_name", RunCharField(NameSpec, input.lastName, checks))
    + ErrorsOf("password", RunCharField(PasswordSpec, input.password, checks))
    + ErrorsOf("password_confirm", RunCharField(ConfirmSpec, input.passwordConfirm, checks))
    + ErrorsOf("consent", RunFlag(true, input.consent))
    + ErrorsOf("role", RunCharField(RoleSpec, input.role, checks))
    + ErrorsOf("city", RunCharField(CitySpec, input.city, checks))
    + ErrorsOf("vaccinated", RunFlag(false, input.vaccinated))
  }

  /** `validated_data` after the field checks, with the defaults `create` reads. */
  datatype Registration = Registration(
    email: string,
    username: string,
    firstName: string,
    lastName: string,
    password: string,
    passwordConfirm: string,
    consent: bool,
    role: Option<string>,
    city: Option<string>,
    vaccinated: bool)

  /** A cleaned text value, `""` when absent (`validated_data.get(name, '')`). */
  function TextOr(r: Result<Sent, seq<string>>): string {
    if r.Ok? && r.value.Str? then r.value.s else ""
  }

  /** A cleaned optional value, `None` when absent or `null`. */
  function OptionalOf(r: Result<Sent, seq<string>>): Option<string> {
    if r.Ok? && r.value.Str? then Some(r.value.s) else None
  }

  /** The cleaned payload. */
  function Cleaned(input: RegisterInput, registry: Registry, checks: Checks): Registration {
    Registration(
      TextOr(EmailResult(input, registry, checks)),
      TextOr(UsernameResult(input, registry, checks)),
      TextOr(RunCharField(NameSpec, input.firstName, checks)),
      TextOr(RunCharField(NameSpec, input.lastName, checks)),
      TextOr(RunCharField(PasswordSpec, input.password, checks)),
      TextOr(RunCharField(ConfirmSpec, input.passwordConfirm, checks)),
      input.consent.Flag? && input.consent.b,
      OptionalOf(RunCharField(RoleSpec, input.role, checks)),
      OptionalOf(RunCharField(CitySpec, input.city, checks)),
      input.vaccinated.Flag? && input.vaccinated.b)
  }

  /**
   * `is_valid`: the field checks first; only when they all pass does
   * `validate` run, comparing the trimmed password and confirmation before
   * looking at the consent.
   */
  function Validate(input: RegisterInput, registry: Registry, checks: Checks)
    : (r: Result<Registration, seq<(string, seq<string>)>>)
    ensures r.Ok? <==> FieldErrors(input, registry, checks) == []
                       && Cleaned(input, registry, checks).password == Cleaned(input, registry, checks).passwordConfirm
                       && Cleaned(input, registry, checks).consent
    ensures r.Ok? ==> r.value == Cleaned(input, registry, checks)
    ensures r.Err? ==> |r.error| > 0
    ensures FieldErrors(input, registry, checks) != [] ==> r == Err(FieldErrors(input, registry, checks))
  {
    var errs := FieldErrors(input, registry, checks);
    var data := Cleaned(input, registry, checks);
    if errs != [] then Err(errs)
    else if data.password != data.passwordConfirm then Err([("password_confirm", [ConfirmationMessage])])
    else if !data.consent then Err([("consent", [ConsentMessage])])
    else Ok(data)
  }

  /** A registered email is refused by the unique column's validator, whose message is the model's. */
  lemma DuplicateEmailRejected(input: RegisterInput, registry: Registry, checks: Checks)
    requires input.email.Str? && PyStrip(input.email.s) != "" && PyStrip(input.email.s) in registry.emails
    ensures Validate(input, registry, checks).Err?
    ensures Validate(input, registry, checks).error[0].0 == "email"
    ensures EmailTakenMessage in Validate(input, registry, checks).error[0].1
  {
    var v := PyStrip(input.email.s);
    assert Check(EmailSpec(registry).validators[0], v, checks) == Some(EmailTakenMessage);
  }

  /** A registered username is refused by the unique column's validator, whose message is the model's. */
  lemma DuplicateUsernameRejected(input: RegisterInput, registry: Registry, checks: Checks)
    requires input.username.Str? && PyStrip(input.username.s) != "" && PyStrip(input.username.s) in registry.usernames
    ensures Validate(input, registry, checks).Err?
    ensures exists ms :: ("username", ms) in Validate(input, registry, checks).error && UsernameTakenMessage in ms
  {
    var v := PyStrip(input.username.s);
    assert Check(UsernameSpec(registry).validators[1], v, checks) == Some(UsernameTakenMessage);
    var r := UsernameResult(input, registry, checks);
    var before := ErrorsOf("email", EmailResult(input, registry, checks));
    var all := FieldErrors(input, registry, checks);
    assert all[|before|] == ("username", r.error);
  }

  /** Every message the email field's validators produce. */
  lemma EmailMessages(registry: Registry, value: string, checks: Checks, m: string)
    requires m in RunValidators(EmailSpec(registry).validators, value, checks)
    ensures m in {EmailTakenMessage, MaxLengthMessage(254), NullCharactersMessage, InvalidEmailMessage}
  {
    var vs := EmailSpec(registry).validators;
    var i :| 0 <= i < |vs| && Check(vs[i], value, checks) == Some(m);
  }

  /** Every message the username field's validators produce. */
  lemma UsernameMessages(registry: Registry, value: string, checks: Checks, m: string)
    requires m in RunValidators(UsernameSpec(registry).validators, value, checks)
    ensures m in {InvalidUsernameMessage, UsernameTakenMessage, MaxLengthMessage(150), NullCharactersMessage}
  {
    var vs := UsernameSpec(registry).validators;
    var i :| 0 <= i < |vs| && Check(vs[i], value, checks) == Some(m);
  }

  /**
   * The serializer's own duplicate text for emails is never reported: a
   * taken address has already failed the field's unique validator, so
   * `validate_email` only ever sees a free one.
   */
  lemma CustomEmailTextUnreachable(input: RegisterInput, registry: Registry, checks: Checks)
    ensures EmailResult(input, registry, checks).Err? ==> CustomEmailTakenMessage !in EmailResult(input, registry, checks).error
  {
    var r := RunCharField(EmailSpec(registry), input.email, checks);
    if r.Ok? && r.value.Str? {
      assert Check(EmailSpec(registry).validators[0], r.value.s, checks).None?;
    }
    if r.Err? && input.email.Str? && PyStrip(input.email.s) != "" && CustomEmailTakenMessage in r.error {
      EmailMessages(registry, PyStrip(input.email.s), checks, CustomEmailTakenMessage);
    }
  }

  /** Likewise for usernames: `validate_username` only ever sees a free one. */
  lemma CustomUsernameTextUnreachable(input: RegisterInput, registry: Registry, checks: Checks)
    ensures UsernameResult(input, registry, checks).Err? ==>
              CustomUsernameTakenMessage !in UsernameResult(input, registry, checks).error
  {
    var r := RunCharField(UsernameSpec(registry), input.username, checks);
    if r.Ok? && r.value.Str? {
      assert Check(UsernameSpec(registry).validators[1], r.value.s, checks).None?;
    }
    if r.Err? && input.username.Str? && PyStrip(input.username.s) != "" && CustomUsernameTakenMessage in r.error {
      UsernameMessages(registry, PyStrip(input.username.s), checks, CustomUsernameTakenMessage);
    }
  }

  /**
   * The length limit applies to the trimmed password: a password that is
   * shorter than 8 characters once trimmed fails, however much white
   * space surrounds it.
   */
  lemma ShortTrimmedPasswordRejected(input: RegisterInput, registry: Registry, checks: Checks)
    requires input.password.Str? && PyStrip(input.password.s) != "" && |PyStrip(input.password.s)| < PasswordMinLength
    ensures Validate(input, registry, checks).Err?
    ensures exists ms :: ("password", ms) in Validate(input, registry, checks).error
                         && MinLengthMessage(PasswordMinLength) in ms
  {
    var v := PyStrip(input.password.s);
    assert Check(PasswordSpec.validators[0], v, checks) == Some(MinLengthMessage(PasswordMinLength));
    var r := RunCharField(PasswordSpec, input.password, checks);
    var before := ErrorsOf("email", EmailResult(input, registry, checks))
                  + ErrorsOf("username", UsernameResult(input, registry, checks))
                  + ErrorsOf("first_name", RunCharField(NameSpec, input.firstName, checks))
                  + ErrorsOf("last_name", RunCharField(NameSpec, input.lastName, checks));
    var all := FieldErrors(input, registry, checks);
    assert all[|before|] == ("password", r.error);
  }

  /** "1234567 " is seven characters once trimmed, so it is too short. */
  lemma PaddedSevenCharacterPasswordRejected(input: RegisterInput, registry: Registry, checks: Checks)
    requires input.password == Str("1234567 ")
    ensures Validate(input, registry, checks).Err?
  {
    assert DropEnd("1234567 ", IsPyWhitespace) == DropEnd("1234567", IsPyWhitespace);
    DropEndFixed("1234567", IsPyWhitespace);
    DropStartFixed("1234567", IsPyWhitespace);
    ShortTrimmedPasswordRejected(input, registry, checks);
  }

  /** An address the email validator refuses is reported under `email`, whether or not it is taken. */
  lemma MalformedEmailRejected(input: RegisterInput, registry: Registry, checks: Checks)
    requires input.email.Str? && PyStrip(input.email.s) != "" && !checks.isEmail(PyStrip(input.email.s))
    ensures Validate(input, registry, checks).Err?
    ensures Validate(input, registry, checks).error[0].0 == "email"
    ensures InvalidEmailMessage in Validate(input, registry, checks).error[0].1
  {
    var v := PyStrip(input.email.s);
    assert Check(EmailSpec(registry).validators[3], v, checks) == Some(InvalidEmailMessage);
    var r := EmailResult(input, registry, checks);
    assert r.Err? && InvalidEmailMessage in r.error;
    assert FieldErrors(input, registry, checks)[0] == ("email", r.error);
  }

  /** "not-an-email" has no `@`, so it never passes. */
  lemma NotAnEmailRejected(input: RegisterInput, registry: Registry, checks: Checks)
    requires EmailCheckSound(checks)
    requires input.email == Str("not-an-email")
    ensures Validate(input, registry, checks).Err?
    ensures InvalidEmailMessage in Validate(input, registry, checks).error[0].1
  {
    DropEndFixed("not-an-email", IsPyWhitespace);
    DropStartFixed("not-an-email", IsPyWhitespace);
    assert PyStrip("not-an-email") == "not-an-email";
    assert '@' !in "not-an-email";
    MalformedEmailRejected(input, registry, checks);
  }

  /** An email field that passes holds the trimmed address, free and well formed. */
  lemma PassedEmail(input: RegisterInput, registry: Registry, checks: Checks)
    requires EmailResult(input, registry, checks).Ok?
    ensures input.email.Str? && PyStrip(input.email.s) != ""
    ensures EmailResult(input, registry, checks).value == Str(PyStrip(input.email.s))
    ensures PyStrip(input.email.s) !in registry.emails && checks.isEmail(PyStrip(input.email.s))
  {
    RequiredFieldValue(EmailSpec(registry), input.email, checks);
    var v := PyStrip(input.email.s);
    assert Check(EmailSpec(registry).validators[0], v, checks).None?;
    assert Check(EmailSpec(registry).validators[3], v, checks).None?;
  }

  /** A username field that passes holds the trimmed, free username. */
  lemma PassedUsername(input: RegisterInput, registry: Registry, checks: Checks)
    requires UsernameResult(input, registry, checks).Ok?
    ensures input.username.Str? && PyStrip(input.username.s) != ""
    ensures UsernameResult(input, registry, checks).value == Str(PyStrip(input.username.s))
    ensures PyStrip(input.username.s) !in registry.usernames
  {
    RequiredFieldValue(UsernameSpec(registry), input.username, checks);
    assert Check(UsernameSpec(registry).validators[1], PyStrip(input.username.s), checks).None?;
  }

  /** A password field that passes holds the trimmed password, at least 8 characters long. */
  lemma PassedPassword(input: RegisterInput, checks: Checks)
    requires RunCharField(PasswordSpec, input.password, checks).Ok?
    ensures input.password.Str? && RunCharField(PasswordSpec, input.password, checks).value == Str(PyStrip(input.password.s))
    ensures |PyStrip(input.password.s)| >= PasswordMinLength
  {
    RequiredFieldValue(PasswordSpec, input.password, checks);
    assert Check(PasswordSpec.validators[0], PyStrip(input.password.s), checks).None?;
  }

  /** What passes is the trimmed input: the stored values carry no surrounding white space. */
  lemma ValidRegistrationIsTrimmed(input: RegisterInput, registry: Registry, checks: Checks)
    requires Validate(input, registry, checks).Ok?
    ensures var data := Validate(input, registry, checks).value;
            input.email.Str? && data.email == PyStrip(input.email.s) && data.email != ""
            && input.username.Str? && data.username == PyStrip(input.username.s) && data.username != ""
            && input.password.Str? && data.password == PyStrip(input.password.s) && |data.password| >= PasswordMinLength
            && data.email !in registry.emails && data.username !in registry.usernames && checks.isEmail(data.email)
  {
    assert FieldErrors(input, registry, checks) == [];
    PassedEmail(input, registry, checks);
    PassedUsername(input, registry, checks);
    PassedPassword(input, checks);
  }

  /** With every field valid, a mismatched confirmation fails on `password_confirm` alone, whatever the consent. */
  lemma ConfirmationCheckedBeforeConsent(input: RegisterInput, registry: Registry, checks: Checks, consent: SentFlag)
    requires FieldErrors(input, registry, checks) == [] && consent.Flag?
    requires Cleaned(input, registry, checks).password != Cleaned(input, registry, checks).passwordConfirm
    ensures Validate(input, registry, checks) == Err([("password_confirm", [ConfirmationMessage])])
    ensures Validate(input.(consent := consent), registry, checks) == Validate(input, registry, checks)
  {
  }

  /** Without consent a payload that passes every other check fails on `consent`. */
  lemma ConsentRequired(input: RegisterInput, registry: Registry, checks: Checks)
    requires FieldErrors(input, registry, checks) == []
    requires Cleaned(input, registry, checks).password == Cleaned(input, registry, checks).passwordConfirm
    ensures Validate(input, registry, checks).Ok? <==> input.consent == Flag(true)
    ensures input.consent == Flag(false) ==> Validate(input, registry, checks) == Err([("consent", [ConsentMessage])])
  {
  }

  // ---------------------------------------------------------------- create

  /** The index of the last occurrence of `c`. */
  function LastAt(s: string, c: char): (k: nat)
    requires c in s
    ensures k < |s| && s[k] == c && forall j :: k < j < |s| ==> s[j] != c
    decreases |s|
  {
    if s[|s| - 1] == c then |s| - 1 else LastAt(s[..|s| - 1], c)
  }

  /**
   * `normalize_email`: the trimmed address is split at its last `@` and
   * the domain lower-cased; an address without `@` is kept as it came.
   */
  function NormalizeEmail(email: string): (r: string)
    ensures '@' !in email ==> r == email
    ensures '@' in email ==>
              var t := PyStrip(email);
              '@' in t &&
              var k := LastAt(t, '@');
              |r| == |t| && r[..k] == t[..k] && r[k] == '@' && r[k + 1..] == Lower(t[k + 1..])
  {
    var t := PyStrip(email);
    StripKeepsAt(email);
    if '@' in t then
      var k := LastAt(t, '@');
      t[..k] + "@" + Lower(t[k + 1..])
    else email
  }

  /** Trimming removes only white space, so it keeps every `@`. */
  lemma StripKeepsAt(email: string)
    ensures '@' in PyStrip(email) <==> '@' in email
  {
    var e := DropEnd(email, IsPyWhitespace);
    DropEndSpec(email, IsPyWhitespace);
    DropStartSpec(e, IsPyWhitespace);
    var t := PyStrip(email);
    if '@' in email {
      var i :| 0 <= i < |email| && email[i] == '@';
      assert i < |e|;
      assert e[i] == '@';
      assert |e| - |t| <= i;
      assert t[i - (|e| - |t|)] == '@';
    }
    if '@' in t {
      var j :| 0 <= j < |t| && t[j] == '@';
      assert e[j + (|e| - |t|)] == '@';
      assert email[j + (|e| - |t|)] == '@';
    }
  }

  /** The user `create_user` stores: no confirmation and no consent field. */
  datatype User = User(
    email: string,
    username: string,
    passwordHash: string,
    firstName: string,
    lastName: string,
    role: Option<string>,
    city: Option<string>,
    vaccinated: bool)

  /** The consent record created with the user. */
  datatype ConsentLog = ConsentLog(policyVersion: string, ipAddress: Option<string>, userAgent: Option<string>)

  const PolicyVersion: string := "1.0"

  /**
   * What `create_user` takes from the authentication framework: the
   * password hasher (`make_password` with its salt, `check_password`) and
   * the NFKC normalisation of the username.
   */
  datatype Auth = Auth(makePassword: (string, nat) -> string, checkPassword: (string, string) -> bool,
                       normalizeUsername: string -> string)

  /** A stored hash verifies the password it was made from. */
  ghost predicate HasherSound(auth: Auth) {
    forall password, salt {:trigger auth.makePassword(password, salt)} ::
      auth.checkPassword(password, auth.makePassword(password, salt))
  }

  /** The address recorded in the consent log: `REMOTE_ADDR`, replaced by the first forwarded hop when there is one. */
  function ConsentIp(meta: Option<map<string, string>>): (ip: Option<string>)
    ensures meta.None? ==> ip.None?
    ensures meta.Some? && MetaValue(meta.value, "HTTP_X_FORWARDED_FOR").Some? ==>
              ip == Some(FirstForwardedHop(meta.value["HTTP_X_FORWARDED_FOR"]))
    ensures meta.Some? && MetaValue(meta.value, "HTTP_X_FORWARDED_FOR").None? ==>
              ip == (if "REMOTE_ADDR" in meta.value then Some(meta.value["REMOTE_ADDR"]) else None)
  {
    match meta
    case None => None
    case Some(m) =>
      match MetaValue(m, "HTTP_X_FORWARDED_FOR")
      case Some(xff) => Some(FirstForwardedHop(xff))
      case None => if "REMOTE_ADDR" in m then Some(m["REMOTE_ADDR"]) else None
  }

  /** Wherever the request says where it came from, the consent log records the address the middleware logs. */
  lemma ConsentIpAgreesWithMiddleware(meta: map<string, string>)
    requires MetaValue(meta, "HTTP_X_FORWARDED_FOR").Some? || "REMOTE_ADDR" in meta
    ensures ConsentIp(Some(meta)) == Some(ClientIp(meta))
  {
  }

  /** Why `create` fails: `create_user` refuses an empty username, or a unique column refuses the row. */
  datatype CreateError = UsernameNotSet | IntegrityError

  /**
   * `create`: drops `consent` and `password_confirm`, calls `create_user`
   * (normalised email and username, a password hash, the optional fields
   * at their defaults) and writes a consent log for policy version 1.0, in
   * one transaction.  `meta` is the request's `META`, `None` without a
   * request; `salt` is the hasher's random salt.
   */
  function CreateUser(data: Registration, registry: Registry, meta: Option<map<string, string>>, auth: Auth, salt: nat)
    : (r: Result<(User, ConsentLog), CreateError>)
    ensures r == Err(UsernameNotSet) <==> data.username == ""
    ensures r == Err(IntegrityError) <==>
              data.username != "" && (NormalizeEmail(data.email) in registry.emails
                                      || auth.normalizeUsername(data.username) in registry.usernames)
    ensures r.Ok? ==> r.value.0.email == NormalizeEmail(data.email) && r.value.0.email !in registry.emails
                      && r.value.0.username == auth.normalizeUsername(data.username)
                      && r.value.0.username !in registry.usernames
                      && r.value.0.passwordHash == auth.makePassword(data.password, salt)
    ensures r.Ok? ==> r.value.0.firstName == data.firstName && r.value.0.lastName == data.lastName
                      && r.value.0.role == data.role && r.value.0.city == data.city
                      && r.value.0.vaccinated == data.vaccinated
    ensures r.Ok? ==> r.value.1.policyVersion == PolicyVersion && r.value.1.ipAddress == ConsentIp(meta)
    ensures r.Ok? ==> r.value.1.userAgent ==
                        (if meta.Some? && "HTTP_USER_AGENT" in meta.value then Some(meta.value["HTTP_USER_AGENT"]) else None)
  {
    if data.username == "" then Err(UsernameNotSet)
    else
      var email := NormalizeEmail(data.email);
      var username := auth.normalizeUsername(data.username);
      if email in registry.emails || username in registry.usernames then Err(IntegrityError)
      else
        var user := User(email, username, auth.makePassword(data.password, salt), data.firstName, data.lastName,
                         data.role, data.city, data.vaccinated);
        var agent := if meta.Some? && "HTTP_USER_AGENT" in meta.value then Some(meta.value["HTTP_USER_AGENT"]) else None;
        Ok((user, ConsentLog(PolicyVersion, ConsentIp(meta), agent)))
  }

  /** The confirmation and the consent flag influence validation only: the stored user and log do not depend on them. */
  lemma CreateDropsConfirmationAndConsent(data: Registration, registry: Registry, meta: Option<map<string, string>>,
                                          auth: Auth, salt: nat, confirm: string, consent: bool)
    ensures CreateUser(data, registry, meta, auth, salt)
            == CreateUser(data.(passwordConfirm := confirm, consent := consent), registry, meta, auth, salt)
  {
  }

  /** The stored hash verifies the password as it was typed, once trimmed. */
  lemma CreatedUserChecksTrimmedPassword(input: RegisterInput, registry: Registry, checks: Checks,
                                         meta: Option<map<string, string>>, auth: Auth, salt: nat)
    requires HasherSound(auth)
    requires Validate(input, registry, checks).Ok?
    requires CreateUser(Validate(input, registry, checks).value, registry, meta, auth, salt).Ok?
    ensures input.password.Str?
    ensures auth.checkPassword(PyStrip(input.password.s),
                               CreateUser(Validate(input, registry, checks).value, registry, meta, auth, salt).value.0.passwordHash)
  {
    ValidRegistrationIsTrimmed(input, registry, checks);
    var data := Validate(input, registry, checks).value;
    assert auth.checkPassword(data.password, auth.makePassword(data.password, salt));
  }

  /**
   * As written, uniqueness is checked on the address as typed but the
   * normalised address is stored: an address whose domain has an
   * upper-case letter, such as "a@EXAMPLE.COM", passes the email field
   * next to a stored "a@example.com", and the insert then violates the
   * unique column.
   */
  lemma DomainCaseSlipsPastUniqueness(checks: Checks, local: string, domain: string)
    requires '@' !in local && '@' !in domain && Lower(domain) != domain
    requires var address := local + "@" + domain;
             PyStrip(address) == address && |address| <= 254 && '\U{0}' !in address && checks.isEmail(address)
    ensures var address := local + "@" + domain;
            var registry := Registry({local + "@" + Lower(domain)}, {});
            RunCharField(EmailSpec(registry), Str(address), checks) == Ok(Str(address))
            && NormalizeEmail(address) in registry.emails
  {
    var address := local + "@" + domain;
    var stored := local + "@" + Lower(domain);
    var registry := Registry({stored}, {});
    NormalizeSplitAddress(local, domain);
    assert address[|local|] == '@';
    assert address[|local| + 1..] == domain && stored[|local| + 1..] == Lower(domain);
    EmailFieldAccepts(registry, address, checks);
  }

  /** A trimmed address that is not stored, fits 254 characters, has no null character and looks like an email passes the field. */
  lemma EmailFieldAccepts(registry: Registry, address: string, checks: Checks)
    requires address != "" && PyStrip(address) == address && address !in registry.emails
    requires |address| <= 254 && '\U{0}' !in address && checks.isEmail(address)
    ensures RunCharField(EmailSpec(registry), Str(address), checks) == Ok(Str(address))
  {
    var vs := EmailSpec(registry).validators;
    assert Check(vs[0], address, checks).None? && Check(vs[1], address, checks).None?;
    assert Check(vs[2], address, checks).None? && Check(vs[3], address, checks).None?;
  }

  /** An address with one `@` and nothing to trim keeps its local part and lower-cases its domain. */
  lemma NormalizeSplitAddress(local: string, domain: string)
    requires '@' !in local && '@' !in domain
    requires PyStrip(local + "@" + domain) == local + "@" + domain
    ensures NormalizeEmail(local + "@" + domain) == local + "@" + Lower(domain)
  {
    var s := local + "@" + domain;
    assert s[|local|] == '@';
    var k := LastAt(s, '@');
    assert forall j :: |local| < j < |s| ==> s[j] == domain[j - |local| - 1];
    assert k == |local|;
    assert s[..k] == local;
    assert s[k + 1..] == domain;
  }

  /** Whatever passes validation with a stored normalised twin makes `create` fail. */
  lemma ValidatedEmailCanCollide(input: RegisterInput, registry: Registry, checks: Checks,
                                 meta: Option<map<string, string>>, auth: Auth, salt: nat)
    requires Validate(input, registry, checks).Ok?
    requires NormalizeEmail(Validate(input, registry, checks).value.email) in registry.emails
    ensures CreateUser(Validate(input, registry, checks).value, registry, meta, auth, salt) == Err(IntegrityError)
  {
    ValidRegistrationIsTrimmed(input, registry, checks);
  }

  /**
   * The evidently intended check: after the field checks, the address and
   * the username are compared in the form `create_user` stores them.
   */
  function FixedValidate(input: RegisterInput, registry: Registry, checks: Checks, auth: Auth)
    : (r: Result<Registration, seq<(string, seq<string>)>>)
    ensures r.Ok? ==> Validate(input, registry, checks).Ok? && r.value == Validate(input, registry, checks).value
    ensures Validate(input, registry, checks).Err? ==> r == Validate(input, registry, checks)
    ensures r.Ok? ==> NormalizeEmail(r.value.email) !in registry.emails
                      && auth.normalizeUsername(r.value.username) !in registry.usernames
  {
    match Validate(input, registry, checks)
    case Err(errs) => Err(errs)
    case Ok(data) =>
      if NormalizeEmail(data.email) in registry.emails then Err([("email", [EmailTakenMessage])])
      else if auth.normalizeUsername(data.username) in registry.usernames then Err([("username", [UsernameTakenMessage])])
      else Ok(data)
  }

  /** With the corrected check, every registration that passes is stored. */
  lemma FixedRegistrationIsStored(input: RegisterInput, registry: Registry, checks: Checks,
                                  meta: Option<map<string, string>>, auth: Auth, salt: nat)
    requires FixedValidate(input, registry, checks, auth).Ok?
    ensures CreateUser(FixedValidate(input, registry, checks, auth).value, registry, meta, auth, salt).Ok?
  {
    ValidRegistrationIsTrimmed(input, registry, checks);
  }
}

=== FILE: assoc.dfy ===
/**
 * Insertion-ordered dictionaries as association lists: Python dicts and
 * JSON objects keep their keys in the order they were inserted, and several
 * operations of the system depend on that order.
 */
module Assoc {
  import opened Wrappers

  /** `d.get(key)`: the value of the first entry with that key. */
  function Find<K(==), V>(entries: seq<(K, V)>, key: K): (r: Option<V>)
    decreases |entries|
  {
    if |entries| == 0 then None
    else if entries[0].0 == key then Some(entries[0].1)
    else Find(entries[1..], key)
  }

  /** `Find` returns the value of the first entry carrying the key, and nothing when no entry does. */
  lemma {:induction false} FindSpec<K, V>(entries: seq<(K, V)>, key: K)
    ensures Find(entries, key).Some? <==> exists i :: 0 <= i < |entries| && entries[i].0 == key
    ensures Find(entries, key).Some? ==>
              exists i :: 0 <= i < |entries| && entries[i] == (key, Find(entries, key).value)
                          && forall j :: 0 <= j < i ==> entries[j].0 != key
    decreases |entries|
  {
    if |entries| > 0 && entries[0].0 != key {
      FindSpec(entries[1..], key);
      assert forall i :: 1 <= i < |entries| ==> entries[i] == entries[1..][i - 1];
      if Find(entries, key).Some? {
        var i :| 0 <= i < |entries[1..]| && entries[1..][i] == (key, Find(entries, key).value)
                 && forall j :: 0 <= j < i ==> entries[1..][j].0 != key;
        assert entries[i + 1] == (key, Find(entries, key).value);
        assert forall j :: 0 <= j < i + 1 ==> entries[j].0 != key by {
          forall j | 0 <= j < i + 1 ensures entries[j].0 != key {
            if j > 0 { assert entries[j] == entries[1..][j - 1]; }
          }
        }
      } else {
        assert forall i :: 0 <= i < |entries| ==> entries[i].0 != key by {
          forall i | 0 <= i < |entries| ensures entries[i].0 != key {
            if i > 0 { assert entries[i] == entries[1..][i - 1]; }
          }
        }
      }
    }
  }

  lemma FindCons<K, V>(k: K, v: V, rest: seq<(K, V)>, key: K)
    ensures Find([(k, v)] + rest, key) == if k == key then Some(v) else Find(rest, key)
  {
    assert ([(k, v)] + rest)[1..] == rest;
  }

  /** `objects.get(<column>=k)` on a table of rows: the first row whose key is `k`. */
  function FindBy<T, K(==)>(rows: seq<T>, key: T -> K, k: K): (r: Option<T>)
    ensures r.Some? <==> exists i :: 0 <= i < |rows| && key(rows[i]) == k
    ensures r.Some? ==> key(r.value) == k && r.value in rows
    decreases |rows|
  {
    if |rows| == 0 then None
    else if key(rows[0]) == k then Some(rows[0])
    else
      var r := FindBy(rows[1..], key, k);
      assert forall i :: 1 <= i < |rows| ==> rows[i] == rows[1..][i - 1];
      r
  }

  /** The keys, in insertion order. */
  function KeysOf<K, V>(entries: seq<(K, V)>): (ks: seq<K>)
    ensures |ks| == |entries|
    ensures forall i :: 0 <= i < |entries| ==> ks[i] == entries[i].0
  {
    seq(|entries|, i requires 0 <= i < |entries| => entries[i].0)
  }

  /** The values, in insertion order (`list(d.values())`). */
  function ValuesOf<K, V>(entries: seq<(K, V)>): (vs: seq<V>)
    ensures |vs| == |entries|
    ensures forall i :: 0 <= i < |entries| ==> vs[i] == entries[i].1
  {
    seq(|entries|, i requires 0 <= i < |entries| => entries[i].1)
  }
}

=== FILE: available_tasks.dfy ===
/**
 * The `useAvailableTasks` hook of frontend/src/hooks/use-available-tasks.ts
 * and the list `AllServicesSection` renders from it.  The API calls are
 * inputs: a call either answers with a response or throws an error with a
 * message.
 */
module AvailableTasks {
  import opened Wrappers
  import opened Pagination
  import BookingsModels

  type Task = BookingsModels.Booking

  /** The `{success, data, message}` body the API client resolves to. */
  datatype ApiResponse<T> = ApiResponse(success: bool, data: Option<T>, message: Option<string>)

  /** How an awaited call ended. */
  datatype Call<T> = Answered(response: ApiResponse<T>) | Threw(message: string)

  datatype TasksState = TasksState(tasks: seq<Task>, isLoading: bool, error: Option<string>)

  const UnknownError: string := "An unknown error occurred."

  /** `error.message || 'An unknown error occurred.'`. */
  function ErrorMessage(message: string): (m: string)
    ensures m != ""
    ensures message != "" ==> m == message
  {
    if message != "" then message else UnknownError
  }

  /** The message of the error thrown for an unsuccessful response: the server's, else `fallback`. */
  function FailureMessage<T>(r: ApiResponse<T>, fallback: string): string {
    if r.message.Some? && r.message.value != "" then r.message.value else fallback
  }

  /**
   * `fetchTasks` once the call has ended: a successful response with data
   * replaces the list and leaves no error; anything else keeps the list
   * and records the message.  Loading is over either way.
   */
  function FetchTasks(st: TasksState, call: Call<seq<Task>>): (r: TasksState)
    ensures !r.isLoading
    ensures r.error.None? <==> call.Answered? && call.response.success && call.response.data.Some?
    ensures r.error.None? ==> r.tasks == call.response.data.value
    ensures r.error.Some? ==> r.tasks == st.tasks && r.error.value != ""
  {
    match call
    case Answered(resp) =>
      if resp.success && resp.data.Some? then TasksState(resp.data.value, false, None)
      else TasksState(st.tasks, false, Some(ErrorMessage(FailureMessage(resp, "Failed to fetch available tasks."))))
    case Threw(m) => TasksState(st.tasks, false, Some(ErrorMessage(m)))
  }

  /** The default message appears only for a thrown error that carries no message of its own. */
  lemma UnknownErrorOnlyWithoutMessage(st: TasksState, call: Call<seq<Task>>)
    ensures FetchTasks(st, call).error == Some(UnknownError) <==>
              (call.Threw? && (call.message == "" || call.message == UnknownError))
              || (call.Answered? && !(call.response.success && call.response.data.Some?)
                  && call.response.message == Some(UnknownError))
  {
  }

  /** `prev.filter(task => task.id !== id)`. */
  function RemoveId(tasks: seq<Task>, id: string): (r: seq<Task>)
    ensures |r| <= |tasks|
    decreases |tasks|
  {
    if |tasks| == 0 then []
    else if tasks[0].id == id then RemoveId(tasks[1..], id)
    else [tasks[0]] + RemoveId(tasks[1..], id)
  }

  /** Filtering distributes over concatenation: the kept tasks keep their relative order. */
  lemma {:induction false} RemoveIdAppend(a: seq<Task>, b: seq<Task>, id: string)
    ensures RemoveId(a + b, id) == RemoveId(a, id) + RemoveId(b, id)
    decreases |a|
  {
    if |a| > 0 {
      assert (a + b)[1..] == a[1..] + b;
      RemoveIdAppend(a[1..], b, id);
    } else {
      assert a + b == b;
    }
  }

  /** Exactly the tasks with another id are kept, each as often as before. */
  lemma {:induction false} RemoveIdCounts(tasks: seq<Task>, id: string, t: Task)
    ensures multiset(RemoveId(tasks, id))[t] == if t.id == id then 0 else multiset(tasks)[t]
    decreases |tasks|
  {
    if |tasks| > 0 {
      RemoveIdCounts(tasks[1..], id, t);
      assert tasks == [tasks[0]] + tasks[1..];
    }
  }

  /** A list holding no task with the id is returned unchanged. */
  lemma {:induction false} RemoveIdAbsent(tasks: seq<Task>, id: string)
    requires forall i :: 0 <= i < |tasks| ==> tasks[i].id != id
    ensures RemoveId(tasks, id) == tasks
    decreases |tasks|
  {
    if |tasks| > 0 {
      RemoveIdAbsent(tasks[1..], id);
    }
  }

  /**
   * `acceptTask` once the call has ended: a successful response removes
   * every task with that id and answers `true`; an unsuccessful response or
   * a thrown error keeps the list and answers `false`.
   */
  function AcceptTask(tasks: seq<Task>, id: string, call: Call<()>): (r: (seq<Task>, bool))
    ensures r.1 <==> call.Answered? && call.response.success
    ensures !r.1 ==> r.0 == tasks
    ensures r.1 ==> forall t :: t in r.0 ==> t.id != id && t in tasks
  {
    if call.Answered? && call.response.success then
      RemoveIdSpec(tasks, id);
      (RemoveId(tasks, id), true)
    else (tasks, false)
  }

  /** What is left after a removal came from the list and carries another id. */
  lemma {:induction false} RemoveIdSpec(tasks: seq<Task>, id: string)
    ensures forall t :: t in RemoveId(tasks, id) ==> t.id != id && t in tasks
    decreases |tasks|
  {
    if |tasks| > 0 {
      RemoveIdSpec(tasks[1..], id);
    }
  }

  /** Accepting the same task twice changes the list only once. */
  lemma AcceptIdempotent(tasks: seq<Task>, id: string, call: Call<()>)
    ensures AcceptTask(AcceptTask(tasks, id, call).0, id, call).0 == AcceptTask(tasks, id, call).0
  {
    if call.Answered? && call.response.success {
      RemoveIdSpec(tasks, id);
      var r := RemoveId(tasks, id);
      assert forall i :: 0 <= i < |r| ==> r[i].id != id by {
        forall i | 0 <= i < |r| ensures r[i].id != id {
          assert r[i] in r;
        }
      }
      RemoveIdAbsent(r, id);
    }
  }

  // ------------------------------------------------- AllServicesSection

  /** JavaScript truthiness of the error. */
  predicate HasError(st: TasksState) {
    st.error.Some? && st.error.value != ""
  }

  /** What the section renders. */
  datatype TasksView =
    | LoadingCard
    | ErrorAlert(message: string)
    | NoTasksCard
    | TaskPage(shown: seq<Task>, pageLinks: seq<int>, controls: bool, showingFrom: int, showingTo: int)

  /**
   * The section as written: loading first, then the error, then the empty
   * card, otherwise the current page's tasks, the page links (rendered only
   * with more than one page) and the "Showing" line.
   */
  function RenderAsWritten(st: TasksState, page: int): (v: TasksView)
    ensures v.NoTasksCard? <==> !st.isLoading && !HasError(st) && st.tasks == []
    ensures v.TaskPage? ==> (v.controls <==> TotalPages(|st.tasks|) > 1)
  {
    if st.isLoading then LoadingCard
    else if HasError(st) then ErrorAlert(st.error.value)
    else if |st.tasks| == 0 then NoTasksCard
    else
      var total := TotalPages(|st.tasks|);
      var (a, b) := ShowingRange(|st.tasks|, page);
      TaskPage(PageItems(st.tasks, page), PageList(total), ShowControls(total), a, b)
  }

  /**
   * Accepting the only task of the last page leaves the section on a page
   * that no longer exists: four tasks on page 2, the fourth accepted, and
   * the page shows no task and, with a single page left, no control to
   * leave it.
   */
  lemma AcceptStrandsLastPage(tasks: seq<Task>)
    requires |tasks| == 4
    requires forall i :: 0 <= i < 3 ==> tasks[i].id != tasks[3].id
    ensures var left := AcceptTask(tasks, tasks[3].id, Answered(ApiResponse(true, None, None))).0;
            var v := RenderAsWritten(TasksState(left, false, None), 2);
            left == tasks[..3] && v.TaskPage? && v.shown == [] && !v.controls
  {
    RemoveIdAppend(tasks[..3], [tasks[3]], tasks[3].id);
    RemoveIdAbsent(tasks[..3], tasks[3].id);
    assert tasks == tasks[..3] + [tasks[3]];
    assert RemoveId([tasks[3]], tasks[3].id) == [];
  }

  /** The page to show: the current page, or the last page when the list has shrunk below it. */
  function ClampPage(page: int, total: nat): (p: int)
    ensures total >= 1 && page >= 1 ==> 1 <= p <= total
    ensures 1 <= page <= total ==> p == page
  {
    if page > total then (if total >= 1 then total else 1) else page
  }

  /** The section with the current page clamped to the pages that exist. */
  function Render(st: TasksState, page: int): (v: TasksView)
    ensures v.NoTasksCard? <==> !st.isLoading && !HasError(st) && st.tasks == []
  {
    RenderAsWritten(st, ClampPage(page, TotalPages(|st.tasks|)))
  }

  /** With the page clamped, a non-empty list always shows some tasks. */
  lemma ClampedPageShowsTasks(st: TasksState, page: int)
    requires page >= 1 && !st.isLoading && st.error.None? && st.tasks != []
    ensures Render(st, page).TaskPage? && Render(st, page).shown != []
  {
  }
}

=== FILE: booking_actions.dfy ===
/**
 * The buttons of `BookingActions` in
 * frontend/src/components/dashboard/booking-detail/BookingActions.tsx: when
 * the pay button and the cancel button appear, whether they are enabled,
 * and their labels.  The booking is the JSON object the client received:
 * a key the serializer did not send reads as `undefined`, and decimals
 * arrive as text, so a price of "0.00" is truthy.
 */
module BookingActions {
  import opened Wrappers
  import opened Assoc
  import opened Text
  import opened CoreUtils
  import BookingsModels
  import BookingsSerializers
  import PaymentsModels
  import PaymentsViews

  type Booking = BookingsModels.Booking

  /** A booking as the client holds it: the entries of the JSON object it received. */
  type ClientBooking = seq<(string, Json)>

  /** JavaScript truthiness of a property; an absent key is `undefined`. */
  predicate Truthy(v: Option<Json>) {
    match v
    case None => false
    case Some(JNull) => false
    case Some(JBool(b)) => b
    case Some(JInt(i)) => i != 0
    case Some(JStr(s)) => s != ""
    case Some(_) => true
  }

  datatype PayButton =
    | NoPayButton
    /** The disabled "Paid" badge, which has no click handler. */
    | PaidBadge
    | PayNow(enabled: bool, caption: string)

  /**
   * The pay button: only for a customer's confirmed booking whose
   * `provider_quote` or `budget` is truthy; a paid booking shows the
   * badge, otherwise the button pays and reads "Redirecting..." while the
   * redirect is under way.
   */
  function PayButtonFor(booking: ClientBooking, isProvider: bool, isPayingNow: bool): (r: PayButton)
    ensures r != NoPayButton <==>
              !isProvider && Find(booking, "status") == Some(JStr("confirmed"))
              && (Truthy(Find(booking, "provider_quote")) || Truthy(Find(booking, "budget")))
    ensures r == PaidBadge <==> r != NoPayButton && Find(booking, "payment_status") == Some(JStr("paid"))
    ensures r.PayNow? ==> r.enabled == !isPayingNow && r.caption == (if isPayingNow then "Redirecting..." else "Pay Now")
  {
    if isProvider || Find(booking, "status") != Some(JStr("confirmed"))
       || !(Truthy(Find(booking, "provider_quote")) || Truthy(Find(booking, "budget"))) then
      NoPayButton
    else if Find(booking, "payment_status") == Some(JStr("paid")) then PaidBadge
    else PayNow(!isPayingNow, if isPayingNow then "Redirecting..." else "Pay Now")
  }

  /** A provider never gets a way to pay. */
  lemma ProvidersNeverPay(booking: ClientBooking, isPayingNow: bool)
    ensures PayButtonFor(booking, true, isPayingNow) == NoPayButton
  {
  }

  /**
   * In an object a serializer rendered, a field it lists reads as the
   * attribute's rendering, and any other key is absent.
   */
  lemma RenderedField(b: Booking, c: BookingsModels.Cipher, fields: seq<string>, name: string)
    requires BookingsSerializers.Serialize(b, c, fields).Ok?
    ensures var r := BookingsSerializers.Serialize(b, c, fields).value;
            Find(r, name) == if name in fields then BookingsSerializers.AttributeValue(b, c, name) else None
  {
    var r := BookingsSerializers.Serialize(b, c, fields).value;
    assert BookingsSerializers.RenderFields(b, c, fields).Some?;
    FindSpec(r, name);
    if name in fields {
      var i :| 0 <= i < |fields| && fields[i] == name;
      assert r[i].0 == name;
    }
  }

  /**
   * What the client shows for a booking a serializer with `fields`
   * rendered: `provider_quote` and `payment_status` are not attributes of
   * a booking, so they are never sent; the button appears exactly when the
   * serializer sends the status and the budget and the booking is
   * confirmed with a non-null budget, and it is never the "Paid" badge.
   */
  lemma RenderedPayButton(b: Booking, c: BookingsModels.Cipher, fields: seq<string>, isPayingNow: bool)
    requires BookingsSerializers.Serialize(b, c, fields).Ok?
    ensures var r := BookingsSerializers.Serialize(b, c, fields).value;
            PayButtonFor(r, false, isPayingNow) != NoPayButton <==>
              "status" in fields && "budget" in fields && b.status == "confirmed" && b.budgetCents.Some?
    ensures PayButtonFor(BookingsSerializers.Serialize(b, c, fields).value, false, isPayingNow) != PaidBadge
  {
    UnsentKeys(b, c, fields);
    RenderedField(b, c, fields, "status");
    RenderedField(b, c, fields, "budget");
    if b.budgetCents.Some? {
      var t := CentsText(b.budgetCents.value);
      assert |t| >= 4;
    }
  }

  /** `provider_quote` and `payment_status` are no attributes of a booking, so no serializer sends them. */
  lemma UnsentKeys(b: Booking, c: BookingsModels.Cipher, fields: seq<string>)
    requires BookingsSerializers.Serialize(b, c, fields).Ok?
    ensures var r := BookingsSerializers.Serialize(b, c, fields).value;
            Find(r, "provider_quote").None? && Find(r, "payment_status").None?
  {
    assert BookingsSerializers.BuildFields(fields).Ok?;
    assert "provider_quote" !in BookingsModels.BookingAttributes;
    assert "payment_status" !in BookingsModels.BookingAttributes;
    RenderedField(b, c, fields, "provider_quote");
    RenderedField(b, c, fields, "payment_status");
  }

  /** The detail endpoint sends no price, so the booking page never offers to pay. */
  lemma DetailResponseNeverOffersPayment(b: Booking, c: BookingsModels.Cipher, isPayingNow: bool)
    requires BookingsSerializers.DetailRepresentation(b, c).Ok?
    ensures PayButtonFor(BookingsSerializers.DetailRepresentation(b, c).value, false, isPayingNow) == NoPayButton
  {
    var r := BookingsSerializers.DetailRepresentation(b, c).value;
    DetailSendsNoPrice(r);
  }

  /** An object with the detail keys has neither price key. */
  lemma DetailSendsNoPrice(r: ClientBooking)
    requires KeysOf(r) == BookingsSerializers.FixedDetailFields
    ensures Find(r, "budget").None? && Find(r, "provider_quote").None?
  {
    assert forall i :: 0 <= i < |r| ==> r[i].0 == BookingsSerializers.FixedDetailFields[i];
    assert forall i :: 0 <= i < |BookingsSerializers.FixedDetailFields| ==>
             BookingsSerializers.FixedDetailFields[i] != "budget" && BookingsSerializers.FixedDetailFields[i] != "provider_quote";
    FindSpec(r, "budget");
    FindSpec(r, "provider_quote");
  }

  /**
   * Where the budget is sent, a zero budget reads "0.00", which is truthy:
   * a confirmed booking with a zero budget is offered the pay button.  The
   * checkout as written answers it, like every booking it finds, with the
   * 500 of the missing `provider_quote` attribute; with the amount rule it
   * states and no quote, with "No price available for this booking".
   */
  lemma ZeroBudgetOffersPaymentCheckoutRefuses(bookings: seq<Booking>, raw: string, requester: string, c: BookingsModels.Cipher,
                                              fields: seq<string>, quoteOf: Booking -> Option<int>,
                                              secretKey: Option<string>, outcome: PaymentsViews.StripeOutcome)
    requires PaymentsViews.FindBooking(bookings, raw).Found?
    requires var b := PaymentsViews.FindBooking(bookings, raw).booking;
             b.status == "confirmed" && b.budgetCents == Some(0) && !PaymentsViews.NonZero(quoteOf(b))
    requires "status" in fields && "budget" in fields
    requires BookingsSerializers.Serialize(PaymentsViews.FindBooking(bookings, raw).booking, c, fields).Ok?
    ensures var b := PaymentsViews.FindBooking(bookings, raw).booking;
            PayButtonFor(BookingsSerializers.Serialize(b, c, fields).value, false, false) == PayNow(true, "Pay Now")
    ensures PaymentsViews.Checkout(Some(raw), requester, bookings, secretKey, outcome) == PaymentsViews.QuoteReadFailure
    ensures PaymentsViews.FixedCheckout(Some(raw), requester, bookings, quoteOf, secretKey, outcome)
            == ErrorResponse("No price available for this booking", HTTP_400_BAD_REQUEST)
  {
    var b := PaymentsViews.FindBooking(bookings, raw).booking;
    RenderedPayButton(b, c, fields, false);
    assert PaymentsViews.FixedAmount(b, quoteOf).None?;
  }

  /**
   * Conversely, a confirmed booking the corrected checkout would price by
   * its quote alone gets no pay button, since the quote is never sent.
   */
  lemma QuotedBookingNotOffered(b: Booking, c: BookingsModels.Cipher, fields: seq<string>, quoteOf: Booking -> Option<int>,
                                isPayingNow: bool)
    requires BookingsSerializers.Serialize(b, c, fields).Ok?
    requires b.budgetCents.None? && PaymentsViews.NonZero(quoteOf(b))
    ensures PaymentsViews.FixedAmount(b, quoteOf) == quoteOf(b)
    ensures PayButtonFor(BookingsSerializers.Serialize(b, c, fields).value, false, isPayingNow) == NoPayButton
  {
    RenderedPayButton(b, c, fields, isPayingNow);
  }

  datatype CancelButton = NoCancelButton | Cancel(enabled: bool, caption: string)

  /** The cancel button: for a pending or confirmed booking, whoever looks at it; disabled while cancelling. */
  function CancelButtonFor(booking: ClientBooking, isCancelling: bool): (r: CancelButton)
    ensures r.Cancel? <==> Find(booking, "status") == Some(JStr("pending")) || Find(booking, "status") == Some(JStr("confirmed"))
    ensures r.Cancel? ==> r.enabled == !isCancelling && r.caption == (if isCancelling then "Cancelling..." else "Cancel Booking")
  {
    if Find(booking, "status") == Some(JStr("pending")) || Find(booking, "status") == Some(JStr("confirmed")) then
      Cancel(!isCancelling, if isCancelling then "Cancelling..." else "Cancel Booking")
    else NoCancelButton
  }

  /** Both actions are offered together only on a confirmed booking, and neither once work has started. */
  lemma ActionsByStatus(booking: ClientBooking, isProvider: bool, isPayingNow: bool, isCancelling: bool)
    ensures (PayButtonFor(booking, isProvider, isPayingNow) != NoPayButton && CancelButtonFor(booking, isCancelling).Cancel?)
              ==> Find(booking, "status") == Some(JStr("confirmed"))
    ensures Find(booking, "status") in {Some(JStr("in_progress")), Some(JStr("completed")), Some(JStr("cancelled"))} ==>
              PayButtonFor(booking, isProvider, isPayingNow) == NoPayButton && CancelButtonFor(booking, isCancelling) == NoCancelButton
  {
  }
}

=== FILE: booking_provider_info.dfy ===
/**
 * `BookingProviderInfo` in
 * frontend/src/components/dashboard/booking-detail/BookingProviderInfo.tsx:
 * whether the provider section renders, the name it shows and whether the
 * quote row appears.  Number formatting of the quote is not modelled.
 */
module BookingProviderInfo {
  import opened Wrappers
  import opened Text

  datatype Provider = Provider(firstName: Option<string>, lastName: Option<string>, email: string)

  /** JavaScript truthiness of an optional string. */
  predicate Truthy(s: Option<string>) {
    s.Some? && s.value != ""
  }

  /** `s || ''`. */
  function OrEmpty(s: Option<string>): string {
    if s.Some? then s.value else ""
  }

  const NotProvided: string := "Not provided"

  /** `` `${first || ''} ${last || ''}`.trim() `` when either name is truthy, else "Not provided". */
  function ProviderName(p: Provider): string {
    if Truthy(p.firstName) || Truthy(p.lastName) then JsTrim(OrEmpty(p.firstName) + " " + OrEmpty(p.lastName))
    else NotProvided
  }

  datatype ProviderView = ProviderView(name: string, email: string, showsQuote: bool)

  /** Nothing without a provider; otherwise the name, the email and the quote row when the quote is truthy. */
  function Render(provider: Option<Provider>, quoteCents: Option<int>): (v: Option<ProviderView>)
    ensures v.None? <==> provider.None?
    ensures v.Some? ==> v.value.email == provider.value.email
    ensures v.Some? ==> (v.value.showsQuote <==> quoteCents.Some? && quoteCents.value != 0)
  {
    if provider.None? then None
    else Some(ProviderView(ProviderName(provider.value), provider.value.email, quoteCents.Some? && quoteCents.value != 0))
  }

  /** A name with white space at neither end, followed by a space, trims back to itself. */
  lemma TrimDropsTrailingSpace(s: string)
    requires s != "" && Trimmed(s)
    ensures JsTrim(s + " ") == s
  {
    JsTrimAppendWhitespace(s, " ");
    JsTrimSpec(s);
  }

  /** A name with white space at neither end, preceded by a space, trims back to itself. */
  lemma TrimDropsLeadingSpace(s: string)
    requires s != "" && Trimmed(s)
    ensures JsTrim(" " + s) == s
  {
    var t := " " + s;
    DropEndFixed(t, IsJsWhitespace);
    assert t[|t| - 1] == s[|s| - 1];
    assert t[1..] == s;
    DropStartFixed(s, IsJsWhitespace);
  }

  /** The two names joined by one space have white space at neither end. */
  lemma TrimKeepsFullName(first: string, last: string)
    requires first != "" && Trimmed(first) && last != "" && Trimmed(last)
    ensures JsTrim(first + " " + last) == first + " " + last
  {
    var t := first + " " + last;
    assert t[0] == first[0] && t[|t| - 1] == last[|last| - 1];
    JsTrimSpec(t);
  }

  /**
   * For names without surrounding white space: only a first name shows the
   * first name, only a last name the last name, both show them joined by a
   * space, and neither shows "Not provided".
   */
  lemma ProviderNameCases(p: Provider)
    requires p.firstName.Some? ==> Trimmed(p.firstName.value)
    requires p.lastName.Some? ==> Trimmed(p.lastName.value)
    ensures Truthy(p.firstName) && !Truthy(p.lastName) ==> ProviderName(p) == p.firstName.value
    ensures !Truthy(p.firstName) && Truthy(p.lastName) ==> ProviderName(p) == p.lastName.value
    ensures Truthy(p.firstName) && Truthy(p.lastName) ==> ProviderName(p) == p.firstName.value + " " + p.lastName.value
    ensures !Truthy(p.firstName) && !Truthy(p.lastName) ==> ProviderName(p) == NotProvided
  {
    if Truthy(p.firstName) && !Truthy(p.lastName) {
      TrimDropsTrailingSpace(p.firstName.value);
      assert OrEmpty(p.firstName) + " " + OrEmpty(p.lastName) == p.firstName.value + " ";
    } else if !Truthy(p.firstName) && Truthy(p.lastName) {
      TrimDropsLeadingSpace(p.lastName.value);
      assert OrEmpty(p.firstName) + " " + OrEmpty(p.lastName) == " " + p.lastName.value;
    } else if Truthy(p.firstName) && Truthy(p.lastName) {
      TrimKeepsFullName(p.firstName.value, p.lastName.value);
    }
  }

  /** A provider whose only name is blank shows an empty name rather than "Not provided". */
  lemma BlankNameShowsEmpty(p: Provider)
    requires p.firstName == Some(" ") && !Truthy(p.lastName)
    ensures ProviderName(p) == ""
  {
    assert OrEmpty(p.firstName) + " " + OrEmpty(p.lastName) == "  ";
    JsTrimSpec("  ");
  }
}

=== FILE: bookings_models.dfy ===
/**
 * The `Booking` model of backend/bookings/models.py: its status and
 * service-type choices, field defaults and the encrypted address and phone
 * accessors.  Encryption is an external service here: a `Cipher` value
 * supplies `enc` (randomised, so it also takes a nonce) and `dec`.
 */
module BookingsModels {
  import opened Wrappers
  import opened Text
  import opened Assoc

  /** `SERVICE_TYPES`. */
  datatype ServiceType = Cleaning | Plumbing | Electrical | Gardening | OtherService {
    function Code(): string {
      match this
      case Cleaning => "cleaning"
      case Plumbing => "plumbing"
      case Electrical => "electrical"
      case Gardening => "gardening"
      case OtherService => "other"
    }
  }

  const ServiceTypes: seq<ServiceType> := [Cleaning, Plumbing, Electrical, Gardening, OtherService]

  /** The choice a stored service-type code names, if any. */
  function ParseServiceType(code: string): (r: Option<ServiceType>)
    ensures r.Some? ==> r.value.Code() == code
    ensures r.None? ==> forall t: ServiceType :: t.Code() != code
  {
    if code == "cleaning" then Some(Cleaning)
    else if code == "plumbing" then Some(Plumbing)
    else if code == "electrical" then Some(Electrical)
    else if code == "gardening" then Some(Gardening)
    else if code == "other" then Some(OtherService)
    else None
  }

  /** `STATUS_CHOICES`. */
  datatype BookingStatus = Pending | Confirmed | InProgress | Completed | Cancelled {
    function Code(): string {
      match this
      case Pending => "pending"
      case Confirmed => "confirmed"
      case InProgress => "in_progress"
      case Completed => "completed"
      case Cancelled => "cancelled"
    }
  }

  const BookingStatuses: seq<BookingStatus> := [Pending, Confirmed, InProgress, Completed, Cancelled]

  /** The choice a stored status code names, if any. */
  function ParseBookingStatus(code: string): (r: Option<BookingStatus>)
    ensures r.Some? ==> r.value.Code() == code
    ensures r.None? ==> forall t: BookingStatus :: t.Code() != code
  {
    if code == "pending" then Some(Pending)
    else if code == "confirmed" then Some(Confirmed)
    else if code == "in_progress" then Some(InProgress)
    else if code == "completed" then Some(Completed)
    else if code == "cancelled" then Some(Cancelled)
    else None
  }

  /** Every service type is listed among the choices and its code parses back to it. */
  lemma ServiceTypeRoundTrip(t: ServiceType)
    ensures ParseServiceType(t.Code()) == Some(t) && t in ServiceTypes
  {
  }

  /** Every status is listed among the choices and its code parses back to it. */
  lemma BookingStatusRoundTrip(s: BookingStatus)
    ensures ParseBookingStatus(s.Code()) == Some(s) && s in BookingStatuses
  {
  }

  /**
   * A booking row.  `status` and `serviceType` hold the stored codes (the
   * column is free text that the choices only advise); money is in cents;
   * `addressEnc`/`phoneEnc` hold the ciphertext, `""` when never set.
   * There is no `provider_quote` column.
   */
  datatype Booking = Booking(
    id: string,
    userId: string,
    providerId: Option<string>,
    serviceType: string,
    budgetCents: Option<int>,
    addressEnc: string,
    phoneEnc: string,
    city: string,
    state: Option<string>,
    country: string,
    startTime: int,
    durationHours: nat,
    status: string,
    confirmationCode: string,
    notes: Option<string>,
    createdAt: int,
    updatedAt: int)

  const DefaultServiceType: string := "other"
  const DefaultCountry: string := "US"
  const DefaultDurationHours: nat := 1
  const DefaultStatus: string := "pending"
  const DefaultConfirmationCode: string := "0000"
  const ConfirmationCodeMaxLength: nat := 4
  /** The `max_length` of the `city`, `state` and `country` columns. */
  const PlaceMaxLength: nat := 100

  /**
   * A booking as `Booking.objects.create` builds it from the given columns,
   * every other column at its default; both timestamps are the creation time.
   */
  function NewBooking(id: string, userId: string, city: string, state: Option<string>, country: Option<string>,
                      startTime: int, durationHours: Option<nat>, notes: Option<string>, now: int): (b: Booking)
    ensures b.id == id && b.userId == userId && b.city == city && b.state == state && b.startTime == startTime
    ensures b.notes == notes && b.createdAt == now && b.updatedAt == now
    ensures ParseBookingStatus(b.status) == Some(Pending)
    ensures ParseServiceType(b.serviceType) == Some(OtherService)
    ensures b.country == country.GetOr("US") && b.durationHours == durationHours.GetOr(1)
    ensures b.confirmationCode == "0000" && |b.confirmationCode| <= ConfirmationCodeMaxLength
    ensures b.addressEnc == "" && b.phoneEnc == "" && b.budgetCents.None? && b.providerId.None?
  {
    Booking(id, userId, None, DefaultServiceType, None, "", "", city, state,
            country.GetOr(DefaultCountry), startTime, durationHours.GetOr(DefaultDurationHours),
            DefaultStatus, DefaultConfirmationCode, notes, now, now)
  }

  /**
   * The data attributes of a `Booking`: its model fields, `pk`, and the
   * `address` and `phone` properties.  Reading any other name (apart from
   * methods) raises `AttributeError`.
   */
  const BookingAttributes: set<string> :=
    {"id", "pk", "user", "provider", "service_type", "budget", "address_enc", "phone_enc", "city", "state",
     "country", "start_time", "duration_hours", "status", "confirmation_code", "notes", "created_at", "updated_at",
     "address", "phone"}

  /** `str` of the `AttributeError` raised by reading a name a `Booking` lacks. */
  function NoAttributeText(name: string): string {
    "'Booking' object has no attribute '" + name + "'"
  }

  /**
   * `Booking.objects.get(id=...)` for an id in the canonical spelling
   * `str(uuid)`, as the `<uuid:pk>` URL converter and the foreign keys hand
   * it over: the booking with that id, `None` for `DoesNotExist`.
   */
  function BookingById(bookings: seq<Booking>, id: string): (r: Option<Booking>)
    ensures r.Some? <==> exists i :: 0 <= i < |bookings| && bookings[i].id == id
    ensures r.Some? ==> r.value.id == id && r.value in bookings
  {
    FindBy(bookings, (b: Booking) => b.id, id)
  }

  predicate IsHexDigit(c: char) {
    IsAsciiDigit(c) || 'a' <= c <= 'f' || 'A' <= c <= 'F'
  }

  /** Python `s.replace(pattern, "")`: every occurrence, scanning left to right, removed. */
  function RemoveAll(s: string, pattern: string): (r: string)
    requires |pattern| > 0
    ensures |r| <= |s|
  {
    if |s| == 0 then ""
    else if StartsWith(s, pattern) then RemoveAll(s[|pattern|..], pattern)
    else [s[0]] + RemoveAll(s[1..], pattern)
  }

  /** The characters of `s` other than `c`, in order. */
  function Without(s: string, c: char): (r: string)
    ensures c !in r && |r| <= |s|
  {
    if |s| == 0 then "" else (if s[0] == c then "" else [s[0]]) + Without(s[1..], c)
  }

  /**
   * The value `UUIDField` compares, for the spellings this model reads.
   * Like `uuid.UUID(hex=s)`, it removes "urn:" and "uuid:", strips braces
   * from both ends and drops the hyphens.  It then asks for exactly 32
   * ASCII hex digits and yields them in lower case; any other spelling is
   * `None`, the invalid UUID Django reports.  `int(hex, 16)` in the
   * constructor also reads some 32-character remainders that are not 32
   * ASCII hex digits (a sign, whitespace, '_', a "0x" prefix, non-ASCII
   * digits); the model refuses those too.
   */
  function ParseUuid(s: string): (r: Option<string>)
    ensures r.Some? ==> |r.value| == 32 && forall i :: 0 <= i < 32 ==> IsHexDigit(r.value[i]) && !('A' <= r.value[i] <= 'Z')
  {
    var brace := (c: char) => c == '{' || c == '}';
    var hex := Without(DropEnd(DropStart(RemoveAll(RemoveAll(s, "urn:"), "uuid:"), brace), brace), '-');
    if |hex| == 32 && forall i :: 0 <= i < 32 ==> IsHexDigit(hex[i]) then Some(Lower(hex)) else None
  }

  /** The outcome of a lookup by a client-supplied id. */
  datatype IdLookup = Found(booking: Booking) | Missing | Malformed

  /** The first booking whose id has the UUID value `u`. */
  function BookingByUuid(bookings: seq<Booking>, u: string): (r: Option<Booking>)
    ensures r.Some? <==> exists i :: 0 <= i < |bookings| && ParseUuid(bookings[i].id) == Some(u)
    ensures r.Some? ==> ParseUuid(r.value.id) == Some(u) && r.value in bookings
  {
    FindBy(bookings, (b: Booking) => ParseUuid(b.id), Some(u))
  }

  /**
   * `Booking.objects.get(id=raw)` for an id the client typed: a malformed
   * id raises Django's `ValidationError` before any row is read; otherwise
   * the booking is the one whose id denotes the same UUID, in whatever
   * spelling.
   */
  function FindBooking(bookings: seq<Booking>, raw: string): (r: IdLookup)
    ensures r.Malformed? <==> ParseUuid(raw).None?
    ensures r.Found? <==> ParseUuid(raw).Some? && exists i :: 0 <= i < |bookings| && ParseUuid(bookings[i].id) == ParseUuid(raw)
    ensures r.Found? ==> ParseUuid(r.booking.id) == ParseUuid(raw) && r.booking in bookings
  {
    match ParseUuid(raw)
    case None => Malformed
    case Some(u) =>
      match BookingByUuid(bookings, u)
      case None => Missing
      case Some(b) => Found(b)
  }

  lemma {:induction false} RemoveAllAbsent(s: string, pattern: string)
    requires |pattern| > 0 && pattern[0] !in s
    ensures RemoveAll(s, pattern) == s
  {
    if |s| > 0 {
      assert s[0] != pattern[0];
      RemoveAllAbsent(s[1..], pattern);
    }
  }

  lemma {:induction false} WithoutAbsent(s: string, c: char)
    requires c !in s
    ensures Without(s, c) == s
  {
    if |s| > 0 {
      WithoutAbsent(s[1..], c);
    }
  }

  /** Thirty-two hex digits with no decoration parse to themselves in lower case. */
  lemma ParseUuidOfHex(s: string)
    requires |s| == 32 && forall i :: 0 <= i < 32 ==> IsHexDigit(s[i])
    ensures ParseUuid(s) == Some(Lower(s))
  {
    var brace := (c: char) => c == '{' || c == '}';
    RemoveAllAbsent(s, "urn:");
    RemoveAllAbsent(s, "uuid:");
    DropStartFixed(s, brace);
    DropEndFixed(s, brace);
    WithoutAbsent(s, '-');
  }

  lemma {:induction false} WithoutKeepsAbsent(s: string, c: char, d: char)
    requires d !in s
    ensures d !in Without(s, c)
  {
    if |s| > 0 {
      WithoutKeepsAbsent(s[1..], c, d);
    }
  }

  /** With no 'u' and no braces in `s`, the decoding only drops the hyphens. */
  lemma {:induction false} PlainHexDigits(s: string)
    requires 'u' !in s && '{' !in s && '}' !in s
    ensures var brace := (c: char) => c == '{' || c == '}';
            Without(DropEnd(DropStart(RemoveAll(RemoveAll(s, "urn:"), "uuid:"), brace), brace), '-') == Without(s, '-')
  {
    var brace := (c: char) => c == '{' || c == '}';
    RemoveAllAbsent(s, "urn:");
    RemoveAllAbsent(s, "uuid:");
    DropStartFixed(s, brace);
    DropEndFixed(s, brace);
  }

  /** Hyphens do not matter: an id and its hyphen-free spelling denote the same UUID (or are both malformed). */
  lemma HyphensDoNotMatter(s: string)
    requires 'u' !in s && '{' !in s && '}' !in s
    ensures ParseUuid(s) == ParseUuid(Without(s, '-'))
  {
    var h := Without(s, '-');
    WithoutKeepsAbsent(s, '-', 'u');
    WithoutKeepsAbsent(s, '-', '{');
    WithoutKeepsAbsent(s, '-', '}');
    PlainHexDigits(s);
    PlainHexDigits(h);
    WithoutAbsent(h, '-');
  }

  /** Letter case does not matter: thirty-two hex digits and their upper-case spelling denote the same UUID. */
  lemma CaseDoesNotMatter(s: string)
    requires |s| == 32 && forall i :: 0 <= i < 32 ==> IsHexDigit(s[i])
    ensures ParseUuid(Upper(s)) == ParseUuid(s) == Some(Lower(s))
  {
    ParseUuidOfHex(s);
    assert forall i :: 0 <= i < 32 ==> IsHexDigit(Upper(s)[i]);
    ParseUuidOfHex(Upper(s));
    assert Lower(Upper(s)) == Lower(s);
  }

  /** Surrounding braces do not matter. */
  lemma BracesDoNotMatter(s: string)
    requires 'u' !in s && '{' !in s && '}' !in s
    ensures ParseUuid("{" + s + "}") == ParseUuid(s)
  {
    var brace := (c: char) => c == '{' || c == '}';
    var t := "{" + s + "}";
    assert 'u' !in t;
    RemoveAllAbsent(t, "urn:");
    RemoveAllAbsent(t, "uuid:");
    assert t[0] == '{' && t[1..] == s + "}";
    if |s| == 0 {
      assert DropStart(t, brace) == "";
      WithoutAbsent("", '-');
      PlainHexDigits(s);
    } else {
      assert (s + "}")[0] == s[0];
      DropStartFixed(s + "}", brace);
      assert DropStart(t, brace) == s + "}";
      assert (s + "}")[..|s|] == s;
      DropEndFixed(s, brace);
      assert DropEnd(s + "}", brace) == s;
      PlainHexDigits(s);
    }
  }

  /** Two spellings of one UUID find the same booking, or are equally malformed. */
  lemma SpellingsFindSameBooking(bookings: seq<Booking>, raw1: string, raw2: string)
    requires ParseUuid(raw1) == ParseUuid(raw2)
    ensures FindBooking(bookings, raw1) == FindBooking(bookings, raw2)
  {
  }

  /**
   * A text with no hyphen, brace or letter `u` whose length is not 32,
   * such as "test", is malformed whatever the table holds: nothing is
   * removed from it, and it does not have the 32 digits a UUID needs.
   */
  lemma TestIdIsMalformed(bookings: seq<Booking>, raw: string)
    requires 'u' !in raw && '-' !in raw && '{' !in raw && '}' !in raw && |raw| != 32
    ensures FindBooking(bookings, raw) == Malformed
  {
    var brace := (c: char) => c == '{' || c == '}';
    RemoveAllAbsent(raw, "urn:");
    RemoveAllAbsent(raw, "uuid:");
    DropStartFixed(raw, brace);
    DropEndFixed(raw, brace);
    WithoutAbsent(raw, '-');
  }

  /** The encryption service: `enc(text, nonce)` and `dec(token)`, the latter `None` where it raises. */
  datatype Cipher = Cipher(enc: (string, nat) -> string, dec: string -> Option<string>)

  /** What the rest of the system relies on: tokens are non-empty and decrypt to what was encrypted. */
  ghost predicate Sound(c: Cipher) {
    forall s: string, n: nat {:trigger c.enc(s, n)} :: c.enc(s, n) != "" && c.dec(c.enc(s, n)) == Some(s)
  }

  /** `set_address`. */
  function SetAddress(b: Booking, c: Cipher, address: string, nonce: nat): Booking {
    b.(addressEnc := c.enc(address, nonce))
  }

  /** `set_phone`. */
  function SetPhone(b: Booking, c: Cipher, phone: string, nonce: nat): Booking {
    b.(phoneEnc := c.enc(phone, nonce))
  }

  /** Decrypts a stored field; an empty field reads as `""`, a token that does not decrypt as `None`. */
  function ReadEncrypted(c: Cipher, stored: string): Option<string> {
    if stored != "" then c.dec(stored) else Some("")
  }

  /** `get_address`. */
  function GetAddress(b: Booking, c: Cipher): Option<string> {
    ReadEncrypted(c, b.addressEnc)
  }

  /** `get_phone`. */
  function GetPhone(b: Booking, c: Cipher): Option<string> {
    ReadEncrypted(c, b.phoneEnc)
  }

  /** Each setter writes its own ciphertext column and no other column. */
  lemma SettersTouchOnlyTheirField(b: Booking, c: Cipher, text: string, nonce: nat)
    ensures SetAddress(b, c, text, nonce).(addressEnc := b.addressEnc) == b
    ensures SetPhone(b, c, text, nonce).(phoneEnc := b.phoneEnc) == b
    ensures SetAddress(b, c, text, nonce).addressEnc == c.enc(text, nonce)
    ensures SetPhone(b, c, text, nonce).phoneEnc == c.enc(text, nonce)
  {
  }

  /** Setting then getting returns the original text, and each setter leaves the other field's reading intact. */
  lemma SetGetRoundTrip(b: Booking, c: Cipher, text: string, nonce: nat)
    requires Sound(c)
    ensures GetAddress(SetAddress(b, c, text, nonce), c) == Some(text)
    ensures GetPhone(SetPhone(b, c, text, nonce), c) == Some(text)
    ensures GetPhone(SetAddress(b, c, text, nonce), c) == GetPhone(b, c)
    ensures GetAddress(SetPhone(b, c, text, nonce), c) == GetAddress(b, c)
  {
    assert c.enc(text, nonce) != "" && c.dec(c.enc(text, nonce)) == Some(text);
  }

  /** A booking whose address or phone was never set reads as empty text. */
  lemma UnsetFieldsReadEmpty(b: Booking, c: Cipher)
    ensures b.addressEnc == "" ==> GetAddress(b, c) == Some("")
    ensures b.phoneEnc == "" ==> GetPhone(b, c) == Some("")
  {
  }
}

=== FILE: bookings_serializers.dfy ===
/**
 * The booking serializers of backend/bookings/serializers.py: how
 * `ModelSerializer` builds their fields from `Meta.fields`, the field checks
 * and `create` of `BookingCreateSerializer`, and the representations
 * of the detail and list serializers.
 *
 * All three `Meta.fields` lists name `service`, which is no attribute of
 * `Booking` (the column is `service_type`), so building their fields
 * raises `ImproperlyConfigured`.  The lists as written and the corrected
 * lists are both defined; the corrected ones drive the properties.
 */
module BookingsSerializers {
  import opened Wrappers
  import opened Assoc
  import opened Text
  import opened CoreUtils
  import opened BookingsModels
  import opened DrfFields

  /**
   * `ModelSerializer.get_fields`: every name must be an attribute of the
   * model; the first one that is not makes DRF raise
   * `ImproperlyConfigured`, reported here by that name.
   */
  function BuildFields(fields: seq<string>): (r: Result<seq<string>, string>)
    ensures r.Ok? <==> forall i :: 0 <= i < |fields| ==> fields[i] in BookingAttributes
    ensures r.Ok? ==> r.value == fields
    ensures r.Err? ==> exists i :: 0 <= i < |fields| && fields[i] == r.error && r.error !in BookingAttributes
                                  && forall j :: 0 <= j < i ==> fields[j] in BookingAttributes
  {
    if |fields| == 0 then Ok([])
    else if fields[0] !in BookingAttributes then Err(fields[0])
    else
      var rest := BuildFields(fields[1..]);
      assert forall i :: 1 <= i < |fields| ==> fields[i] == fields[1..][i - 1];
      if rest.Err? then
        var i :| 0 <= i < |fields[1..]| && fields[1..][i] == rest.error && rest.error !in BookingAttributes
                  && forall j :: 0 <= j < i ==> fields[1..][j] in BookingAttributes;
        assert fields[i + 1] == rest.error;
        Err(rest.error)
      else Ok(fields)
  }

  /** `BookingCreateSerializer.Meta.fields`, as written. */
  const CreateFields: seq<string> :=
    ["service", "address", "phone", "city", "state", "country", "start_time", "duration_hours", "notes"]

  /** `BookingDetailSerializer.Meta.fields`, as written. */
  const DetailFields: seq<string> :=
    ["id", "service", "address", "phone", "city", "state", "country",
     "start_time", "duration_hours", "status", "notes", "created_at", "updated_at"]

  /** `BookingListSerializer.Meta.fields`, as written. */
  const ListFields: seq<string> :=
    ["id", "service", "city", "state", "country", "start_time", "duration_hours", "status", "created_at"]

  /** The create serializer's fields with the model's column name. */
  const FixedCreateFields: seq<string> :=
    ["service_type", "address", "phone", "city", "state", "country", "start_time", "duration_hours", "notes"]

  /** The detail serializer's fields with the model's column name. */
  const FixedDetailFields: seq<string> :=
    ["id", "service_type", "address", "phone", "city", "state", "country",
     "start_time", "duration_hours", "status", "notes", "created_at", "updated_at"]

  /** The list serializer's fields with the model's column name. */
  const FixedListFields: seq<string> :=
    ["id", "service_type", "city", "state", "country", "start_time", "duration_hours", "status", "created_at"]

  /** `validate_start_time`: only a start strictly after `now` passes. */
  function ValidateStartTime(value: int, now: int): (r: Result<int, string>)
    ensures r.Ok? <==> value > now
    ensures r.Ok? ==> r.value == value
    ensures r.Err? ==> r.error == "Start time must be in the future"
  {
    if value <= now then Err("Start time must be in the future") else Ok(value)
  }

  /**
   * The `ChoiceField` DRF builds for the `service_type` column: optional
   * (the column has a default), `null` refused, and any text outside the
   * choices refused with DRF's choice message; the value is not trimmed.
   */
  function ValidateServiceType(sent: Sent): (r: Result<Sent, seq<string>>)
    ensures r.Ok? <==> sent.Absent? || (sent.Str? && ParseServiceType(sent.s).Some?)
    ensures r.Ok? ==> r.value == sent
    ensures sent.Null? ==> r == Err([NullMessage])
    ensures sent.Str? && r.Err? ==> r.error == ["\"" + sent.s + "\" is not a valid choice."]
  {
    match sent
    case Absent => Ok(Absent)
    case Null => Err([NullMessage])
    case Str(v) => if ParseServiceType(v).Some? then Ok(sent) else Err(["\"" + v + "\" is not a valid choice."])
  }

  /**
   * `start_time`: the required `DateTimeField` DRF builds for the column
   * (the timestamp here already parsed), then `validate_start_time`.
   */
  function RunStartTime(sent: SentInt, now: int): (r: Result<int, seq<string>>)
    ensures r.Ok? <==> sent.Int? && sent.i > now
    ensures r.Ok? ==> r.value == sent.i
    ensures sent.IntAbsent? ==> r == Err([RequiredMessage])
    ensures sent.IntNull? ==> r == Err([NullMessage])
    ensures sent.Int? && r.Err? ==> r.error == ["Start time must be in the future"]
  {
    match sent
    case IntAbsent => Err([RequiredMessage])
    case IntNull => Err([NullMessage])
    case Int(t) =>
      match ValidateStartTime(t, now)
      case Ok(v) => Ok(v)
      case Err(m) => Err([m])
  }

  /** No booking field has a format validator, so the email and `\w` tables never come into play. */
  const NoFormatChecks: Checks := Checks(_ => true, _ => true)

  /** The declared `address` and `phone` fields: required, blank refused, trimmed. */
  const ContactSpec: CharSpec := CharSpec(true, false, false, TextValidators(None))

  /** `city`: a column without default or blank, so required and not blank. */
  const CitySpec: CharSpec := CharSpec(true, false, false, TextValidators(Some(PlaceMaxLength)))

  /** `state`: a `blank=True, null=True` column, so optional, and blank and `null` allowed. */
  const StateSpec: CharSpec := CharSpec(false, true, true, TextValidators(Some(PlaceMaxLength)))

  /** `country`: a column with a default, so optional, but neither blank nor `null`. */
  const CountrySpec: CharSpec := CharSpec(false, false, false, TextValidators(Some(PlaceMaxLength)))

  /** `notes`: a `blank=True, null=True` text column without length limit. */
  const NotesSpec: CharSpec := CharSpec(false, true, true, TextValidators(None))

  /** `duration_hours`: a `PositiveIntegerField` with a default, so optional, not `null`, and at least 0. */
  function RunDuration(sent: SentInt): Result<SentInt, seq<string>> {
    RunIntField(false, false, Some(0), sent)
  }

  /**
   * The request body of the create serializer, field by field.  `user` is
   * read-only and not among the fields, so a client-sent user is dropped
   * before this point.
   */
  datatype CreateInput = CreateInput(
    serviceType: Sent,
    address: Sent,
    phone: Sent,
    city: Sent,
    state: Sent,
    country: Sent,
    startTime: SentInt,
    durationHours: SentInt,
    notes: Sent)

  /** Why the create request fails: the serializer cannot be built, or fields are invalid (name and messages, in field order). */
  datatype CreateError = ImproperlyConfigured(field: string) | Invalid(errors: seq<(string, seq<string>)>)

  /** The field errors of a create request, in the order of the fields, each field at most once. */
  function CreateErrors(input: CreateInput, now: int): (errors: seq<(string, seq<string>)>)
    ensures errors == [] <==>
              ValidateServiceType(input.serviceType).Ok?
              && RunCharField(ContactSpec, input.address, NoFormatChecks).Ok?
              && RunCharField(ContactSpec, input.phone, NoFormatChecks).Ok?
              && RunCharField(CitySpec, input.city, NoFormatChecks).Ok?
              && RunCharField(StateSpec, input.state, NoFormatChecks).Ok?
              && RunCharField(CountrySpec, input.country, NoFormatChecks).Ok?
              && RunStartTime(input.startTime, now).Ok?
              && RunDuration(input.durationHours).Ok?
              && RunCharField(NotesSpec, input.notes, NoFormatChecks).Ok?
  {
    ErrorsOf("service_type", ValidateServiceType(input.serviceType))
    + ErrorsOf("address", RunCharField(ContactSpec, input.address, NoFormatChecks))
    + ErrorsOf("phone", RunCharField(ContactSpec, input.phone, NoFormatChecks))
    + ErrorsOf("city", RunCharField(CitySpec, input.city, NoFormatChecks))
    + ErrorsOf("state", RunCharField(StateSpec, input.state, NoFormatChecks))
    + ErrorsOf("country", RunCharField(CountrySpec, input.country, NoFormatChecks))
    + ErrorsOf("start_time", RunStartTime(input.startTime, now))
    + ErrorsOf("duration_hours", RunDuration(input.durationHours))
    + ErrorsOf("notes", RunCharField(NotesSpec, input.notes, NoFormatChecks))
  }

  /** A text field's value once trimmed, `None` when nothing or `null` was sent. */
  function Trimmed(sent: Sent): Option<string> {
    if sent.Str? then Some(PyStrip(sent.s)) else None
  }

  /** The text a validated field holds, `None` for a skipped or `null` field. */
  function Given(v: Sent): Option<string> {
    if v.Str? then Some(v.s) else None
  }

  /**
   * `create` on validated data: the booking is made for the requester
   * with the validated plain columns (the column defaults for the fields
   * not sent), then the validated address and phone go through the
   * encrypting setters.  `nonceA`/`nonceP` stand for the encryption's
   * randomness.
   */
  function CreateValidated(id: string, input: CreateInput, requester: string, c: Cipher, nonceA: nat, nonceP: nat,
                           now: int): (b: Booking)
    requires CreateErrors(input, now) == []
    ensures input.address.Str? && input.phone.Str? && input.city.Str? && input.startTime.Int?
    ensures b.id == id && b.userId == requester && b.startTime == input.startTime.i
    ensures b.serviceType == (if input.serviceType.Str? then input.serviceType.s else DefaultServiceType)
    ensures b.addressEnc == c.enc(PyStrip(input.address.s), nonceA) && b.phoneEnc == c.enc(PyStrip(input.phone.s), nonceP)
    ensures b.city == PyStrip(input.city.s) && b.state == Trimmed(input.state) && b.notes == Trimmed(input.notes)
    ensures b.country == Trimmed(input.country).GetOr(DefaultCountry)
    ensures b.durationHours == (if input.durationHours.Int? then input.durationHours.i else DefaultDurationHours)
    ensures ParseBookingStatus(b.status) == Some(Pending) && ParseServiceType(b.serviceType).Some?
  {
    var serviceType := ValidateServiceType(input.serviceType).value;
    var address := RunCharField(ContactSpec, input.address, NoFormatChecks).value;
    var phone := RunCharField(ContactSpec, input.phone, NoFormatChecks).value;
    var city := RunCharField(CitySpec, input.city, NoFormatChecks).value;
    var state := RunCharField(StateSpec, input.state, NoFormatChecks).value;
    var country := RunCharField(CountrySpec, input.country, NoFormatChecks).value;
    var duration := RunDuration(input.durationHours).value;
    var notes := RunCharField(NotesSpec, input.notes, NoFormatChecks).value;
    var hours: Option<nat> := if duration.Int? then Some(duration.i) else None;
    var b := NewBooking(id, requester, city.s, Given(state), Given(country), RunStartTime(input.startTime, now).value,
                        hours, Given(notes), now).(serviceType := Given(serviceType).GetOr(DefaultServiceType));
    SettersTouchOnlyTheirField(b, c, address.s, nonceA);
    SettersTouchOnlyTheirField(SetAddress(b, c, address.s, nonceA), c, phone.s, nonceP);
    SetPhone(SetAddress(b, c, address.s, nonceA), c, phone.s, nonceP)
  }

  /** Validation then `create` for a serializer with `fields`: the fields are built first. */
  function CreateWith(fields: seq<string>, id: string, input: CreateInput, requester: string, c: Cipher, nonceA: nat,
                      nonceP: nat, now: int): (r: Result<Booking, CreateError>)
    ensures BuildFields(fields).Err? ==> r == Err(ImproperlyConfigured(BuildFields(fields).error))
    ensures BuildFields(fields).Ok? ==> (r.Ok? <==> CreateErrors(input, now) == [])
    ensures BuildFields(fields).Ok? && r.Err? ==> r == Err(Invalid(CreateErrors(input, now)))
    ensures r.Ok? ==> CreateErrors(input, now) == [] && r.value == CreateValidated(id, input, requester, c, nonceA, nonceP, now)
  {
    match BuildFields(fields)
    case Err(name) => Err(ImproperlyConfigured(name))
    case Ok(_) =>
      var errors := CreateErrors(input, now);
      if errors != [] then Err(Invalid(errors))
      else Ok(CreateValidated(id, input, requester, c, nonceA, nonceP, now))
  }

  /** The create serializer as written. */
  function CreateBooking(id: string, input: CreateInput, requester: string, c: Cipher, nonceA: nat, nonceP: nat,
                         now: int): Result<Booking, CreateError> {
    CreateWith(CreateFields, id, input, requester, c, nonceA, nonceP, now)
  }

  /** The create serializer with the corrected fields. */
  function FixedCreateBooking(id: string, input: CreateInput, requester: string, c: Cipher, nonceA: nat, nonceP: nat,
                              now: int): Result<Booking, CreateError> {
    CreateWith(FixedCreateFields, id, input, requester, c, nonceA, nonceP, now)
  }

  /**
   * One attribute as DRF renders it: decimals as two-decimal text,
   * timestamps as numbers here, and `address`/`phone` through the
   * decrypting getters, `None` when a stored token does not decrypt (the
   * getter raises).
   */
  function AttributeValue(b: Booking, c: Cipher, name: string): (r: Option<Json>)
    ensures name == "address" ==> r == (if GetAddress(b, c).Some? then Some(JStr(GetAddress(b, c).value)) else None)
    ensures name == "phone" ==> r == (if GetPhone(b, c).Some? then Some(JStr(GetPhone(b, c).value)) else None)
    ensures name !in {"address", "phone"} ==> r.Some?
    ensures name == "address_enc" ==> r == Some(JStr(b.addressEnc))
    ensures name == "phone_enc" ==> r == Some(JStr(b.phoneEnc))
  {
    if name == "address" then (if GetAddress(b, c).Some? then Some(JStr(GetAddress(b, c).value)) else None)
    else if name == "phone" then (if GetPhone(b, c).Some? then Some(JStr(GetPhone(b, c).value)) else None)
    else if name == "id" || name == "pk" then Some(JStr(b.id))
    else if name == "user" then Some(JStr(b.userId))
    else if name == "provider" then Some(OptionalText(b.providerId))
    else if name == "service_type" then Some(JStr(b.serviceType))
    else if name == "budget" then Some(if b.budgetCents.Some? then JStr(CentsText(b.budgetCents.value)) else JNull)
    else if name == "address_enc" then Some(JStr(b.addressEnc))
    else if name == "phone_enc" then Some(JStr(b.phoneEnc))
    else if name == "city" then Some(JStr(b.city))
    else if name == "state" then Some(OptionalText(b.state))
    else if name == "country" then Some(JStr(b.country))
    else if name == "start_time" then Some(JInt(b.startTime))
    else if name == "duration_hours" then Some(JInt(b.durationHours))
    else if name == "status" then Some(JStr(b.status))
    else if name == "confirmation_code" then Some(JStr(b.confirmationCode))
    else if name == "notes" then Some(OptionalText(b.notes))
    else if name == "created_at" then Some(JInt(b.createdAt))
    else if name == "updated_at" then Some(JInt(b.updatedAt))
    else Some(JNull)
  }

  /** The attributes named in `fields`, in order; `None` when one of them cannot be read. */
  function RenderFields(b: Booking, c: Cipher, fields: seq<string>): (r: Option<seq<(string, Json)>>)
    ensures r.Some? <==> forall i :: 0 <= i < |fields| ==> AttributeValue(b, c, fields[i]).Some?
    ensures r.Some? ==> KeysOf(r.value) == fields
    ensures r.Some? ==> forall i :: 0 <= i < |fields| ==> r.value[i] == (fields[i], AttributeValue(b, c, fields[i]).value)
  {
    if |fields| == 0 then Some([])
    else
      assert forall i :: 1 <= i < |fields| ==> fields[i] == fields[1..][i - 1];
      match AttributeValue(b, c, fields[0])
      case None => None
      case Some(v) =>
        match RenderFields(b, c, fields[1..])
        case None => None
        case Some(rest) => Some([(fields[0], v)] + rest)
  }

  /** Why a booking cannot be rendered: the serializer cannot be built, or a contact field does not decrypt. */
  datatype RenderError = UnknownField(field: string) | Undecryptable

  /** A serializer with `fields` applied to one booking. */
  function Serialize(b: Booking, c: Cipher, fields: seq<string>): (r: Result<seq<(string, Json)>, RenderError>)
    ensures BuildFields(fields).Err? ==> r == Err(UnknownField(BuildFields(fields).error))
    ensures BuildFields(fields).Ok? ==> (r.Ok? <==> RenderFields(b, c, fields).Some?)
    ensures BuildFields(fields).Ok? && r.Err? ==> r == Err(Undecryptable)
    ensures r.Ok? ==> KeysOf(r.value) == fields
  {
    match BuildFields(fields)
    case Err(name) => Err(UnknownField(name))
    case Ok(_) =>
      match RenderFields(b, c, fields)
      case None => Err(Undecryptable)
      case Some(entries) => Ok(entries)
  }

  /**
   * As written, none of the three serializers works: creating, showing and
   * listing a booking all fail on the name `service`, whatever the input.
   */
  lemma AsWrittenSerializersFail(b: Booking, c: Cipher, id: string, input: CreateInput, requester: string,
                                 nonceA: nat, nonceP: nat, now: int)
    ensures CreateBooking(id, input, requester, c, nonceA, nonceP, now) == Err(ImproperlyConfigured("service"))
    ensures Serialize(b, c, DetailFields) == Err(UnknownField("service"))
    ensures Serialize(b, c, ListFields) == Err(UnknownField("service"))
  {
    assert "service" !in BookingAttributes;
    assert CreateFields[0] == "service" && DetailFields[0] in BookingAttributes && DetailFields[1] == "service";
    assert ListFields[0] in BookingAttributes && ListFields[1] == "service";
  }

  /** The corrected field lists all build, and list no `service`. */
  lemma FixedFieldsBuild()
    ensures BuildFields(FixedCreateFields) == Ok(FixedCreateFields)
    ensures BuildFields(FixedDetailFields) == Ok(FixedDetailFields)
    ensures BuildFields(FixedListFields) == Ok(FixedListFields)
  {
    assert forall i :: 0 <= i < |FixedCreateFields| ==> FixedCreateFields[i] in BookingAttributes;
    assert forall i :: 0 <= i < |FixedDetailFields| ==> FixedDetailFields[i] in BookingAttributes;
    assert forall i :: 0 <= i < |FixedListFields| ==> FixedListFields[i] in BookingAttributes;
  }

  /** Sent as text with more than whitespace, and free of NUL once trimmed. */
  predicate Filled(sent: Sent) {
    sent.Str? && PyStrip(sent.s) != "" && '\U{0}' !in PyStrip(sent.s)
  }

  /** Text with more than whitespace, if sent, is free of NUL and within `limit` characters once trimmed. */
  predicate FitsIfSent(sent: Sent, limit: Option<nat>) {
    sent.Str? && PyStrip(sent.s) != "" ==>
      '\U{0}' !in PyStrip(sent.s) && (limit.None? || |PyStrip(sent.s)| <= limit.value)
  }

  /**
   * What the create serializer accepts, field by field: a listed service
   * type or none; address and phone filled in; a city filled in, of at
   * most 100 characters; a state, if given, of at most 100; a country, if
   * sent, filled in and of at most 100; a start after now; a duration,
   * if sent, a number of at least 0; notes without NUL.
   */
  predicate CreateFieldsPass(input: CreateInput, now: int) {
    (input.serviceType.Absent? || (input.serviceType.Str? && ParseServiceType(input.serviceType.s).Some?))
    && Filled(input.address) && Filled(input.phone)
    && Filled(input.city) && |PyStrip(input.city.s)| <= PlaceMaxLength
    && FitsIfSent(input.state, Some(PlaceMaxLength))
    && !input.country.Null? && (input.country.Str? ==> PyStrip(input.country.s) != "")
    && FitsIfSent(input.country, Some(PlaceMaxLength))
    && input.startTime.Int? && input.startTime.i > now
    && !input.durationHours.IntNull? && (input.durationHours.Int? ==> input.durationHours.i >= 0)
    && FitsIfSent(input.notes, None)
  }

  /** The validators of a booking text field: the length limit, if any, then the NUL check. */
  function TextValidators(limit: Option<nat>): seq<Validator> {
    if limit.Some? then [MaxLength(limit.value), NoNullCharacters] else [NoNullCharacters]
  }

  /** A booking text field's validators pass exactly on text without NUL within its limit. */
  lemma TextValidatorsPass(limit: Option<nat>, value: string, checks: Checks)
    ensures RunValidators(TextValidators(limit), value, checks) == [] <==>
              '\U{0}' !in value && (limit.None? || |value| <= limit.value)
  {
    var vs := TextValidators(limit);
    if limit.Some? {
      assert vs[1..] == [NoNullCharacters];
      assert RunValidators(vs, value, checks) == [] <==>
               Check(vs[0], value, checks).None? && Check(vs[1], value, checks).None?;
    } else {
      assert RunValidators(vs, value, checks) == [] <==> Check(vs[0], value, checks).None?;
    }
  }

  /** A booking text field passes exactly when what was sent suits its declaration and its trimmed text fits. */
  lemma TextFieldPasses(spec: CharSpec, limit: Option<nat>, sent: Sent, checks: Checks)
    requires spec.validators == TextValidators(limit)
    ensures RunCharField(spec, sent, checks).Ok? <==>
              (sent.Absent? ==> !spec.required) && (sent.Null? ==> spec.allowNull)
              && (sent.Str? && PyStrip(sent.s) == "" ==> spec.allowBlank) && FitsIfSent(sent, limit)
  {
    if sent.Str? && PyStrip(sent.s) != "" {
      TextValidatorsPass(limit, PyStrip(sent.s), checks);
    }
  }

  /** Each text field of the create serializer passes exactly under its clause of `CreateFieldsPass`. */
  lemma TextFieldsPass(input: CreateInput)
    ensures RunCharField(ContactSpec, input.address, NoFormatChecks).Ok? <==> Filled(input.address)
    ensures RunCharField(ContactSpec, input.phone, NoFormatChecks).Ok? <==> Filled(input.phone)
    ensures RunCharField(CitySpec, input.city, NoFormatChecks).Ok? <==>
              Filled(input.city) && |PyStrip(input.city.s)| <= PlaceMaxLength
    ensures RunCharField(StateSpec, input.state, NoFormatChecks).Ok? <==> FitsIfSent(input.state, Some(PlaceMaxLength))
    ensures RunCharField(CountrySpec, input.country, NoFormatChecks).Ok? <==>
              !input.country.Null? && (input.country.Str? ==> PyStrip(input.country.s) != "")
              && FitsIfSent(input.country, Some(PlaceMaxLength))
    ensures RunCharField(NotesSpec, input.notes, NoFormatChecks).Ok? <==> FitsIfSent(input.notes, None)
  {
    TextFieldPasses(ContactSpec, None, input.address, NoFormatChecks);
    TextFieldPasses(ContactSpec, None, input.phone, NoFormatChecks);
    TextFieldPasses(CitySpec, Some(PlaceMaxLength), input.city, NoFormatChecks);
    TextFieldPasses(StateSpec, Some(PlaceMaxLength), input.state, NoFormatChecks);
    TextFieldPasses(CountrySpec, Some(PlaceMaxLength), input.country, NoFormatChecks);
    TextFieldPasses(NotesSpec, None, input.notes, NoFormatChecks);
  }

  /**
   * With the corrected fields, a request passes exactly when every field
   * meets `CreateFieldsPass`, and a refused request reports every field
   * error.
   */
  lemma FixedCreateChecksFields(id: string, input: CreateInput, requester: string, c: Cipher, nonceA: nat,
                                nonceP: nat, now: int)
    ensures var r := FixedCreateBooking(id, input, requester, c, nonceA, nonceP, now);
            (r.Ok? <==> CreateFieldsPass(input, now))
            && (r.Err? ==> r.error == Invalid(CreateErrors(input, now)))
  {
    FixedFieldsBuild();
    CreateErrorsEmptyIffPass(input, now);
  }

  /** A create request has no field error exactly when it meets `CreateFieldsPass`. */
  lemma CreateErrorsEmptyIffPass(input: CreateInput, now: int)
    ensures CreateErrors(input, now) == [] <==> CreateFieldsPass(input, now)
  {
    TextFieldsPass(input);
  }

  /**
   * The messages of the commonest refusals: a missing or blank address,
   * a city over 100 characters, a start that is not in the future and a
   * negative duration.
   */
  lemma CreateFieldMessages(input: CreateInput, now: int)
    ensures input.address.Absent? ==> ("address", [RequiredMessage]) in CreateErrors(input, now)
    ensures input.address.Str? && PyStrip(input.address.s) == "" ==> ("address", [BlankMessage]) in CreateErrors(input, now)
    ensures input.city.Str? && |PyStrip(input.city.s)| > PlaceMaxLength && '\U{0}' !in PyStrip(input.city.s) ==>
              ("city", [MaxLengthMessage(PlaceMaxLength)]) in CreateErrors(input, now)
    ensures input.startTime.Int? && input.startTime.i <= now ==>
              ("start_time", ["Start time must be in the future"]) in CreateErrors(input, now)
    ensures input.durationHours.Int? && input.durationHours.i < 0 ==>
              ("duration_hours", [MinValueMessage(0)]) in CreateErrors(input, now)
  {
    if input.city.Str? && |PyStrip(input.city.s)| > PlaceMaxLength && '\U{0}' !in PyStrip(input.city.s) {
      var vs := TextValidators(Some(PlaceMaxLength));
      assert RunValidators(vs, PyStrip(input.city.s), NoFormatChecks) == [MaxLengthMessage(PlaceMaxLength)] by {
        assert vs[1..] == [NoNullCharacters];
      }
    }
  }

  /** The stored address and phone decrypt to the trimmed text the client sent. */
  lemma CreateStoresContactDetails(id: string, input: CreateInput, requester: string, c: Cipher, nonceA: nat,
                                   nonceP: nat, now: int)
    requires Sound(c)
    requires FixedCreateBooking(id, input, requester, c, nonceA, nonceP, now).Ok?
    ensures input.address.Str? && input.phone.Str?
    ensures GetAddress(FixedCreateBooking(id, input, requester, c, nonceA, nonceP, now).value, c) ==
              Some(PyStrip(input.address.s))
    ensures GetPhone(FixedCreateBooking(id, input, requester, c, nonceA, nonceP, now).value, c) ==
              Some(PyStrip(input.phone.s))
  {
    var b := FixedCreateBooking(id, input, requester, c, nonceA, nonceP, now).value;
    var address, phone := PyStrip(input.address.s), PyStrip(input.phone.s);
    assert b.addressEnc == c.enc(address, nonceA) && b.phoneEnc == c.enc(phone, nonceP);
    assert c.enc(address, nonceA) != "" && c.dec(c.enc(address, nonceA)) == Some(address);
    assert c.enc(phone, nonceP) != "" && c.dec(c.enc(phone, nonceP)) == Some(phone);
  }

  /** The corrected list serializer's output for one booking. */
  function ListRepresentation(b: Booking, c: Cipher): (r: Result<seq<(string, Json)>, RenderError>)
    ensures r.Ok? && KeysOf(r.value) == FixedListFields
  {
    FixedFieldsBuild();
    ListFieldsPlain();
    RenderWithoutContactFields(b, c, FixedListFields, b.addressEnc, b.phoneEnc);
    Serialize(b, c, FixedListFields)
  }

  /** The corrected list names no contact field and no ciphertext. */
  lemma ListFieldsPlain()
    ensures forall i :: 0 <= i < |FixedListFields| ==> FixedListFields[i] !in {"address", "phone", "address_enc", "phone_enc"}
  {
  }

  /** A field list without address and phone always renders, and does not depend on the ciphertexts. */
  lemma {:induction false} RenderWithoutContactFields(b: Booking, c: Cipher, fields: seq<string>, addressEnc: string,
                                                      phoneEnc: string)
    requires forall i :: 0 <= i < |fields| ==> fields[i] !in {"address", "phone", "address_enc", "phone_enc"}
    ensures RenderFields(b, c, fields).Some?
    ensures RenderFields(b, c, fields) == RenderFields(b.(addressEnc := addressEnc, phoneEnc := phoneEnc), c, fields)
  {
    if |fields| > 0 {
      var b2 := b.(addressEnc := addressEnc, phoneEnc := phoneEnc);
      assert fields[0] !in {"address", "phone", "address_enc", "phone_enc"};
      AttributeIgnoresCiphertext(b, c, fields[0], addressEnc, phoneEnc);
      RenderWithoutContactFields(b, c, fields[1..], addressEnc, phoneEnc);
    }
  }

  /** Every attribute other than the contact fields and their ciphertexts reads the same whatever the ciphertexts. */
  lemma AttributeIgnoresCiphertext(b: Booking, c: Cipher, name: string, addressEnc: string, phoneEnc: string)
    requires name !in {"address", "phone", "address_enc", "phone_enc"}
    ensures AttributeValue(b, c, name).Some?
    ensures AttributeValue(b, c, name) == AttributeValue(b.(addressEnc := addressEnc, phoneEnc := phoneEnc), c, name)
  {
  }

  /** The corrected detail serializer's output for one booking, with address and phone decrypted. */
  function DetailRepresentation(b: Booking, c: Cipher): (r: Result<seq<(string, Json)>, RenderError>)
    ensures r.Ok? <==> GetAddress(b, c).Some? && GetPhone(b, c).Some?
    ensures r.Err? ==> r == Err(Undecryptable)
    ensures r.Ok? ==> KeysOf(r.value) == FixedDetailFields
    ensures r.Ok? ==> r.value[2] == ("address", JStr(GetAddress(b, c).value))
                      && r.value[3] == ("phone", JStr(GetPhone(b, c).value))
  {
    DetailRendersContactFields(b, c);
    Serialize(b, c, FixedDetailFields)
  }

  /** The detail fields render exactly when both contact fields decrypt, with the decrypted texts at positions 2 and 3. */
  lemma DetailRendersContactFields(b: Booking, c: Cipher)
    ensures var r := Serialize(b, c, FixedDetailFields);
            (r.Ok? <==> GetAddress(b, c).Some? && GetPhone(b, c).Some?)
            && (r.Err? ==> r == Err(Undecryptable))
            && (r.Ok? ==> KeysOf(r.value) == FixedDetailFields
                          && r.value[2] == ("address", JStr(GetAddress(b, c).value))
                          && r.value[3] == ("phone", JStr(GetPhone(b, c).value)))
  {
    FixedFieldsBuild();
    DetailNeedsOnlyContactFields(b, c);
    assert FixedDetailFields[2] == "address" && FixedDetailFields[3] == "phone";
    ContactEntries(b, c, FixedDetailFields);
  }

  /**
   * A serializer whose third and fourth fields are address and phone, and
   * which fails only on those, renders exactly when both decrypt, with
   * their plaintexts there.
   */
  lemma ContactEntries(b: Booking, c: Cipher, fields: seq<string>)
    requires BuildFields(fields).Ok? && |fields| > 3 && fields[2] == "address" && fields[3] == "phone"
    requires RenderFields(b, c, fields).Some? <==> GetAddress(b, c).Some? && GetPhone(b, c).Some?
    ensures var r := Serialize(b, c, fields);
            (r.Ok? <==> GetAddress(b, c).Some? && GetPhone(b, c).Some?)
            && (r.Err? ==> r == Err(Undecryptable))
            && (r.Ok? ==> KeysOf(r.value) == fields
                          && r.value[2] == ("address", JStr(GetAddress(b, c).value))
                          && r.value[3] == ("phone", JStr(GetPhone(b, c).value)))
  {
    if RenderFields(b, c, fields).Some? {
      assert AttributeValue(b, c, fields[2]).Some? && AttributeValue(b, c, fields[3]).Some?;
    }
  }

  /** Of the detail fields, only address and phone can fail to render. */
  lemma DetailNeedsOnlyContactFields(b: Booking, c: Cipher)
    ensures RenderFields(b, c, FixedDetailFields).Some? <==> GetAddress(b, c).Some? && GetPhone(b, c).Some?
  {
    assert FixedDetailFields[2] == "address" && FixedDetailFields[3] == "phone";
    if RenderFields(b, c, FixedDetailFields).None? {
      var i :| 0 <= i < |FixedDetailFields| && AttributeValue(b, c, FixedDetailFields[i]).None?;
      assert FixedDetailFields[i] in {"address", "phone"};
    }
  }

  /**
   * The list exposes neither address nor phone: it has no such keys and
   * does not change with the ciphertexts.  The detail view carries both.
   */
  lemma ListHidesContactDetails(b: Booking, c: Cipher, addressEnc: string, phoneEnc: string)
    ensures "address" !in FixedListFields && "phone" !in FixedListFields
    ensures "address" in FixedDetailFields && "phone" in FixedDetailFields
    ensures ListRepresentation(b, c) == ListRepresentation(b.(addressEnc := addressEnc, phoneEnc := phoneEnc), c)
    ensures Find(ListRepresentation(b, c).value, "address").None? && Find(ListRepresentation(b, c).value, "phone").None?
  {
    assert FixedDetailFields[2] == "address" && FixedDetailFields[3] == "phone";
    ListFieldsPlain();
    RenderWithoutContactFields(b, c, FixedListFields, addressEnc, phoneEnc);
    ListKeysHideContact(ListRepresentation(b, c).value);
  }

  /** An object with the list keys has neither contact key. */
  lemma ListKeysHideContact(r: seq<(string, Json)>)
    requires KeysOf(r) == FixedListFields
    ensures Find(r, "address").None? && Find(r, "phone").None?
  {
    assert forall i :: 0 <= i < |r| ==> r[i].0 == FixedListFields[i];
    ListFieldsPlain();
    FindSpec(r, "address");
    FindSpec(r, "phone");
  }

  /** A freshly created booking's detail view shows the address and phone it was created with. */
  lemma DetailShowsCreatedContactDetails(id: string, input: CreateInput, requester: string, c: Cipher, nonceA: nat,
                                         nonceP: nat, now: int)
    requires Sound(c)
    requires FixedCreateBooking(id, input, requester, c, nonceA, nonceP, now).Ok?
    ensures var b := FixedCreateBooking(id, input, requester, c, nonceA, nonceP, now).value;
            var d := DetailRepresentation(b, c);
            input.address.Str? && input.phone.Str? && d.Ok?
            && d.value[2] == ("address", JStr(PyStrip(input.address.s)))
            && d.value[3] == ("phone", JStr(PyStrip(input.phone.s)))
  {
    CreateStoresContactDetails(id, input, requester, c, nonceA, nonceP, now);
  }
}

=== FILE: bookings_views.dfy ===
/**
 * The owner-scoped booking views of backend/bookings/views.py: the list
 * query, `get_object` of the detail and update views,
 * `BookingUpdateView.update` (the encrypting setters, the `setattr` loop,
 * the save and the answer) and `user_booking_stats`.  The booking table is
 * a sequence of rows.
 */
module BookingsViews {
  import opened Wrappers
  import opened Assoc
  import opened CoreUtils
  import opened BookingsModels
  import BookingsSerializers
  import DrfFields

  /** `Booking.objects.filter(user=user)` before ordering: the user's bookings, in table order. */
  function FilterByUser(bookings: seq<Booking>, user: string): (r: seq<Booking>)
    ensures |r| <= |bookings|
    ensures forall k :: 0 <= k < |r| ==> r[k].userId == user && r[k] in bookings
    ensures forall i :: 0 <= i < |bookings| && bookings[i].userId == user ==> bookings[i] in r
    decreases |bookings|
  {
    if |bookings| == 0 then []
    else
      var rest := FilterByUser(bookings[1..], user);
      assert forall i :: 1 <= i < |bookings| ==> bookings[i] == bookings[1..][i - 1];
      (if bookings[0].userId == user then [bookings[0]] else []) + rest
  }

  /** Newest first: no booking comes before one created later (`Meta.ordering = ['-created_at']`). */
  predicate NewestFirstOrder(bs: seq<Booking>) {
    forall i, j :: 0 <= i < j < |bs| ==> bs[i].createdAt >= bs[j].createdAt
  }

  /** Puts `b` before the first booking not newer than it. */
  function InsertByAge(b: Booking, sorted: seq<Booking>): seq<Booking> {
    if |sorted| == 0 || sorted[0].createdAt <= b.createdAt then [b] + sorted
    else [sorted[0]] + InsertByAge(b, sorted[1..])
  }

  /** A booking not older than the head of a newest-first list can go in front of it. */
  lemma ConsNewestFirst(x: Booking, s: seq<Booking>)
    requires NewestFirstOrder(s)
    requires |s| == 0 || s[0].createdAt <= x.createdAt
    ensures NewestFirstOrder([x] + s)
  {
    var r := [x] + s;
    forall i, j | 0 <= i < j < |r| ensures r[i].createdAt >= r[j].createdAt {
      if i == 0 {
        assert r[j] == s[j - 1];
        assert s[0].createdAt >= s[j - 1].createdAt;
      } else {
        assert r[i] == s[i - 1] && r[j] == s[j - 1];
      }
    }
  }

  /** Inserting into a newest-first list keeps it newest first and adds exactly `b`. */
  lemma {:induction false} InsertByAgeSpec(b: Booking, sorted: seq<Booking>)
    requires NewestFirstOrder(sorted)
    ensures NewestFirstOrder(InsertByAge(b, sorted))
    ensures multiset(InsertByAge(b, sorted)) == multiset(sorted) + multiset{b}
  {
    if |sorted| == 0 || sorted[0].createdAt <= b.createdAt {
      ConsNewestFirst(b, sorted);
    } else {
      var tail := sorted[1..];
      assert NewestFirstOrder(tail) by {
        forall i, j | 0 <= i < j < |tail| ensures tail[i].createdAt >= tail[j].createdAt {
          assert tail[i] == sorted[i + 1] && tail[j] == sorted[j + 1];
        }
      }
      var rest := InsertByAge(b, tail);
      InsertByAgeSpec(b, tail);
      assert sorted == [sorted[0]] + tail;
      if |rest| > 0 {
        assert rest[0] in multiset(rest);
        if rest[0] != b {
          assert rest[0] in multiset(tail);
          var k :| 0 <= k < |tail| && tail[k] == rest[0];
          assert sorted[k + 1] == rest[0];
        }
      }
      ConsNewestFirst(sorted[0], rest);
    }
  }

  /** Sorts newest first by insertion; bookings created at the same time keep their table order. */
  function NewestFirst(bs: seq<Booking>): seq<Booking> {
    if |bs| == 0 then [] else InsertByAge(bs[0], NewestFirst(bs[1..]))
  }

  lemma {:induction false} NewestFirstSpec(bs: seq<Booking>)
    ensures NewestFirstOrder(NewestFirst(bs))
    ensures multiset(NewestFirst(bs)) == multiset(bs)
  {
    if |bs| > 0 {
      NewestFirstSpec(bs[1..]);
      InsertByAgeSpec(bs[0], NewestFirst(bs[1..]));
      assert bs == [bs[0]] + bs[1..];
    }
  }

  /**
   * `Booking.objects.filter(user=user)` with the model's default ordering:
   * the user's bookings, newest first, each row of the user exactly once.
   */
  function UserBookings(bookings: seq<Booking>, user: string): (r: seq<Booking>)
    ensures NewestFirstOrder(r)
    ensures multiset(r) == multiset(FilterByUser(bookings, user))
    ensures |r| == |FilterByUser(bookings, user)|
  {
    NewestFirstSpec(FilterByUser(bookings, user));
    var r := NewestFirst(FilterByUser(bookings, user));
    assert |multiset(r)| == |r|;
    r
  }

  /** A booking is listed for a user exactly when it is in the table and belongs to that user. */
  lemma ListIsExactlyTheUsersBookings(bookings: seq<Booking>, user: string, b: Booking)
    ensures b in UserBookings(bookings, user) <==> b in bookings && b.userId == user
  {
    var r := UserBookings(bookings, user);
    var f := FilterByUser(bookings, user);
    assert b in r <==> b in multiset(r);
    assert b in f <==> b in multiset(f);
  }

  /** The result of `get_object`: the booking, or the `NotFound` (404) raised with its detail message. */
  datatype Lookup = Owned(booking: Booking) | NotFound(detail: string)

  /** `get_object_or_404(Booking, id=pk)` and the owner check of the detail and update views. */
  function GetObject(bookings: seq<Booking>, id: string, requester: string): (r: Lookup)
    ensures r.Owned? ==> r.booking.id == id && r.booking.userId == requester && r.booking in bookings
    ensures (forall i :: 0 <= i < |bookings| ==> bookings[i].id != id) ==>
              r == NotFound("No Booking matches the given query.")
  {
    match BookingById(bookings, id)
    case None => NotFound("No Booking matches the given query.")
    case Some(b) => if b.userId != requester then NotFound("Booking not found") else Owned(b)
  }

  /** The primary key: no two rows share an id. */
  predicate UniqueIds(bookings: seq<Booking>) {
    forall i, j :: 0 <= i < |bookings| && 0 <= j < |bookings| && bookings[i].id == bookings[j].id ==> i == j
  }

  /** With unique ids, a booking is found exactly when a row with that id belongs to the requester. */
  lemma GetObjectFindsOnlyOwnBookings(bookings: seq<Booking>, id: string, requester: string)
    requires UniqueIds(bookings)
    ensures GetObject(bookings, id, requester).Owned? <==>
              exists i :: 0 <= i < |bookings| && bookings[i].id == id && bookings[i].userId == requester
  {
    if b :| b in bookings && b.id == id && b.userId != requester {
      ForeignBookingIsNotFound(bookings, IndexIn(bookings, b), requester);
    }
  }

  /**
   * Ids are unique in the table (the primary key); under that, a booking of
   * another user is refused with the same `NotFound` class and status as an
   * id that does not exist.  Only the detail text differs.
   */
  lemma ForeignBookingIsNotFound(bookings: seq<Booking>, i: nat, requester: string)
    requires UniqueIds(bookings)
    requires i < |bookings| && bookings[i].userId != requester
    ensures GetObject(bookings, bookings[i].id, requester) == NotFound("Booking not found")
  {
    var b := BookingById(bookings, bookings[i].id).value;
    var j :| 0 <= j < |bookings| && bookings[j] == b;
  }

  /** The position of a row in the table. */
  function IndexIn(bookings: seq<Booking>, b: Booking): (i: nat)
    requires b in bookings
    ensures i < |bookings| && bookings[i] == b
  {
    if bookings[0] == b then 0 else
      assert b in bookings[1..];
      1 + IndexIn(bookings[1..], b)
  }

  // ---------------------------------------------------------------- update

  /** The keys the update view routes through the encrypting setters. */
  predicate IsContactKey(k: string) {
    k == "address" || k == "phone"
  }

  /** The entries of the request that are assigned with `setattr`, in request order. */
  function Assignments(data: seq<(string, Json)>): (r: seq<(string, Json)>)
    ensures |r| <= |data|
    ensures forall k :: 0 <= k < |r| ==> !IsContactKey(r[k].0) && r[k] in data
    ensures forall i :: 0 <= i < |data| && !IsContactKey(data[i].0) ==> data[i] in r
    decreases |data|
  {
    if |data| == 0 then []
    else
      var rest := Assignments(data[1..]);
      assert forall i :: 1 <= i < |data| ==> data[i] == data[1..][i - 1];
      (if IsContactKey(data[0].0) then [] else [data[0]]) + rest
  }

  /** A request without contact keys is assigned in full, unchanged and in order. */
  lemma {:induction false} AssignmentsKeepPlainRequests(data: seq<(string, Json)>)
    requires forall i :: 0 <= i < |data| ==> !IsContactKey(data[i].0)
    ensures Assignments(data) == data
    decreases |data|
  {
    if |data| > 0 {
      assert forall i :: 0 <= i < |data[1..]| ==> data[1..][i] == data[i + 1];
      AssignmentsKeepPlainRequests(data[1..]);
    }
  }

  /** No key occurs twice, as in the dictionary a JSON object parses to. */
  predicate DistinctKeys(data: seq<(string, Json)>) {
    forall i, j :: 0 <= i < |data| && 0 <= j < |data| && i != j ==> data[i].0 != data[j].0
  }

  /** Dropping the contact keys keeps the keys distinct. */
  lemma {:induction false} AssignmentsKeepDistinctKeys(data: seq<(string, Json)>)
    requires DistinctKeys(data)
    ensures DistinctKeys(Assignments(data))
    decreases |data|
  {
    if |data| > 0 {
      var tail := data[1..];
      assert DistinctKeys(tail) by {
        forall i, j | 0 <= i < |tail| && 0 <= j < |tail| && i != j ensures tail[i].0 != tail[j].0 {
          assert tail[i] == data[i + 1] && tail[j] == data[j + 1];
        }
      }
      AssignmentsKeepDistinctKeys(tail);
      var rest := Assignments(tail);
      if !IsContactKey(data[0].0) {
        var r := [data[0]] + rest;
        forall k | 0 <= k < |rest| ensures rest[k].0 != data[0].0 {
          var i :| 0 <= i < |tail| && tail[i] == rest[k];
          assert tail[i] == data[i + 1];
        }
        forall i, j | 0 <= i < |r| && 0 <= j < |r| && i != j ensures r[i].0 != r[j].0 {
          if i > 0 && j > 0 {
            assert r[i] == rest[i - 1] && r[j] == rest[j - 1];
          } else if i == 0 {
            assert r[j] == rest[j - 1];
          } else {
            assert r[i] == rest[i - 1];
          }
        }
      }
    }
  }

  /** Why an update stops before anything is stored. */
  datatype UpdateError =
    | NotAString          // a non-string address or phone: the encryption raises `TypeError`
    | Rejected(key: string)     // the database refuses the value `save` writes for this column
    | OutsideModel(key: string) // an assignment this model does not cover

  /** Non-null text columns. */
  const TextColumns: set<string> := {"service_type", "city", "country", "status", "confirmation_code"}
  /** Nullable text columns. */
  const NullableTextColumns: set<string> := {"state", "notes"}
  /** Timestamp columns that `save` does not overwrite on an update (numbers here). */
  const TimestampColumns: set<string> := {"start_time", "created_at"}
  /** The binary ciphertext columns. */
  const CiphertextColumns: set<string> := {"address_enc", "phone_enc"}
  /** The columns a plain assignment writes and that read back as the JSON assigned. */
  const ColumnKeys: set<string> := TextColumns + NullableTextColumns + TimestampColumns + {"duration_hours"}

  /** A column of `ColumnKeys` as JSON. */
  function Column(b: Booking, key: string): (r: Option<Json>)
    ensures r.Some? <==> key in ColumnKeys
  {
    if key == "service_type" then Some(JStr(b.serviceType))
    else if key == "city" then Some(JStr(b.city))
    else if key == "country" then Some(JStr(b.country))
    else if key == "status" then Some(JStr(b.status))
    else if key == "confirmation_code" then Some(JStr(b.confirmationCode))
    else if key == "state" then Some(OptionalText(b.state))
    else if key == "notes" then Some(OptionalText(b.notes))
    else if key == "start_time" then Some(JInt(b.startTime))
    else if key == "created_at" then Some(JInt(b.createdAt))
    else if key == "duration_hours" then Some(JInt(b.durationHours))
    else None
  }

  /** Writes a text column (of `TextColumns` or `NullableTextColumns`). */
  function SetText(b: Booking, key: string, v: Option<string>): (r: Booking)
    requires key in TextColumns + NullableTextColumns
    requires key in TextColumns ==> v.Some?
    ensures Column(r, key) == Some(OptionalText(v))
    ensures forall k :: k != key ==> Column(r, k) == Column(b, k)
    ensures r == b.(serviceType := r.serviceType, city := r.city, country := r.country, status := r.status,
                    confirmationCode := r.confirmationCode, state := r.state, notes := r.notes)
  {
    if key == "service_type" then b.(serviceType := v.value)
    else if key == "city" then b.(city := v.value)
    else if key == "country" then b.(country := v.value)
    else if key == "status" then b.(status := v.value)
    else if key == "confirmation_code" then b.(confirmationCode := v.value)
    else if key == "state" then b.(state := v)
    else if key == "notes" then b.(notes := v)
    else b
  }

  /**
   * `setattr(instance, key, value)` as the `save` that follows stores it.
   * `save` runs no model validation, so any text passes the choices (a
   * database that enforces `max_length` is not modelled); a null in a
   * non-null column, a negative duration (the
   * positive-integer check constraint) and any JSON value in a binary
   * ciphertext column (the database adapter accepts only bytes) are
   * refused by the database; `updated_at` is overwritten by `save`.
   */
  function AssignColumn(b: Booking, key: string, value: Json): (r: Result<Booking, UpdateError>)
    ensures r.Ok? && key in ColumnKeys ==> Column(r.value, key) == Some(value)
    ensures r.Ok? ==> forall k :: k != key ==> Column(r.value, k) == Column(b, k)
    ensures r.Ok? ==> r.value.id == b.id && r.value.userId == b.userId && r.value.providerId == b.providerId
                      && r.value.addressEnc == b.addressEnc && r.value.phoneEnc == b.phoneEnc
                      && r.value.updatedAt == b.updatedAt
    ensures r.Ok? && key != "budget" ==> r.value.budgetCents == b.budgetCents
    ensures key == "updated_at" ==> r == Ok(b)
    ensures key == "budget" && value == JNull ==> r == Ok(b.(budgetCents := None))
    ensures key in CiphertextColumns ==> r == Err(Rejected(key))
    ensures value == JNull && key in TextColumns + TimestampColumns + {"duration_hours"} ==> r == Err(Rejected(key))
    ensures key == "duration_hours" && value.JInt? && value.i < 0 ==> r == Err(Rejected(key))
    ensures key !in ColumnKeys + CiphertextColumns + {"updated_at", "budget"} ==> r == Err(OutsideModel(key))
    ensures r.Err? ==> r.error == Rejected(key) || r.error == OutsideModel(key)
  {
    if key in CiphertextColumns then Err(Rejected(key))
    else if key == "updated_at" then Ok(b)
    else if key == "budget" then (if value == JNull then Ok(b.(budgetCents := None)) else Err(OutsideModel(key)))
    else if key in TextColumns then
      match value
      case JNull => Err(Rejected(key))
      case JStr(v) => Ok(SetText(b, key, Some(v)))
      case _ => Err(OutsideModel(key))
    else if key in NullableTextColumns then
      match value
      case JNull => Ok(SetText(b, key, None))
      case JStr(v) => Ok(SetText(b, key, Some(v)))
      case _ => Err(OutsideModel(key))
    else if key in TimestampColumns then
      match value
      case JNull => Err(Rejected(key))
      case JInt(t) => Ok(if key == "start_time" then b.(startTime := t) else b.(createdAt := t))
      case _ => Err(OutsideModel(key))
    else if key == "duration_hours" then
      match value
      case JNull => Err(Rejected(key))
      case JInt(n) => if n < 0 then Err(Rejected(key)) else Ok(b.(durationHours := n))
      case _ => Err(OutsideModel(key))
    else Err(OutsideModel(key))
  }

  /** The `setattr` loop: the entries in order, stopping at the first that cannot be stored. */
  function AssignAll(b: Booking, entries: seq<(string, Json)>): (r: Result<Booking, UpdateError>)
    ensures r.Ok? ==> r.value.id == b.id && r.value.userId == b.userId && r.value.providerId == b.providerId
                      && r.value.addressEnc == b.addressEnc && r.value.phoneEnc == b.phoneEnc
                      && r.value.updatedAt == b.updatedAt
    ensures r.Err? ==> exists i :: 0 <= i < |entries| && (r.error == Rejected(entries[i].0) || r.error == OutsideModel(entries[i].0))
    decreases |entries|
  {
    if |entries| == 0 then Ok(b)
    else
      assert forall i :: 1 <= i < |entries| ==> entries[i] == entries[1..][i - 1];
      match AssignColumn(b, entries[0].0, entries[0].1)
      case Err(e) => Err(e)
      case Ok(b1) => AssignAll(b1, entries[1..])
  }

  /** A column no entry names keeps its value through the loop. */
  lemma {:induction false} AssignAllKeeps(b: Booking, entries: seq<(string, Json)>, k: string)
    requires AssignAll(b, entries).Ok?
    requires forall i :: 0 <= i < |entries| ==> entries[i].0 != k
    ensures Column(AssignAll(b, entries).value, k) == Column(b, k)
    decreases |entries|
  {
    if |entries| > 0 {
      var b1 := AssignColumn(b, entries[0].0, entries[0].1).value;
      assert forall i :: 0 <= i < |entries[1..]| ==> entries[1..][i] == entries[i + 1];
      AssignAllKeeps(b1, entries[1..], k);
    }
  }

  /** Reading a column does not look at the ciphertext columns. */
  lemma ColumnIgnoresCiphertext(b: Booking, b2: Booking, k: string)
    requires b2.(addressEnc := b.addressEnc, phoneEnc := b.phoneEnc) == b
    ensures Column(b2, k) == Column(b, k)
  {
  }

  /** Reading a column does not look at `updated_at`. */
  lemma ColumnIgnoresUpdatedAt(b: Booking, now: int, k: string)
    ensures Column(b.(updatedAt := now), k) == Column(b, k)
  {
  }

  /** With distinct keys, every assigned column reads back as the value sent. */
  lemma {:induction false} AssignAllStoresEach(b: Booking, entries: seq<(string, Json)>)
    requires DistinctKeys(entries)
    requires AssignAll(b, entries).Ok?
    ensures forall i :: 0 <= i < |entries| && entries[i].0 in ColumnKeys ==>
              Column(AssignAll(b, entries).value, entries[i].0) == Some(entries[i].1)
    decreases |entries|
  {
    if |entries| > 0 {
      var tail := entries[1..];
      var b1 := AssignColumn(b, entries[0].0, entries[0].1).value;
      assert DistinctKeys(tail) by {
        forall i, j | 0 <= i < |tail| && 0 <= j < |tail| && i != j ensures tail[i].0 != tail[j].0 {
          assert tail[i] == entries[i + 1] && tail[j] == entries[j + 1];
        }
      }
      AssignAllStoresEach(b1, tail);
      forall i | 0 <= i < |tail| ensures tail[i].0 != entries[0].0 {
        assert tail[i] == entries[i + 1];
      }
      AssignAllKeeps(b1, tail, entries[0].0);
      forall i | 0 <= i < |entries| && entries[i].0 in ColumnKeys
        ensures Column(AssignAll(b, entries).value, entries[i].0) == Some(entries[i].1)
      {
        if i > 0 {
          assert entries[i] == tail[i - 1];
        }
      }
    }
  }

  /** An entry that is always refused makes the whole loop fail, whatever comes before it. */
  lemma {:induction false} AssignAllFailsOnCiphertext(b: Booking, entries: seq<(string, Json)>, i: nat)
    requires i < |entries| && entries[i].0 in CiphertextColumns
    ensures AssignAll(b, entries).Err?
    decreases |entries|
  {
    var first := AssignColumn(b, entries[0].0, entries[0].1);
    if i == 0 {
      assert first.Err?;
    } else if first.Ok? {
      assert entries[1..][i - 1] == entries[i];
      AssignAllFailsOnCiphertext(first.value, entries[1..], i - 1);
      assert AssignAll(b, entries) == AssignAll(first.value, entries[1..]);
    }
  }

  /** The contact part of the update: the address and then the phone are re-encrypted when sent. */
  function ContactPhase(b: Booking, data: seq<(string, Json)>, c: Cipher, nonceA: nat, nonceP: nat)
    : (r: Result<Booking, UpdateError>)
    ensures r == Err(NotAString) <==> (Find(data, "address").Some? && !Find(data, "address").value.JStr?)
                                      || (Find(data, "phone").Some? && !Find(data, "phone").value.JStr?)
    ensures r.Ok? ==> r.value.(addressEnc := b.addressEnc, phoneEnc := b.phoneEnc) == b
    ensures r.Ok? ==>
              r.value.addressEnc ==
                (if Find(data, "address").Some? then c.enc(Find(data, "address").value.s, nonceA) else b.addressEnc)
    ensures r.Ok? ==>
              r.value.phoneEnc ==
                (if Find(data, "phone").Some? then c.enc(Find(data, "phone").value.s, nonceP) else b.phoneEnc)
  {
    var address := Find(data, "address");
    var phone := Find(data, "phone");
    if address.Some? && !address.value.JStr? then Err(NotAString)
    else
      var b1 := if address.Some? then SetAddress(b, c, address.value.s, nonceA) else b;
      if phone.Some? && !phone.value.JStr? then Err(NotAString)
      else Ok(if phone.Some? then SetPhone(b1, c, phone.value.s, nonceP) else b1)
  }

  /** A key the request does not carry is not among its assignments. */
  lemma UnsentKeyNotAssigned(data: seq<(string, Json)>, k: string)
    requires Find(data, k).None?
    ensures forall i :: 0 <= i < |Assignments(data)| ==> Assignments(data)[i].0 != k
  {
    FindSpec(data, k);
  }

  /**
   * `BookingUpdateView.update` up to the save: the contact fields are
   * re-encrypted first (a non-string value makes the encryption raise a
   * `TypeError`), every other entry is assigned in request order, and
   * `save` stamps `updated_at`.  The row stored is the result.
   */
  function ApplyUpdate(b: Booking, data: seq<(string, Json)>, c: Cipher, nonceA: nat, nonceP: nat, now: int)
    : (r: Result<Booking, UpdateError>)
    ensures r == Err(NotAString) <==> (Find(data, "address").Some? && !Find(data, "address").value.JStr?)
                                      || (Find(data, "phone").Some? && !Find(data, "phone").value.JStr?)
    ensures r.Ok? ==> r.value.updatedAt == now && r.value.id == b.id && r.value.userId == b.userId
    ensures r.Ok? ==>
              r.value.addressEnc ==
                (if Find(data, "address").Some? then c.enc(Find(data, "address").value.s, nonceA) else b.addressEnc)
    ensures r.Ok? ==>
              r.value.phoneEnc ==
                (if Find(data, "phone").Some? then c.enc(Find(data, "phone").value.s, nonceP) else b.phoneEnc)
  {
    match ContactPhase(b, data, c, nonceA, nonceP)
    case Err(e) => Err(e)
    case Ok(b2) =>
      match AssignAll(b2, Assignments(data))
      case Err(e) =>
        assert e != NotAString;
        Err(e)
      case Ok(b3) =>
        Ok(b3.(updatedAt := now))
  }

  /** A column the request does not name keeps its value through the update. */
  lemma UpdateKeepsUnsentColumns(b: Booking, data: seq<(string, Json)>, c: Cipher, nonceA: nat, nonceP: nat, now: int,
                                 k: string)
    requires ApplyUpdate(b, data, c, nonceA, nonceP, now).Ok?
    requires Find(data, k).None?
    ensures Column(ApplyUpdate(b, data, c, nonceA, nonceP, now).value, k) == Column(b, k)
  {
    ApplyUpdateSteps(b, data, c, nonceA, nonceP, now);
    var b2 := ContactPhase(b, data, c, nonceA, nonceP).value;
    var b3 := AssignAll(b2, Assignments(data)).value;
    UnsentKeyNotAssigned(data, k);
    AssignAllKeeps(b2, Assignments(data), k);
    ColumnIgnoresCiphertext(b, b2, k);
    ColumnIgnoresUpdatedAt(b3, now, k);
  }

  /** After an update the booking reads back the address and phone sent, and keeps the readings of the ones not sent. */
  lemma UpdateRoutesContactDetails(b: Booking, data: seq<(string, Json)>, c: Cipher, nonceA: nat, nonceP: nat, now: int)
    requires Sound(c)
    requires ApplyUpdate(b, data, c, nonceA, nonceP, now).Ok?
    ensures var u := ApplyUpdate(b, data, c, nonceA, nonceP, now).value;
            (Find(data, "address").Some? ==> GetAddress(u, c) == Some(Find(data, "address").value.s))
            && (Find(data, "address").None? ==> GetAddress(u, c) == GetAddress(b, c))
            && (Find(data, "phone").Some? ==> GetPhone(u, c) == Some(Find(data, "phone").value.s))
            && (Find(data, "phone").None? ==> GetPhone(u, c) == GetPhone(b, c))
  {
    var address := Find(data, "address");
    var phone := Find(data, "phone");
    if address.Some? {
      var t := address.value.s;
      assert c.enc(t, nonceA) != "" && c.dec(c.enc(t, nonceA)) == Some(t);
    }
    if phone.Some? {
      var t := phone.value.s;
      assert c.enc(t, nonceP) != "" && c.dec(c.enc(t, nonceP)) == Some(t);
    }
  }

  /** A stored update is the contact phase, then the loop, then the timestamp. */
  lemma ApplyUpdateSteps(b: Booking, data: seq<(string, Json)>, c: Cipher, nonceA: nat, nonceP: nat, now: int)
    requires ApplyUpdate(b, data, c, nonceA, nonceP, now).Ok?
    ensures ContactPhase(b, data, c, nonceA, nonceP).Ok?
    ensures AssignAll(ContactPhase(b, data, c, nonceA, nonceP).value, Assignments(data)).Ok?
    ensures ApplyUpdate(b, data, c, nonceA, nonceP, now).value
            == AssignAll(ContactPhase(b, data, c, nonceA, nonceP).value, Assignments(data)).value.(updatedAt := now)
  {
  }

  /** With distinct keys, every column the request sends is stored exactly as sent. */
  lemma UpdateStoresSentColumns(b: Booking, data: seq<(string, Json)>, c: Cipher, nonceA: nat, nonceP: nat, now: int)
    requires DistinctKeys(data)
    requires ApplyUpdate(b, data, c, nonceA, nonceP, now).Ok?
    ensures var u := ApplyUpdate(b, data, c, nonceA, nonceP, now).value;
            forall i :: 0 <= i < |data| && data[i].0 in ColumnKeys ==> Column(u, data[i].0) == Some(data[i].1)
  {
    ApplyUpdateSteps(b, data, c, nonceA, nonceP, now);
    var b2 := ContactPhase(b, data, c, nonceA, nonceP).value;
    var entries := Assignments(data);
    AssignmentsKeepDistinctKeys(data);
    AssignAllStoresEach(b2, entries);
    var b3 := AssignAll(b2, entries).value;
    forall i | 0 <= i < |data| && data[i].0 in ColumnKeys ensures Column(b3.(updatedAt := now), data[i].0) == Some(data[i].1) {
      AssignedEntryStored(data, b2, i);
      ColumnIgnoresUpdatedAt(b3, now, data[i].0);
    }
  }

  /** One column entry of the request is among the assignments, so the loop stores it. */
  lemma AssignedEntryStored(data: seq<(string, Json)>, b2: Booking, i: nat)
    requires DistinctKeys(data)
    requires AssignAll(b2, Assignments(data)).Ok?
    requires i < |data| && data[i].0 in ColumnKeys
    ensures Column(AssignAll(b2, Assignments(data)).value, data[i].0) == Some(data[i].1)
  {
    var entries := Assignments(data);
    AssignmentsKeepDistinctKeys(data);
    AssignAllStoresEach(b2, entries);
    ContactKeysAreNotColumns(data[i].0);
    assert data[i] in entries;
    var k :| 0 <= k < |entries| && entries[k] == data[i];
  }

  /** The contact keys are not plain columns. */
  lemma ContactKeysAreNotColumns(key: string)
    requires key in ColumnKeys
    ensures !IsContactKey(key)
  {
  }

  /**
   * A ciphertext column sent as a plain key is never stored: the loop
   * reaches it after the setters and the save is refused, so an
   * `address_enc` cannot override the address sent beside it.
   */
  lemma CiphertextKeysNeverStored(b: Booking, data: seq<(string, Json)>, c: Cipher, nonceA: nat, nonceP: nat, now: int,
                                  i: nat)
    requires i < |data| && data[i].0 in CiphertextColumns
    ensures ApplyUpdate(b, data, c, nonceA, nonceP, now).Err?
  {
    match ContactPhase(b, data, c, nonceA, nonceP)
    case Err(_) =>
    case Ok(b2) =>
      var entries := Assignments(data);
      var k :| 0 <= k < |entries| && entries[k] == data[i];
      AssignAllFailsOnCiphertext(b2, entries, k);
  }

  /** What the update request leaves behind: the error that stopped it before the save, or the stored row and the answer. */
  datatype UpdateOutcome = Stopped(error: UpdateError) | Stored(booking: Booking, response: Result<seq<(string, Json)>, BookingsSerializers.RenderError>)

  /** The whole update: the save, then the stored row rendered by a serializer with `fields`. */
  function Update(b: Booking, data: seq<(string, Json)>, c: Cipher, nonceA: nat, nonceP: nat, now: int,
                  fields: seq<string>): (r: UpdateOutcome)
    ensures r.Stopped? <==> ApplyUpdate(b, data, c, nonceA, nonceP, now).Err?
    ensures r.Stored? ==> r.booking == ApplyUpdate(b, data, c, nonceA, nonceP, now).value
  {
    match ApplyUpdate(b, data, c, nonceA, nonceP, now)
    case Err(e) => Stopped(e)
    case Ok(u) => Stored(u, BookingsSerializers.Serialize(u, c, fields))
  }

  /**
   * As written, the update serializer names `service`: the row is stored,
   * and then rendering the answer fails, so the client sees a server error
   * for a change that was made.
   */
  lemma AsWrittenUpdateStoresThenFails(b: Booking, data: seq<(string, Json)>, c: Cipher, nonceA: nat, nonceP: nat,
                                       now: int)
    requires ApplyUpdate(b, data, c, nonceA, nonceP, now).Ok?
    ensures var r := Update(b, data, c, nonceA, nonceP, now, BookingsSerializers.DetailFields);
            r.Stored? && r.booking == ApplyUpdate(b, data, c, nonceA, nonceP, now).value
            && r.response == Err(BookingsSerializers.UnknownField("service"))
  {
    var u := ApplyUpdate(b, data, c, nonceA, nonceP, now).value;
    BookingsSerializers.AsWrittenSerializersFail(u, c, "", BookingsSerializers.CreateInput(
      DrfFields.Absent, DrfFields.Absent, DrfFields.Absent, DrfFields.Absent, DrfFields.Absent, DrfFields.Absent,
      DrfFields.IntAbsent, DrfFields.IntAbsent, DrfFields.Absent), "", 0, 0, 0);
  }

  /** With the corrected fields, an update that sends both contact fields answers with them. */
  lemma FixedUpdateAnswersWithSentDetails(b: Booking, data: seq<(string, Json)>, c: Cipher, nonceA: nat, nonceP: nat,
                                          now: int)
    requires Sound(c)
    requires ApplyUpdate(b, data, c, nonceA, nonceP, now).Ok?
    requires Find(data, "address").Some? && Find(data, "phone").Some?
    ensures var r := Update(b, data, c, nonceA, nonceP, now, BookingsSerializers.FixedDetailFields);
            r.Stored? && r.response == BookingsSerializers.DetailRepresentation(r.booking, c) && r.response.Ok?
            && r.response.value[2] == ("address", JStr(Find(data, "address").value.s))
            && r.response.value[3] == ("phone", JStr(Find(data, "phone").value.s))
  {
    UpdateRoutesContactDetails(b, data, c, nonceA, nonceP, now);
  }

  // ---------------------------------------------------------------- stats

  /** The status codes of the bookings, in order. */
  function StatusesOf(bookings: seq<Booking>): (r: seq<string>)
    ensures |r| == |bookings| && forall i :: 0 <= i < |bookings| ==> r[i] == bookings[i].status
  {
    seq(|bookings|, i requires 0 <= i < |bookings| => bookings[i].status)
  }

  /** `Count('id', filter=Q(status=code))`: how many bookings carry the code. */
  function CountStatus(bookings: seq<Booking>, code: string): (n: nat)
    ensures n == multiset(StatusesOf(bookings))[code]
    decreases |bookings|
  {
    if |bookings| == 0 then 0
    else
      assert StatusesOf(bookings) == [bookings[0].status] + StatusesOf(bookings[1..]);
      (if bookings[0].status == code then 1 else 0) + CountStatus(bookings[1..], code)
  }

  /** The number of bookings whose status is none of the five choices. */
  function CountUnknownStatus(bookings: seq<Booking>): nat
    decreases |bookings|
  {
    if |bookings| == 0 then 0
    else (if ParseBookingStatus(bookings[0].status).None? then 1 else 0) + CountUnknownStatus(bookings[1..])
  }

  /** `user_booking_stats`: the aggregate over the user's bookings, keys in the source's order. */
  datatype Stats = Stats(total: nat, pending: nat, confirmed: nat, inProgress: nat, completed: nat, cancelled: nat)

  function UserBookingStats(bookings: seq<Booking>, user: string): (s: Stats)
    ensures s.total == |UserBookings(bookings, user)| == |FilterByUser(bookings, user)|
    ensures var statuses := multiset(StatusesOf(UserBookings(bookings, user)));
            s.pending == statuses["pending"] && s.confirmed == statuses["confirmed"]
            && s.inProgress == statuses["in_progress"] && s.completed == statuses["completed"]
            && s.cancelled == statuses["cancelled"]
    ensures s.pending + s.confirmed + s.inProgress + s.completed + s.cancelled <= s.total
  {
    var mine := UserBookings(bookings, user);
    StatusCountsPartition(mine);
    Stats(|mine|, CountStatus(mine, "pending"), CountStatus(mine, "confirmed"), CountStatus(mine, "in_progress"),
          CountStatus(mine, "completed"), CountStatus(mine, "cancelled"))
  }

  /** The stats as the JSON object the view returns. */
  function StatsJson(s: Stats): (j: Json)
    ensures Keys(j) == ["total", "pending", "confirmed", "in_progress", "completed", "cancelled"]
  {
    JObj([("total", JInt(s.total)), ("pending", JInt(s.pending)), ("confirmed", JInt(s.confirmed)),
          ("in_progress", JInt(s.inProgress)), ("completed", JInt(s.completed)), ("cancelled", JInt(s.cancelled))])
  }

  /** Every booking is counted under exactly one of the five codes or as unknown. */
  lemma {:induction false} StatusCountsPartition(bookings: seq<Booking>)
    ensures CountStatus(bookings, "pending") + CountStatus(bookings, "confirmed") + CountStatus(bookings, "in_progress")
            + CountStatus(bookings, "completed") + CountStatus(bookings, "cancelled") + CountUnknownStatus(bookings)
            == |bookings|
    decreases |bookings|
  {
    if |bookings| > 0 {
      StatusCountsPartition(bookings[1..]);
    }
  }

  /** No booking is counted as unknown exactly when every status is one of the choices. */
  lemma {:induction false} NoUnknownIffAllValid(bookings: seq<Booking>)
    ensures CountUnknownStatus(bookings) == 0 <==>
              forall i :: 0 <= i < |bookings| ==> ParseBookingStatus(bookings[i].status).Some?
    decreases |bookings|
  {
    if |bookings| > 0 {
      NoUnknownIffAllValid(bookings[1..]);
      assert forall i :: 1 <= i < |bookings| ==> bookings[i] == bookings[1..][i - 1];
    }
  }

  /**
   * The total is the sum of the five per-status counts exactly when every
   * booking of the user has one of the five statuses (the column does not
   * enforce its choices).
   */
  lemma StatsTotalIsSumIffStatusesValid(bookings: seq<Booking>, user: string)
    ensures var s := UserBookingStats(bookings, user);
            s.total == s.pending + s.confirmed + s.inProgress + s.completed + s.cancelled <==>
              forall b :: b in UserBookings(bookings, user) ==> ParseBookingStatus(b.status).Some?
  {
    var mine := UserBookings(bookings, user);
    StatusCountsPartition(mine);
    NoUnknownIffAllValid(mine);
  }
}

=== FILE: core_middleware.dfy ===
/**
 * Request helpers and exception mapping of backend/core/middleware.py:
 * the CSRF exemption for API paths, client-IP extraction, the error
 * responses of `ErrorHandlingMiddleware` and `custom_exception_handler`.
 */
module CoreMiddleware {
  import opened Wrappers
  import opened Assoc
  import opened Text
  import opened CoreUtils

  /** The request attributes the middleware reads or sets; `meta` is Django's `request.META`. */
  datatype Request = Request(path: string, meta: map<string, string>, dontEnforceCsrfChecks: bool)

  /** `DisableCSRFMiddleware.process_request`: marks requests under `/api/` as CSRF-exempt, touches nothing else. */
  function ProcessRequest(req: Request): (r: Request)
    ensures r.path == req.path && r.meta == req.meta
    ensures StartsWith(req.path, "/api/") ==> r.dontEnforceCsrfChecks
    ensures !StartsWith(req.path, "/api/") ==> r == req
  {
    if StartsWith(req.path, "/api/") then req.(dontEnforceCsrfChecks := true) else req
  }

  /** On a request not yet marked, CSRF checks are skipped exactly for paths starting with `/api/`. */
  lemma CsrfSkippedIffApiPath(path: string, meta: map<string, string>)
    ensures ProcessRequest(Request(path, meta, false)).dontEnforceCsrfChecks <==> StartsWith(path, "/api/")
  {
  }

  /** `request.META.get(key)` treated for truthiness: a missing key and an empty value are both falsy. */
  function MetaValue(meta: map<string, string>, key: string): Option<string> {
    if key in meta && meta[key] != "" then Some(meta[key]) else None
  }

  /** The first hop of an `X-Forwarded-For` value: text before the first comma, stripped. */
  function FirstForwardedHop(xff: string): (r: string)
    ensures ',' !in r
  {
    var f := FirstField(xff, ',');
    DropEndSpec(f, IsPyWhitespace);
    DropStartSpec(DropEnd(f, IsPyWhitespace), IsPyWhitespace);
    assert forall i :: 0 <= i < |PyStrip(f)| ==> PyStrip(f)[i] in f by {
      var d := DropEnd(f, IsPyWhitespace);
      forall i | 0 <= i < |PyStrip(f)| ensures PyStrip(f)[i] in f {
        assert PyStrip(f)[i] == d[|d| - |PyStrip(f)| + i];
        assert d[|d| - |PyStrip(f)| + i] == f[|d| - |PyStrip(f)| + i];
      }
    }
    PyStrip(f)
  }

  /** `RequestLoggingMiddleware._get_client_ip`. */
  function ClientIp(meta: map<string, string>): (ip: string)
    ensures MetaValue(meta, "HTTP_X_FORWARDED_FOR").Some? ==>
              ip == FirstForwardedHop(meta["HTTP_X_FORWARDED_FOR"]) && ',' !in ip
    ensures MetaValue(meta, "HTTP_X_FORWARDED_FOR").None? && "REMOTE_ADDR" in meta ==> ip == meta["REMOTE_ADDR"]
    ensures MetaValue(meta, "HTTP_X_FORWARDED_FOR").None? && "REMOTE_ADDR" !in meta ==> ip == "unknown"
  {
    match MetaValue(meta, "HTTP_X_FORWARDED_FOR")
    case Some(xff) => FirstForwardedHop(xff)
    case None => if "REMOTE_ADDR" in meta then meta["REMOTE_ADDR"] else "unknown"
  }

  /** A forwarded-for list `a, b, c` yields its first address, whatever the proxies appended. */
  lemma ClientIpIgnoresLaterHops(client: string, rest: string, meta: map<string, string>)
    requires client != "" && ',' !in client
    requires forall i :: 0 <= i < |client| ==> !IsPyWhitespace(client[i])
    requires meta == map["HTTP_X_FORWARDED_FOR" := client + "," + rest]
    ensures ClientIp(meta) == client
  {
    var xff := client + "," + rest;
    assert xff[|client|] == ',';
    assert xff[..|client|] == client;
    assert FirstField(xff, ',') == client;
    assert DropEnd(client, IsPyWhitespace) == client;
    assert DropStart(client, IsPyWhitespace) == client;
  }

  /** The exception classes `_handle_exception` distinguishes. */
  datatype ExceptionKind =
    | DjangoValidationError(messageDict: Option<Json>)          // django.core.exceptions.ValidationError
    | ApiException(className: string, detail: Option<string>,  // rest_framework APIException and subclasses
                   statusCode: Option<int>)
    | ValueOrTypeError                                         // ValueError, TypeError and their subclasses
    | OtherException

  /** An exception together with `str(exception)`. */
  datatype Exception = Exception(kind: ExceptionKind, text: string)

  /** `_handle_validation_error`. */
  function HandleValidationError(e: Exception, debug: bool): (r: Response)
    ensures r.status == HTTP_400_BAD_REQUEST
    ensures Field(r.body, "error") == Some(JStr("Validation Error"))
    ensures Field(r.body, "message") == Some(JStr(if debug then e.text else "Invalid input data"))
    ensures Field(r.body, "details").Some? <==> debug && e.kind.DjangoValidationError? && e.kind.messageDict.Some?
  {
    var base := [("error", JStr("Validation Error")),
                 ("message", JStr(if debug then e.text else "Invalid input data"))];
    var details := if debug && e.kind.DjangoValidationError? && e.kind.messageDict.Some?
                   then [("details", e.kind.messageDict.value)] else [];
    FindCons("error", JStr("Validation Error"), [base[1]] + details, "details");
    FindCons(base[1].0, base[1].1, details, "details");
    FindCons("error", JStr("Validation Error"), [base[1]] + details, "message");
    assert base + details == [base[0]] + ([base[1]] + details);
    Response(HTTP_400_BAD_REQUEST, JObj(base + details), map[])
  }

  /** `_handle_api_exception`: the exception's own status code, 400 when it has none. */
  function HandleApiException(e: Exception): (r: Response)
    requires e.kind.ApiException?
    ensures r.status == e.kind.statusCode.GetOr(HTTP_400_BAD_REQUEST)
    ensures Field(r.body, "error") == Some(JStr(e.kind.className))
    ensures Field(r.body, "message") == Some(JStr(e.kind.detail.GetOr(e.text)))
  {
    var message := JStr(e.kind.detail.GetOr(e.text));
    FindCons("error", JStr(e.kind.className), [("message", message)], "message");
    Response(e.kind.statusCode.GetOr(HTTP_400_BAD_REQUEST),
             JObj([("error", JStr(e.kind.className)), ("message", message)]), map[])
  }

  /** `_handle_server_error`: always 500 with error `Internal Server Error`. */
  function HandleServerError(debug: bool): (r: Response)
    ensures r.status == HTTP_500_INTERNAL_SERVER_ERROR
    ensures Field(r.body, "error") == Some(JStr("Internal Server Error"))
    ensures Field(r.body, "message") ==
              Some(JStr(if debug then "Check server logs for details" else "An unexpected error occurred"))
  {
    var message := JStr(if debug then "Check server logs for details" else "An unexpected error occurred");
    FindCons("error", JStr("Internal Server Error"), [("message", message)], "message");
    Response(HTTP_500_INTERNAL_SERVER_ERROR, JObj([("error", JStr("Internal Server Error")), ("message", message)]), map[])
  }

  /** `ErrorHandlingMiddleware._handle_exception`: dispatch on the exception class, in the source's order. */
  function HandleException(e: Exception, debug: bool): Response {
    match e.kind
    case DjangoValidationError(_) => HandleValidationError(e, debug)
    case ApiException(_, _, _) => HandleApiException(e)
    case ValueOrTypeError => HandleValidationError(e, debug)
    case OtherException => HandleServerError(debug)
  }

  /** The status each exception class is mapped to. */
  lemma ExceptionStatusMapping(e: Exception, debug: bool)
    ensures e.kind.DjangoValidationError? ==> HandleException(e, debug).status == 400
    ensures e.kind.ApiException? ==> HandleException(e, debug).status == e.kind.statusCode.GetOr(400)
    ensures e.kind.ValueOrTypeError? ==> HandleException(e, debug).status == 400
    ensures e.kind.OtherException? ==> HandleException(e, debug).status == 500
    ensures HandleException(e, debug).status == 500 <==>
              e.kind.OtherException? || (e.kind.ApiException? && e.kind.statusCode == Some(500))
  {
  }

  /** Outside DEBUG a validation failure never reveals the exception text. */
  lemma ValidationMessageHiddenOutsideDebug(e: Exception)
    requires e.kind.DjangoValidationError? || e.kind.ValueOrTypeError?
    ensures Field(HandleException(e, false).body, "message") == Some(JStr("Invalid input data"))
    ensures Field(HandleException(e, true).body, "message") == Some(JStr(e.text))
    ensures Field(HandleException(e, false).body, "details") == None
  {
  }

  /**
   * `custom_exception_handler`: given the response of DRF's own handler (None
   * when DRF does not handle the exception), adds the `X-Request-ID` header.
   */
  function CustomExceptionHandler(drfResponse: Option<Response>, requestId: string): (r: Option<Response>)
    ensures drfResponse.None? <==> r.None?
    ensures r.Some? ==> r.value.status == drfResponse.value.status && r.value.body == drfResponse.value.body
    ensures r.Some? ==> r.value.headers == drfResponse.value.headers["X-Request-ID" := requestId]
  {
    match drfResponse
    case None => None
    case Some(resp) => Some(resp.(headers := resp.headers["X-Request-ID" := requestId]))
  }
}

=== FILE: core_utils.dfy ===
/**
 * The backend's JSON values, HTTP responses and the standard response
 * envelope `{success, message, status_code, data?}` (backend/core/utils.py).
 */
module CoreUtils {
  import opened Wrappers
  import opened Assoc

  /** A JSON value; objects keep their keys in insertion order, as Python dicts do. */
  datatype Json =
    | JNull
    | JBool(b: bool)
    | JInt(i: int)
    | JStr(s: string)
    | JList(items: seq<Json>)
    | JObj(fields: seq<(string, Json)>)

  /** The keys of an object, in order. */
  function Keys(j: Json): seq<string> {
    if j.JObj? then seq(|j.fields|, i requires 0 <= i < |j.fields| => j.fields[i].0) else []
  }

  /** The value stored under `key` in an object (the first entry with that key). */
  function Field(j: Json, key: string): Option<Json> {
    if j.JObj? then Find(j.fields, key) else None
  }

  /** An optional text as JSON: the text, or null for `None`. */
  function OptionalText(s: Option<string>): (j: Json)
    ensures s.Some? <==> j.JStr?
    ensures s.Some? ==> j.s == s.value
    ensures s.None? ==> j == JNull
  {
    match s
    case Some(v) => JStr(v)
    case None => JNull
  }

  /** An HTTP response: status code, JSON body and extra headers. */
  datatype Response = Response(status: int, body: Json, headers: map<string, string>)

  const HTTP_200_OK: int := 200
  const HTTP_400_BAD_REQUEST: int := 400
  const HTTP_404_NOT_FOUND: int := 404
  const HTTP_500_INTERNAL_SERVER_ERROR: int := 500

  /** `create_response`: the envelope, with `data` present exactly when it is not `None`. */
  function CreateResponse(data: Json := JNull, message: string := "", success: bool := true,
                          statusCode: int := HTTP_200_OK): (r: Response)
    ensures r.status == statusCode
    ensures Field(r.body, "success") == Some(JBool(success))
    ensures Field(r.body, "message") == Some(JStr(message))
    ensures Field(r.body, "status_code") == Some(JInt(statusCode))
    ensures Field(r.body, "data").Some? <==> data != JNull
    ensures data != JNull ==> Field(r.body, "data") == Some(data)
    ensures Keys(r.body) == ["success", "message", "status_code"] + (if data != JNull then ["data"] else [])
    ensures r.headers == map[]
  {
    var extra := if data != JNull then [("data", data)] else [];
    var f2 := [("status_code", JInt(statusCode))] + extra;
    var f1 := [("message", JStr(message))] + f2;
    var fields := [("success", JBool(success))] + f1;
    FindCons("success", JBool(success), f1, "message");
    FindCons("success", JBool(success), f1, "status_code");
    FindCons("success", JBool(success), f1, "data");
    FindCons("message", JStr(message), f2, "status_code");
    FindCons("message", JStr(message), f2, "data");
    FindCons("status_code", JInt(statusCode), extra, "data");
    assert fields == [("success", JBool(success)), ("message", JStr(message)), ("status_code", JInt(statusCode))] + extra;
    Response(statusCode, JObj(fields), map[])
  }

  /** `success_response`. */
  function SuccessResponse(data: Json := JNull, message: string := "Success",
                           statusCode: int := HTTP_200_OK): (r: Response)
    ensures r.status == statusCode
    ensures Field(r.body, "success") == Some(JBool(true))
    ensures Field(r.body, "message") == Some(JStr(message))
    ensures Field(r.body, "data").Some? <==> data != JNull
    ensures data != JNull ==> Field(r.body, "data") == Some(data)
  {
    CreateResponse(data, message, true, statusCode)
  }

  /** `error_response`: never carries a `data` key. */
  function ErrorResponse(message: string := "Error", statusCode: int := HTTP_400_BAD_REQUEST): (r: Response)
    ensures r.status == statusCode
    ensures Field(r.body, "success") == Some(JBool(false))
    ensures Field(r.body, "message") == Some(JStr(message))
    ensures Field(r.body, "status_code") == Some(JInt(statusCode))
    ensures Field(r.body, "data") == None
  {
    CreateResponse(JNull, message, false, statusCode)
  }

  /** `validation_error_response`: 400 with the errors wrapped under `data.errors`. */
  function ValidationErrorResponse(errors: Json): (r: Response)
    ensures r.status == HTTP_400_BAD_REQUEST
    ensures Field(r.body, "success") == Some(JBool(false))
    ensures Field(r.body, "message") == Some(JStr("Validation failed"))
    ensures Field(r.body, "data") == Some(JObj([("errors", errors)]))
  {
    CreateResponse(JObj([("errors", errors)]), "Validation failed", false, HTTP_400_BAD_REQUEST)
  }

  /** The defaults of `success_response` and `error_response`. */
  lemma EnvelopeDefaults()
    ensures SuccessResponse().status == 200 && Field(SuccessResponse().body, "message") == Some(JStr("Success"))
    ensures Field(SuccessResponse().body, "data") == None
    ensures ErrorResponse().status == 400 && Field(ErrorResponse().body, "message") == Some(JStr("Error"))
  {
  }

  /** Every envelope reports in its body the status code it is sent with. */
  lemma EnvelopeStatusAgrees(data: Json, message: string, success: bool, statusCode: int)
    ensures var r := CreateResponse(data, message, success, statusCode);
            Field(r.body, "status_code") == Some(JInt(r.status))
  {
  }
}

=== FILE: covid_api.dfy ===
/**
 * `CovidApiClient.getRestriction` of frontend/src/lib/apis/covid.ts: the
 * query string it builds for the restriction endpoint.  The query is the
 * ordered list of its parameters; percent-encoding is not modelled.
 */
module CovidApi {
  import opened Wrappers
  import opened Text
  import opened Assoc

  datatype RestrictionRequest = RestrictionRequest(country: string, state: Option<string>, city: Option<string>)

  /** JavaScript truthiness of an optional string. */
  predicate Truthy(s: Option<string>) {
    s.Some? && s.value != ""
  }

  /** `city.trim().replace(/\/+$/, '')`. */
  function CleanCityParam(city: string): string {
    DropTrailing(JsTrim(city), '/')
  }

  /** The city the request carries, if any: the cleaned city when it is not empty. */
  function CityParam(city: Option<string>): Option<string> {
    if Truthy(city) && CleanCityParam(city.value) != "" then Some(CleanCityParam(city.value)) else None
  }

  /**
   * The query parameters in the order they are appended: the country
   * always and first, the state when it is truthy, the cleaned city when
   * it is not empty.
   */
  function QueryParams(req: RestrictionRequest): (q: seq<(string, string)>)
    ensures |q| >= 1 && q[0] == ("country", req.country)
    ensures |q| == 1 + (if Truthy(req.state) then 1 else 0) + (if CityParam(req.city).Some? then 1 else 0)
  {
    [("country", req.country)] + StatePart(req.state) + CityPart(req.city)
  }

  function StatePart(state: Option<string>): seq<(string, string)> {
    if Truthy(state) then [("state", state.value)] else []
  }

  function CityPart(city: Option<string>): seq<(string, string)> {
    if CityParam(city).Some? then [("city", CityParam(city).value)] else []
  }

  /** Read back, the query holds the truthy state and the cleaned city, and nothing for an absent one. */
  lemma QueryParamsLookups(req: RestrictionRequest)
    ensures Find(QueryParams(req), "country") == Some(req.country)
    ensures Find(QueryParams(req), "state") == (if Truthy(req.state) then req.state else None)
    ensures Find(QueryParams(req), "city") == CityParam(req.city)
  {
    var cityPart := CityPart(req.city);
    var rest := StatePart(req.state) + cityPart;
    assert QueryParams(req) == [("country", req.country)] + rest;
    FindCons("country", req.country, rest, "country");
    FindCons("country", req.country, rest, "state");
    FindCons("country", req.country, rest, "city");
    if Truthy(req.state) {
      FindCons("state", req.state.value, cityPart, "state");
      FindCons("state", req.state.value, cityPart, "city");
    } else {
      assert rest == cityPart;
    }
    if CityParam(req.city).Some? {
      FindCons("city", CityParam(req.city).value, [], "state");
      FindCons("city", CityParam(req.city).value, [], "city");
    }
  }

  /** A city the client sends has white space at neither end and no trailing slash. */
  predicate CleanCity(s: string) {
    Trimmed(s) && (|s| == 0 || s[|s| - 1] != '/')
  }

  /**
   * Cleaning returns a piece of the typed city without a trailing slash, and
   * leaves the city unchanged exactly when it is already clean.
   */
  lemma CleanCityParamSpec(city: string)
    ensures var c := CleanCityParam(city);
            && (|c| == 0 || c[|c| - 1] != '/')
            && (exists i, j :: 0 <= i <= j <= |city| && c == city[i..j])
            && (c == city <==> CleanCity(city))
  {
    var t := JsTrim(city);
    var c := CleanCityParam(city);
    JsTrimSpec(city);
    DropEndSpec(t, x => x == '/');
    var i, j :| 0 <= i <= j <= |city| && t == city[i..j];
    assert c == city[i..i + |c|];
    if c == city {
      assert |t| == |city|;
      assert t == city;
    }
    if CleanCity(city) {
      DropEndFixed(city, x => x == '/');
    }
  }

  /** A request whose city is already clean sends that city verbatim. */
  lemma CleanCitySentVerbatim(req: RestrictionRequest)
    requires req.city.Some? && req.city.value != "" && CleanCity(req.city.value)
    ensures Find(QueryParams(req), "city") == req.city
  {
    CleanCityParamSpec(req.city.value);
    QueryParamsLookups(req);
  }

  /** Whatever the user typed, the city parameter never ends with a slash. */
  lemma SentCityHasNoTrailingSlash(req: RestrictionRequest)
    ensures var c := Find(QueryParams(req), "city");
            c.Some? ==> c.value != "" && c.value[|c.value| - 1] != '/'
  {
    QueryParamsLookups(req);
    if Truthy(req.city) {
      CleanCityParamSpec(req.city.value);
    }
  }
}

=== FILE: covid_table.dfy ===
/** The restriction table of backend/covid/views.py and the levels it holds. */
module CovidTable {

  /** The four answers of the service; the table itself never stores `Unknown`. */
  datatype Level = High | Medium | Low | Unknown {
    function Name(): string {
      match this
      case High => "high"
      case Medium => "medium"
      case Low => "low"
      case Unknown => "unknown"
    }
  }

  type CityTable = seq<(string, Level)>
  type StateTable = seq<(string, CityTable)>
  type CountryTable = seq<(string, StateTable)>

  /** `RESTRICTION_DATA`, in the dictionary's insertion order. */
  const RestrictionData: CountryTable := [
    ("AU", [
      ("SA", [("Adelaide", Low), ("Mount Gambier", Medium), ("Port Augusta", Low), ("Whyalla", Medium)]),
      ("NSW", [("Sydney", High), ("Newcastle", Medium), ("Wollongong", Medium), ("Central Coast", Low)]),
      ("VIC", [("Melbourne", High), ("Parkville", High), ("Geelong", Medium), ("Ballarat", Low), ("Bendigo", Low)]),
      ("QLD", [("Brisbane", Medium), ("Gold Coast", Medium), ("Cairns", Low), ("Townsville", Low)]),
      ("WA", [("Perth", Low), ("Fremantle", Low), ("Bunbury", Low), ("Geraldton", Low)]),
      ("TAS", [("Hobart", Low), ("Launceston", Low), ("Devonport", Low), ("Burnie", Low)]),
      ("NT", [("Darwin", Medium), ("Alice Springs", Low), ("Katherine", Low), ("Tennant Creek", Low)]),
      ("ACT", [("Canberra", Medium), ("Queanbeyan", Medium)])
    ]),
    ("US", [
      ("CA", [("Los Angeles", High), ("San Francisco", High), ("San Diego", Medium), ("Sacramento", Medium), ("San Jose", Medium)]),
      ("NY", [("New York", High), ("Buffalo", Medium), ("Rochester", Medium), ("Yonkers", Medium), ("Syracuse", Low)]),
      ("TX", [("Houston", Medium), ("Dallas", Medium), ("Austin", Medium), ("San Antonio", Medium), ("Fort Worth", Low)]),
      ("FL", [("Miami", High), ("Orlando", Medium), ("Tampa", Medium), ("Jacksonville", Medium), ("St. Petersburg", Medium)]),
      ("IL", [("Chicago", Medium), ("Aurora", Low), ("Naperville", Low), ("Joliet", Low), ("Rockford", Low)])
    ]),
    ("CA", [
      ("ON", [("Toronto", Medium), ("Ottawa", Medium), ("Hamilton", Low), ("London", Low), ("Kitchener", Low)]),
      ("BC", [("Vancouver", Medium), ("Victoria", Medium), ("Surrey", Low), ("Burnaby", Low), ("Richmond", Low)]),
      ("QC", [("Montreal", High), ("Quebec City", Medium), ("Laval", Medium), ("Gatineau", Low), ("Longueuil", Low)]),
      ("AB", [("Calgary", Medium), ("Edmonton", Medium), ("Red Deer", Low), ("Lethbridge", Low), ("Medicine Hat", Low)]),
      ("MB", [("Winnipeg", Low), ("Brandon", Low), ("Steinbach", Low), ("Portage la Prairie", Low)])
    ]),
    ("GB", [
      ("ENG", [("London", High), ("Manchester", Medium), ("Birmingham", Medium), ("Leeds", Medium), ("Liverpool", Medium), ("Newcastle", Low), ("Sheffield", Medium), ("Bristol", Medium), ("Leicester", Medium), ("Coventry", Low)]),
      ("SCT", [("Edinburgh", Medium), ("Glasgow", Medium), ("Aberdeen", Low), ("Dundee", Low), ("Inverness", Low)]),
      ("WLS", [("Cardiff", Medium), ("Swansea", Medium), ("Newport", Low), ("Wrexham", Low), ("Bangor", Low)]),
      ("NIR", [("Belfast", Medium), ("Derry", Low), ("Lisburn", Low), ("Newtownabbey", Low)])
    ])
  ]
}

=== FILE: covid_views.dfy ===
/**
 * The COVID restriction lookup of backend/covid/views.py: a constant table
 * country -> state -> city -> level, input normalisation, the fall-backs of
 * `CovidRestrictionService.get_restriction_level`, and the GET endpoint.
 */
module CovidViews {
  import opened Wrappers
  import opened Assoc
  import opened Text
  import opened CoreUtils
  import opened CovidTable

  /** Python truthiness of an optional string argument: `None` and `''` are both falsy. */
  function Truthy(s: Option<string>): Option<string> {
    if s.Some? && s.value != "" then s else None
  }

  /** Country and state are upper-cased; a falsy one becomes `None`. */
  function NormalizeCode(s: Option<string>): (r: Option<string>)
    ensures r.Some? <==> Truthy(s).Some?
    ensures r.Some? ==> r.value == Upper(s.value) && r.value != ""
  {
    if Truthy(s).Some? then Some(Upper(s.value)) else None
  }

  predicate IsSlashOrSpace(c: char) {
    c == '/' || c == ' '
  }

  /** `city.strip().rstrip('/ ').strip()`. */
  function StripCity(city: string): string {
    PyStrip(DropEnd(PyStrip(city), IsSlashOrSpace))
  }

  /** `city.strip().rstrip('/ ').strip().lower().title()`, before the emptiness test. */
  function CleanCityText(city: string): string {
    Title(Lower(StripCity(city)))
  }

  /** City normalisation: a falsy city, or one that cleans to `''`, counts as no city. */
  function CleanCity(city: Option<string>): Option<string> {
    if Truthy(city).None? then None
    else if CleanCityText(city.value) == "" then None
    else Some(CleanCityText(city.value))
  }

  /** The first state, in table order, that lists `city`; its level for that city. */
  function CityAcrossStates(states: StateTable, city: string): (r: Option<Level>)
    decreases |states|
  {
    if |states| == 0 then None
    else if Find(states[0].1, city).Some? then Find(states[0].1, city)
    else CityAcrossStates(states[1..], city)
  }

  predicate ListsCity(cities: CityTable, city: string) {
    exists i :: 0 <= i < |cities| && cities[i].0 == city
  }

  /** The city-only search answers from the first state listing the city, and finds nothing only when no state lists it. */
  lemma {:induction false} CityAcrossStatesSpec(states: StateTable, city: string)
    ensures CityAcrossStates(states, city).None? <==>
              forall j :: 0 <= j < |states| ==> !ListsCity(states[j].1, city)
    ensures CityAcrossStates(states, city).Some? ==>
              exists j :: 0 <= j < |states| && CityAcrossStates(states, city) == Find(states[j].1, city)
                          && ListsCity(states[j].1, city)
                          && forall k :: 0 <= k < j ==> !ListsCity(states[k].1, city)
    decreases |states|
  {
    if |states| > 0 {
      FindSpec(states[0].1, city);
      CityAcrossStatesSpec(states[1..], city);
      assert forall j :: 1 <= j < |states| ==> states[j] == states[1..][j - 1];
      if Find(states[0].1, city).None? && CityAcrossStates(states, city).Some? {
        var j :| 0 <= j < |states[1..]| && CityAcrossStates(states, city) == Find(states[1..][j].1, city)
                 && ListsCity(states[1..][j].1, city)
                 && forall k :: 0 <= k < j ==> !ListsCity(states[1..][k].1, city);
        assert states[j + 1] == states[1..][j];
        assert forall k :: 0 <= k < j + 1 ==> !ListsCity(states[k].1, city) by {
          forall k | 0 <= k < j + 1 ensures !ListsCity(states[k].1, city) {
            if k > 0 { assert states[k] == states[1..][k - 1]; }
          }
        }
      }
      if CityAcrossStates(states, city).None? {
        assert forall j :: 0 <= j < |states| ==> !ListsCity(states[j].1, city) by {
          forall j | 0 <= j < |states| ensures !ListsCity(states[j].1, city) {
            if j > 0 { assert states[j] == states[1..][j - 1]; }
          }
        }
      }
    }
  }

  /* ---- The state-level default: the most common level, first encountered winning ties ---- */

  function Count<T(==)>(s: seq<T>, x: T): nat {
    multiset(s)[x]
  }

  /** Position of the first occurrence of `x` in `s`. */
  function FirstIndex<T(==)>(s: seq<T>, x: T): (k: nat)
    requires x in s
    ensures k < |s| && s[k] == x && x !in s[..k]
  {
    if s[0] == x then 0
    else
      assert x in s[1..] by { var j :| 0 <= j < |s| && s[j] == x; assert s[1..][j - 1] == x; }
      var k := 1 + FirstIndex(s[1..], x);
      assert s[..k] == [s[0]] + s[1..][..k - 1];
      k
  }

  lemma FirstIndexAt<T>(s: seq<T>, x: T, k: nat)
    requires k < |s| && s[k] == x && x !in s[..k]
    ensures FirstIndex(s, x) == k
  {
    var f := FirstIndex(s, x);
  }

  lemma FirstIndexAppend<T>(s: seq<T>, x: T, y: T)
    requires y in s
    ensures y in s + [x] && FirstIndex(s + [x], y) == FirstIndex(s, y)
  {
    var k := FirstIndex(s, y);
    assert (s + [x])[..k] == s[..k];
    FirstIndexAt(s + [x], y, k);
  }

  /** The key index of `x` in a tally, if present. */
  function KeyIndex<T(==)>(t: seq<(T, nat)>, x: T): (k: Option<nat>)
    ensures k.Some? ==> k.value < |t| && t[k.value].0 == x
    ensures k.None? ==> forall i :: 0 <= i < |t| ==> t[i].0 != x
    decreases |t|
  {
    if |t| == 0 then None
    else if t[|t| - 1].0 == x then Some(|t| - 1)
    else KeyIndex(t[..|t| - 1], x)
  }

  /** `level_counts[level] = level_counts.get(level, 0) + 1`. */
  function Bump<T(==)>(t: seq<(T, nat)>, x: T): seq<(T, nat)> {
    match KeyIndex(t, x)
    case Some(k) => t[k := (x, t[k].1 + 1)]
    case None => t + [(x, 1)]
  }

  /** The `level_counts` dictionary after the counting loop over `s`. */
  function Tally<T(==)>(s: seq<T>): seq<(T, nat)>
    decreases |s|
  {
    if |s| == 0 then [] else Bump(Tally(s[..|s| - 1]), s[|s| - 1])
  }

  /** What the counting loop maintains: each value of `s` once, with its count, in order of first occurrence. */
  ghost predicate TallyOf<T>(t: seq<(T, nat)>, s: seq<T>) {
    && (forall i, j :: 0 <= i < j < |t| ==> t[i].0 != t[j].0)
    && (forall i :: 0 <= i < |t| ==> t[i].0 in s && t[i].1 == Count(s, t[i].0))
    && (forall x :: x in s ==> exists i :: 0 <= i < |t| && t[i].0 == x)
    && (forall i, j :: 0 <= i < j < |t| ==> FirstIndex(s, t[i].0) < FirstIndex(s, t[j].0))
  }

  /** Appending to `p` leaves the first occurrence of every value already in `p` where it was. */
  lemma FirstIndexesKept<T>(p: seq<T>, x: T)
    ensures forall y :: y in p ==> y in p + [x] && FirstIndex(p + [x], y) == FirstIndex(p, y)
  {
    forall y | y in p ensures y in p + [x] && FirstIndex(p + [x], y) == FirstIndex(p, y) {
      FirstIndexAppend(p, x, y);
    }
  }

  lemma BumpSeenCounts<T>(t: seq<(T, nat)>, p: seq<T>, x: T, k: nat)
    requires forall i :: 0 <= i < |t| ==> t[i].0 in p && t[i].1 == Count(p, t[i].0)
    requires forall i, j :: 0 <= i < j < |t| ==> t[i].0 != t[j].0
    requires k < |t| && t[k].0 == x
    ensures var t' := t[k := (x, t[k].1 + 1)];
            forall i :: 0 <= i < |t'| ==> t'[i].0 in p + [x] && t'[i].1 == Count(p + [x], t'[i].0)
  {
    var s := p + [x];
    var t' := t[k := (x, t[k].1 + 1)];
    assert multiset(s) == multiset(p) + multiset{x};
    forall i | 0 <= i < |t'| ensures t'[i].0 in s && t'[i].1 == Count(s, t'[i].0) {
      if i != k {
        assert t'[i] == t[i] && t[i].0 != x;
      }
    }
  }

  lemma BumpSeenOrder<T>(t: seq<(T, nat)>, p: seq<T>, x: T, k: nat)
    requires forall i :: 0 <= i < |t| ==> t[i].0 in p
    requires forall i, j :: 0 <= i < j < |t| ==> FirstIndex(p, t[i].0) < FirstIndex(p, t[j].0)
    requires k < |t| && t[k].0 == x
    ensures var t' := t[k := (x, t[k].1 + 1)];
            && (forall i :: 0 <= i < |t'| ==> t'[i].0 in p + [x])
            && (forall i, j :: 0 <= i < j < |t'| ==> FirstIndex(p + [x], t'[i].0) < FirstIndex(p + [x], t'[j].0))
  {
    var s := p + [x];
    var t' := t[k := (x, t[k].1 + 1)];
    FirstIndexesKept(p, x);
    assert forall i :: 0 <= i < |t'| ==> t'[i].0 == t[i].0;
  }

  /** Counting a value already seen increments its entry in place. */
  lemma BumpSeen<T>(t: seq<(T, nat)>, p: seq<T>, x: T, k: nat)
    requires TallyOf(t, p)
    requires k < |t| && t[k].0 == x
    ensures TallyOf(t[k := (x, t[k].1 + 1)], p + [x])
  {
    var s := p + [x];
    var t' := t[k := (x, t[k].1 + 1)];
    BumpSeenCounts(t, p, x, k);
    BumpSeenOrder(t, p, x, k);
    forall y | y in s ensures exists i :: 0 <= i < |t'| && t'[i].0 == y {
      if y != x {
        assert y in p;
        var i :| 0 <= i < |t| && t[i].0 == y;
        assert t'[i].0 == y;
      } else {
        assert t'[k].0 == y;
      }
    }
  }

  lemma BumpNewCounts<T>(t: seq<(T, nat)>, p: seq<T>, x: T)
    requires forall i :: 0 <= i < |t| ==> t[i].0 in p && t[i].1 == Count(p, t[i].0)
    requires x !in p
    ensures var t' := t + [(x, 1)];
            forall i :: 0 <= i < |t'| ==> t'[i].0 in p + [x] && t'[i].1 == Count(p + [x], t'[i].0)
  {
    var s := p + [x];
    var t' := t + [(x, 1)];
    assert multiset(s) == multiset(p) + multiset{x};
    forall i | 0 <= i < |t'| ensures t'[i].0 in s && t'[i].1 == Count(s, t'[i].0) {
      if i < |t| {
        assert t'[i] == t[i] && t[i].0 != x;
      }
    }
  }

  lemma BumpNewOrder<T>(t: seq<(T, nat)>, p: seq<T>, x: T)
    requires forall i :: 0 <= i < |t| ==> t[i].0 in p
    requires forall i, j :: 0 <= i < j < |t| ==> FirstIndex(p, t[i].0) < FirstIndex(p, t[j].0)
    requires x !in p
    ensures var t' := t + [(x, 1)];
            && (forall i :: 0 <= i < |t'| ==> t'[i].0 in p + [x])
            && (forall i, j :: 0 <= i < j < |t'| ==> FirstIndex(p + [x], t'[i].0) < FirstIndex(p + [x], t'[j].0))
  {
    var s := p + [x];
    var t' := t + [(x, 1)];
    FirstIndexesKept(p, x);
    assert s[..|p|] == p;
    FirstIndexAt(s, x, |p|);
    forall i | 0 <= i < |t'| ensures t'[i].0 in s {
      if i < |t| {
        assert t'[i] == t[i];
      }
    }
    forall i, j | 0 <= i < j < |t'| ensures FirstIndex(s, t'[i].0) < FirstIndex(s, t'[j].0) {
      assert t'[i] == t[i];
      if j < |t| {
        assert t'[j] == t[j];
      }
    }
  }

  /** Counting a new value appends an entry with count one. */
  lemma BumpNew<T>(t: seq<(T, nat)>, p: seq<T>, x: T)
    requires TallyOf(t, p)
    requires forall i :: 0 <= i < |t| ==> t[i].0 != x
    ensures TallyOf(t + [(x, 1)], p + [x])
  {
    var s := p + [x];
    var t' := t + [(x, 1)];
    assert x !in p;
    BumpNewCounts(t, p, x);
    BumpNewOrder(t, p, x);
    forall y | y in s ensures exists i :: 0 <= i < |t'| && t'[i].0 == y {
      if y != x {
        assert y in p;
        var i :| 0 <= i < |t| && t[i].0 == y;
        assert t'[i].0 == y;
      } else {
        assert t'[|t|].0 == y;
      }
    }
  }

  lemma {:induction false} TallyIsTallyOf<T>(s: seq<T>)
    ensures TallyOf(Tally(s), s)
    decreases |s|
  {
    if |s| > 0 {
      var p := s[..|s| - 1];
      var x := s[|s| - 1];
      assert s == p + [x];
      var t := Tally(p);
      assert Tally(s) == Bump(t, x);
      TallyIsTallyOf(p);
      match KeyIndex(t, x)
      case Some(k) =>
        assert Bump(t, x) == t[k := (x, t[k].1 + 1)];
        BumpSeen(t, p, x, k);
      case None =>
        assert Bump(t, x) == t + [(x, 1)];
        BumpNew(t, p, x);
    }
  }

  /** `max(level_counts, key=level_counts.get)`: the first entry of maximal count. */
  function ArgMax<T>(t: seq<(T, nat)>): (k: nat)
    requires |t| > 0
    ensures k < |t|
    ensures forall i :: 0 <= i < |t| ==> t[i].1 <= t[k].1
    ensures forall i :: 0 <= i < k ==> t[i].1 < t[k].1
    decreases |t|
  {
    if |t| == 1 then 0
    else
      var k := ArgMax(t[..|t| - 1]);
      if t[|t| - 1].1 > t[k].1 then |t| - 1 else k
  }

  /** A most common value of `s`, and among the most common the one occurring first. */
  ghost predicate IsFirstMode<T>(s: seq<T>, r: T) {
    && r in s
    && (forall x :: x in s ==> Count(s, x) <= Count(s, r))
    && (forall x :: x in s && Count(s, x) == Count(s, r) ==> FirstIndex(s, r) <= FirstIndex(s, x))
  }

  /** The tie-broken mode is unique, so `IsFirstMode` pins the answer down. */
  lemma FirstModeUnique<T>(s: seq<T>, a: T, b: T)
    requires IsFirstMode(s, a) && IsFirstMode(s, b)
    ensures a == b
  {
    assert FirstIndex(s, a) == FirstIndex(s, b);
  }

  /** The state-level default: `'unknown'` for a state without cities (no table state is empty), else the first-encountered most common level. */
  function StateDefault(cities: CityTable): Level {
    var levels := ValuesOf(cities);
    if |levels| == 0 then Unknown
    else
      var t := Tally(levels);
      TallyIsTallyOf(levels);
      assert levels[0] in levels;
      t[ArgMax(t)].0
  }

  /** The entry `ArgMax` picks from a tally of `s` is a most common value of `s`. */
  lemma ArgMaxIsMostCommon<T>(t: seq<(T, nat)>, s: seq<T>)
    requires |t| > 0 && TallyOf(t, s)
    ensures t[ArgMax(t)].0 in s
    ensures forall x :: x in s ==> Count(s, x) <= Count(s, t[ArgMax(t)].0)
  {
    var k := ArgMax(t);
    forall x | x in s ensures Count(s, x) <= Count(s, t[k].0) {
      var i :| 0 <= i < |t| && t[i].0 == x;
    }
  }

  /** Among the most common values, the entry `ArgMax` picks occurs first in `s`. */
  lemma ArgMaxOccursFirst<T>(t: seq<(T, nat)>, s: seq<T>)
    requires |t| > 0
    requires forall i :: 0 <= i < |t| ==> t[i].0 in s && t[i].1 == Count(s, t[i].0)
    requires forall x :: x in s ==> exists i :: 0 <= i < |t| && t[i].0 == x
    requires forall i, j :: 0 <= i < j < |t| ==> FirstIndex(s, t[i].0) < FirstIndex(s, t[j].0)
    ensures forall x :: x in s && Count(s, x) == Count(s, t[ArgMax(t)].0) ==> FirstIndex(s, t[ArgMax(t)].0) <= FirstIndex(s, x)
  {
    var k := ArgMax(t);
    var y := t[k].0;
    forall x | x in s && Count(s, x) == Count(s, y) ensures FirstIndex(s, y) <= FirstIndex(s, x) {
      var i :| 0 <= i < |t| && t[i].0 == x;
      assert t[i].1 == t[k].1;
      assert k <= i;
      if k < i {
        assert FirstIndex(s, t[k].0) < FirstIndex(s, t[i].0);
      }
    }
  }

  /** For a non-empty state the default is the first-encountered most common level. */
  lemma {:induction false} StateDefaultIsFirstMode(cities: CityTable)
    requires |cities| > 0
    ensures IsFirstMode(ValuesOf(cities), StateDefault(cities))
  {
    var s := ValuesOf(cities);
    var t := Tally(s);
    TallyIsTallyOf(s);
    assert s[0] in s;
    assert StateDefault(cities) == t[ArgMax(t)].0;
    ArgMaxIsMostCommon(t, s);
    ArgMaxOccursFirst(t, s);
  }

  /* ---- The lookup ---- */

  /**
   * The lookup of `get_restriction_level` on inputs already normalised
   * (`c`, `st` upper-cased codes, `ct` a cleaned city), against any table
   * shaped like `RESTRICTION_DATA`.
   */
  function Lookup(data: CountryTable, c: Option<string>, st: Option<string>, ct: Option<string>): Level {
    if c.None? || Find(data, c.value).None? then Unknown
    else
      var states := Find(data, c.value).value;
      if ct.Some? && st.None? then
        match CityAcrossStates(states, ct.value)
        case Some(l) => l
        case None => Unknown
      else if st.None? then Unknown
      else if Find(states, st.value).None? then Unknown
      else
        var cities := Find(states, st.value).value;
        if ct.None? then StateDefault(cities)
        else match Find(cities, ct.value)
             case Some(l) => l
             case None => Unknown
  }

  /** `CovidRestrictionService.get_restriction_level(country, state, city)`. */
  function GetRestrictionLevel(country: Option<string>, state: Option<string>, city: Option<string>): Level {
    Lookup(RestrictionData, NormalizeCode(country), NormalizeCode(state), CleanCity(city))
  }

  /** Without a known country, or with neither state nor city, or with an unknown state, the answer is `'unknown'`. */
  lemma LookupUnknownWithoutLocation(data: CountryTable, c: Option<string>, st: Option<string>, ct: Option<string>)
    ensures (c.None? || Find(data, c.value).None?) ==> Lookup(data, c, st, ct) == Unknown
    ensures st.None? && ct.None? ==> Lookup(data, c, st, ct) == Unknown
    ensures c.Some? && Find(data, c.value).Some? && st.Some? && Find(Find(data, c.value).value, st.value).None? ==>
              Lookup(data, c, st, ct) == Unknown
  {
  }

  /** A city without a state is searched across the country's states: `'unknown'` when none lists it, else the level in the first state listing it. */
  lemma LookupCityWithoutState(data: CountryTable, c: string, city: string)
    requires Find(data, c).Some?
    ensures var states: StateTable := Find(data, c).value;
            && ((forall j :: 0 <= j < |states| ==> !ListsCity(states[j].1, city)) ==>
                  Lookup(data, Some(c), None, Some(city)) == Unknown)
            && ((exists j :: 0 <= j < |states| && ListsCity(states[j].1, city)) ==>
                  exists j :: 0 <= j < |states| && ListsCity(states[j].1, city)
                              && Some(Lookup(data, Some(c), None, Some(city))) == Find(states[j].1, city)
                              && forall k :: 0 <= k < j ==> !ListsCity(states[k].1, city))
  {
    CityAcrossStatesSpec(Find(data, c).value, city);
  }

  /** A state without a city answers its first-encountered most common level. */
  lemma LookupStateWithoutCity(data: CountryTable, c: string, st: string)
    requires Find(data, c).Some? && Find(Find(data, c).value, st).Some?
    requires |Find(Find(data, c).value, st).value| > 0
    ensures IsFirstMode(ValuesOf(Find(Find(data, c).value, st).value), Lookup(data, Some(c), Some(st), None))
  {
    StateDefaultIsFirstMode(Find(Find(data, c).value, st).value);
  }

  /** A state and a city answer the city's first entry in that state, and `'unknown'` when the state does not list it. */
  lemma LookupCityInState(data: CountryTable, c: string, st: string, city: string)
    requires Find(data, c).Some? && Find(Find(data, c).value, st).Some?
    ensures var cities: CityTable := Find(Find(data, c).value, st).value;
            && (!ListsCity(cities, city) ==> Lookup(data, Some(c), Some(st), Some(city)) == Unknown)
            && (ListsCity(cities, city) ==>
                  exists i :: 0 <= i < |cities| && cities[i] == (city, Lookup(data, Some(c), Some(st), Some(city)))
                              && forall j :: 0 <= j < i ==> cities[j].0 != city)
  {
    FindSpec(Find(Find(data, c).value, st).value, city);
  }

  /** A cleaned city is always a fixed point of title-casing. */
  lemma CleanCityIsTitleCase(city: Option<string>)
    ensures CleanCity(city).Some? ==> Title(CleanCity(city).value) == CleanCity(city).value
  {
    if Truthy(city).Some? {
      TitleIdempotent(Lower(StripCity(city.value)));
    }
  }

  /** A table key that title-casing would change can never be looked up. */
  lemma NonTitleKeyUnreachable(city: Option<string>, key: string)
    requires Title(key) != key
    ensures CleanCity(city) != Some(key)
  {
    CleanCityIsTitleCase(city);
  }

  /** A key with a lower-case letter starting a word is not title-cased, so it is unreachable. */
  lemma LowerWordKeyUnreachable(city: Option<string>, key: string, i: nat)
    requires 0 < i < |key| && !IsAsciiLetter(key[i - 1]) && 'a' <= key[i] <= 'z'
    ensures CleanCity(city) != Some(key)
  {
    TitleAt(key, i);
    NonTitleKeyUnreachable(city, key);
  }

  /** Hence the Manitoba key `'Portage la Prairie'`, whose `la` title-cases to `La`, is unreachable. */
  lemma PortageLaPrairieUnreachable(city: Option<string>)
    ensures CleanCity(city) != Some("Portage la Prairie")
  {
    LowerWordKeyUnreachable(city, "Portage la Prairie", 8);
  }

  /** A city name without surrounding whitespace and without a trailing slash. */
  predicate IsTrimmedName(s: string) {
    |s| > 0 && !IsPyWhitespace(s[0]) && !IsPyWhitespace(s[|s| - 1]) && s[|s| - 1] != '/'
  }

  lemma PyStripTrimmedName(s: string)
    requires IsTrimmedName(s)
    ensures PyStrip(s) == s
  {
    assert DropEnd(s, IsPyWhitespace) == s;
    assert DropStart(s, IsPyWhitespace) == s;
  }

  lemma PyStripTrimmedNameAppend(s: string, t: string)
    requires IsTrimmedName(s)
    ensures PyStrip(s + t) == s + DropEnd(t, IsPyWhitespace)
  {
    var u := DropEnd(t, IsPyWhitespace);
    DropEndTail(s, t, IsPyWhitespace);
    assert (s + u)[0] == s[0];
    assert DropStart(s + u, IsPyWhitespace) == s + u;
  }

  lemma StripTrimmedName(s: string, t: string)
    requires IsTrimmedName(s)
    requires forall i :: 0 <= i < |t| ==> IsSlashOrSpace(t[i])
    ensures StripCity(s + t) == s
  {
    var u := DropEnd(t, IsPyWhitespace);
    PyStripTrimmedNameAppend(s, t);
    DropEndSpec(t, IsPyWhitespace);
    assert forall i :: 0 <= i < |u| ==> IsSlashOrSpace(u[i]) by {
      forall i | 0 <= i < |u| ensures IsSlashOrSpace(u[i]) {
        assert u[i] == t[i];
      }
    }
    DropEndAppend(s, u, IsSlashOrSpace);
    assert DropEnd(s, IsSlashOrSpace) == s;
    PyStripTrimmedName(s);
  }

  /** Dropping a suffix class from `s + t` stops inside `t` when the last character of `s` is outside the class. */
  lemma {:induction false} DropEndTail(s: string, t: string, p: char -> bool)
    requires |s| > 0 && !p(s[|s| - 1])
    ensures DropEnd(s + t, p) == s + DropEnd(t, p)
    decreases |t|
  {
    if |t| == 0 {
      assert s + t == s;
      assert DropEnd(s, p) == s;
    } else {
      assert (s + t)[|s + t| - 1] == t[|t| - 1];
      assert (s + t)[..|s + t| - 1] == s + t[..|t| - 1];
      DropEndTail(s, t[..|t| - 1], p);
    }
  }

  /**
   * Spellings that differ in letter case and by a trailing run of slashes and
   * spaces clean to the same city, `name.lower().title()`.
   */
  lemma CleanCitySpellings(a: string, b: string, t: string)
    requires IsTrimmedName(a) && IsTrimmedName(b) && Lower(a) == Lower(b)
    requires forall i :: 0 <= i < |t| ==> IsSlashOrSpace(t[i])
    ensures CleanCity(Some(a + t)) == CleanCity(Some(b)) == Some(Title(Lower(b)))
  {
    StripTrimmedName(a, t);
    StripTrimmedName(b, []);
    assert b + [] == b;
    TitleFromLength(Lower(b), false);
  }

  lemma ManitobaCities()
    ensures Find(RestrictionData, "CA").Some?
    ensures Find(Find(RestrictionData, "CA").value, "MB") ==
            Some([("Winnipeg", Low), ("Brandon", Low), ("Steinbach", Low), ("Portage la Prairie", Low)])
  {
  }

  lemma SouthAustraliaCities()
    ensures Find(RestrictionData, "AU").Some?
    ensures Find(Find(RestrictionData, "AU").value, "SA") ==
            Some([("Adelaide", Low), ("Mount Gambier", Medium), ("Port Augusta", Low), ("Whyalla", Medium)])
  {
  }

  /** Any cleaned Manitoba city of that length other than the listed spelling is absent from the state. */
  lemma ManitobaMissesLongNames(ct: string)
    requires |ct| == 18 && ct != "Portage la Prairie"
    ensures Lookup(RestrictionData, Some("CA"), Some("MB"), Some(ct)) == Unknown
  {
    ManitobaCities();
    var cities: CityTable := [("Winnipeg", Low), ("Brandon", Low), ("Steinbach", Low), ("Portage la Prairie", Low)];
    assert !ListsCity(cities, ct);
    LookupCityInState(RestrictionData, "CA", "MB", ct);
  }

  lemma CleanTrimmedName(s: string)
    requires IsTrimmedName(s)
    ensures CleanCity(Some(s)).Some? && |CleanCity(Some(s)).value| == |s|
  {
    CleanCitySpellings(s, s, []);
    assert s + [] == s;
    TitleFromLength(Lower(s), false);
  }

  /**
   * The consequence for Manitoba: its fourth listed city answers `'unknown'`,
   * however the country and state codes are cased, even when the city is
   * spelled exactly as listed.
   */
  lemma PortageLaPrairieIsUnknown(country: Option<string>, state: Option<string>, city: Option<string>)
    requires NormalizeCode(country) == Some("CA") && NormalizeCode(state) == Some("MB")
    requires city == Some("Portage la Prairie")
    ensures GetRestrictionLevel(country, state, city) == Unknown
  {
    CleanTrimmedName(city.value);
    PortageLaPrairieUnreachable(city);
    ManitobaMissesLongNames(CleanCity(city).value);
  }

  /** A state whose four cities alternate low and medium defaults to low, the first-listed of the tied levels. */
  lemma AlternatingTieDefaultsToFirst(cities: CityTable)
    requires ValuesOf(cities) == [Low, Medium, Low, Medium]
    ensures StateDefault(cities) == Low
  {
    var s := ValuesOf(cities);
    StateDefaultIsFirstMode(cities);
    var r := StateDefault(cities);
    assert r in s;
    assert multiset(s) == multiset{Low, Low, Medium, Medium};
    FirstIndexAt(s, Low, 0);
    FirstIndexAt(s, Medium, 1);
  }

  /** South Australia ties low/medium two to two; the first-listed `'low'` wins. */
  lemma SouthAustraliaDefaultIsLow(country: Option<string>, state: Option<string>)
    requires NormalizeCode(country) == Some("AU") && NormalizeCode(state) == Some("SA")
    ensures GetRestrictionLevel(country, state, None) == Low
  {
    SouthAustraliaCities();
    var cities := Find(Find(RestrictionData, "AU").value, "SA").value;
    assert ValuesOf(cities) == [Low, Medium, Low, Medium];
    AlternatingTieDefaultsToFirst(cities);
  }

  lemma CleanCityTextIgnoresCase(a: string, b: string)
    requires Lower(a) == Lower(b)
    ensures CleanCityText(a) == CleanCityText(b)
  {
    LowerCommutesWithCleaning(a);
    LowerCommutesWithCleaning(b);
  }

  /** The same city answers the same level whatever its letter case. */
  lemma CleanCityIgnoresCase(a: string, b: string)
    requires Lower(a) == Lower(b)
    ensures CleanCity(Some(a)) == CleanCity(Some(b))
  {
    CleanCityTextIgnoresCase(a, b);
    assert |a| == |Lower(a)| && |b| == |Lower(b)|;
  }

  lemma LowerKeepsStrippedSets()
    ensures forall c :: IsPyWhitespace(LowerChar(c)) == IsPyWhitespace(c)
    ensures forall c :: IsSlashOrSpace(LowerChar(c)) == IsSlashOrSpace(c)
  {
  }

  lemma LowerPyStrip(s: string)
    ensures Lower(PyStrip(s)) == PyStrip(Lower(s))
  {
    LowerKeepsStrippedSets();
    LowerDropEnd(s, IsPyWhitespace);
    LowerDropStart(DropEnd(s, IsPyWhitespace), IsPyWhitespace);
  }

  lemma LowerStripCity(s: string)
    ensures Lower(StripCity(s)) == StripCity(Lower(s))
  {
    LowerKeepsStrippedSets();
    LowerPyStrip(s);
    LowerDropEnd(PyStrip(s), IsSlashOrSpace);
    LowerPyStrip(DropEnd(PyStrip(s), IsSlashOrSpace));
  }

  lemma LowerCommutesWithCleaning(s: string)
    ensures Lower(StripCity(s)) == Lower(StripCity(Lower(s)))
  {
    LowerStripCity(s);
    LowerStripCity(Lower(s));
    LowerIdempotent(s);
  }

  lemma LowerIdempotent(s: string)
    ensures Lower(Lower(s)) == Lower(s)
  {
  }

  lemma {:induction false} LowerDropEnd(s: string, p: char -> bool)
    requires forall c :: p(LowerChar(c)) == p(c)
    ensures Lower(DropEnd(s, p)) == DropEnd(Lower(s), p)
    decreases |s|
  {
    if |s| > 0 {
      assert Lower(s)[|s| - 1] == LowerChar(s[|s| - 1]);
      assert Lower(s)[..|s| - 1] == Lower(s[..|s| - 1]);
      LowerDropEnd(s[..|s| - 1], p);
    }
  }

  lemma {:induction false} LowerDropStart(s: string, p: char -> bool)
    requires forall c :: p(LowerChar(c)) == p(c)
    ensures Lower(DropStart(s, p)) == DropStart(Lower(s), p)
    decreases |s|
  {
    if |s| > 0 {
      assert Lower(s)[0] == LowerChar(s[0]);
      assert Lower(s)[1..] == Lower(s[1..]);
      LowerDropStart(s[1..], p);
    }
  }


  /** `covid_restriction_lookup`: 400 without a country, otherwise 200 echoing the raw parameters. */
  function CovidRestrictionLookup(country: Option<string>, state: Option<string>, city: Option<string>): (r: Response)
    ensures Truthy(country).None? ==>
              r.status == 400 && Field(r.body, "message") == Some(JStr("Country parameter is required"))
    ensures Truthy(country).Some? ==>
              && r.status == 200
              && Field(r.body, "data") == Some(JObj([
                   ("restriction_level", JStr(GetRestrictionLevel(country, state, city).Name())),
                   ("country", JStr(country.value)),
                   ("state", OptionalText(state)),
                   ("city", OptionalText(city))]))
  {
    if Truthy(country).None? then
      ErrorResponse("Country parameter is required", HTTP_400_BAD_REQUEST)
    else
      SuccessResponse(JObj([
        ("restriction_level", JStr(GetRestrictionLevel(country, state, city).Name())),
        ("country", JStr(country.value)),
        ("state", OptionalText(state)),
        ("city", OptionalText(city))]),
        "COVID restriction level retrieved successfully")
  }
}

=== FILE: drf_fields.dfy ===
/**
 * The field machinery of Django REST framework that the serializers rely
 * on: what a client sent for a field, `CharField.run_validation` with its
 * trimming and blank rules, `run_validators` and the Django validators it
 * runs, `BooleanField` and `IntegerField` with `min_value`, and the way a
 * serializer gathers field errors.
 */
module DrfFields {
  import opened Wrappers
  import opened Text

  /** What the client sent for a text field: nothing, `null`, or a string. */
  datatype Sent = Absent | Null | Str(s: string)

  /** What the client sent for an integer field: nothing, `null`, or an integer. */
  datatype SentInt = IntAbsent | IntNull | Int(i: int)

  /** What the client sent for a boolean field: nothing, `null`, or a boolean. */
  datatype SentFlag = FlagAbsent | FlagNull | Flag(b: bool)

  /**
   * The checks that rest on tables outside this model: Django's
   * `EmailValidator` (its user and domain regular expressions) and
   * Python's `\w` on a non-ASCII character.
   */
  datatype Checks = Checks(isEmail: string -> bool, isUnicodeWord: char -> bool)

  const RequiredMessage: string := "This field is required."
  const NullMessage: string := "This field may not be null."
  const BlankMessage: string := "This field may not be blank."
  const NullCharactersMessage: string := "Null characters are not allowed."
  const InvalidEmailMessage: string := "Enter a valid email address."
  const InvalidUsernameMessage: string :=
    "Enter a valid username. This value may contain only letters, numbers, and @/./+/-/_ characters."
  /** The `max_length` message. */
  function MaxLengthMessage(limit: nat): string {
    "Ensure this field has no more than " + NatToDecimal(limit) + " characters."
  }

  /** The `min_length` message. */
  function MinLengthMessage(limit: nat): string {
    "Ensure this field has at least " + NatToDecimal(limit) + " characters."
  }

  /** The `min_value` message of an `IntegerField`. */
  function MinValueMessage(limit: nat): string {
    "Ensure this value is greater than or equal to " + NatToDecimal(limit) + "."
  }

  /** One validator a field runs on its trimmed value. */
  datatype Validator =
    | Unique(taken: set<string>, message: string)
    | MaxLength(limit: nat)
    | MinLength(limit: nat)
    | NoNullCharacters
    | EmailFormat
    | UsernameFormat

  /** A character `UnicodeUsernameValidator` allows: Python's `\w`, `.`, `@`, `+` or `-`. */
  predicate UsernameChar(c: char, isUnicodeWord: char -> bool) {
    IsAsciiLetter(c) || IsAsciiDigit(c) || c == '_' || (c as int >= 128 && isUnicodeWord(c))
    || c == '.' || c == '@' || c == '+' || c == '-'
  }

  /** `^[\w.@+-]+\Z`. */
  predicate UsernameMatches(value: string, isUnicodeWord: char -> bool) {
    |value| > 0 && forall i :: 0 <= i < |value| ==> UsernameChar(value[i], isUnicodeWord)
  }

  /** The message of one validator, `None` when the value passes it. */
  function Check(v: Validator, value: string, checks: Checks): (m: Option<string>)
    ensures v.Unique? ==> m == if value in v.taken then Some(v.message) else None
    ensures v.MaxLength? ==> m == if |value| > v.limit then Some(MaxLengthMessage(v.limit)) else None
    ensures v.MinLength? ==> m == if |value| < v.limit then Some(MinLengthMessage(v.limit)) else None
    ensures v == NoNullCharacters ==> m == if '\U{0}' in value then Some(NullCharactersMessage) else None
    ensures v == EmailFormat ==> m == if checks.isEmail(value) then None else Some(InvalidEmailMessage)
    ensures v == UsernameFormat ==> m == if UsernameMatches(value, checks.isUnicodeWord) then None else Some(InvalidUsernameMessage)
  {
    match v
    case Unique(taken, message) => if value in taken then Some(message) else None
    case MaxLength(limit) =>
      if |value| > limit then Some(MaxLengthMessage(limit)) else None
    case MinLength(limit) =>
      if |value| < limit then Some(MinLengthMessage(limit)) else None
    case NoNullCharacters => if '\U{0}' in value then Some(NullCharactersMessage) else None
    case EmailFormat => if checks.isEmail(value) then None else Some(InvalidEmailMessage)
    case UsernameFormat => if UsernameMatches(value, checks.isUnicodeWord) then None else Some(InvalidUsernameMessage)
  }

  /** `run_validators`: every validator runs and every message is kept, in validator order. */
  function RunValidators(vs: seq<Validator>, value: string, checks: Checks): (ms: seq<string>)
    ensures ms == [] <==> forall i :: 0 <= i < |vs| ==> Check(vs[i], value, checks).None?
    ensures forall i :: 0 <= i < |vs| && Check(vs[i], value, checks).Some? ==> Check(vs[i], value, checks).value in ms
    ensures forall m :: m in ms ==> exists i :: 0 <= i < |vs| && Check(vs[i], value, checks) == Some(m)
    decreases |vs|
  {
    if |vs| == 0 then []
    else
      var rest := RunValidators(vs[1..], value, checks);
      assert forall i :: 1 <= i < |vs| ==> vs[i] == vs[1..][i - 1];
      match Check(vs[0], value, checks)
      case None => rest
      case Some(m) => [m] + rest
  }

  /** How a text field is declared. */
  datatype CharSpec = CharSpec(required: bool, allowNull: bool, allowBlank: bool, validators: seq<Validator>)

  /**
   * `CharField.run_validation`: an absent value is an error when required
   * and otherwise skipped (`Absent`); `null` is kept only where allowed; a
   * value that is empty after trimming is `""` where blanks are allowed
   * and an error otherwise; any other value is trimmed and validated.
   */
  function RunCharField(spec: CharSpec, sent: Sent, checks: Checks): (r: Result<Sent, seq<string>>)
    ensures r.Err? ==> |r.error| > 0
    ensures sent.Absent? ==> r == if spec.required then Err([RequiredMessage]) else Ok(Absent)
    ensures sent.Null? ==> r == if spec.allowNull then Ok(Null) else Err([NullMessage])
    ensures sent.Str? && PyStrip(sent.s) == "" ==> r == if spec.allowBlank then Ok(Str("")) else Err([BlankMessage])
    ensures sent.Str? && PyStrip(sent.s) != "" ==>
              (r.Ok? <==> RunValidators(spec.validators, PyStrip(sent.s), checks) == [])
              && (r.Ok? ==> r.value == Str(PyStrip(sent.s)))
              && (r.Err? ==> r.error == RunValidators(spec.validators, PyStrip(sent.s), checks))
  {
    match sent
    case Absent => if spec.required then Err([RequiredMessage]) else Ok(Absent)
    case Null => if spec.allowNull then Ok(Null) else Err([NullMessage])
    case Str(s) =>
      var value := PyStrip(s);
      if value == "" then (if spec.allowBlank then Ok(Str("")) else Err([BlankMessage]))
      else
        var ms := RunValidators(spec.validators, value, checks);
        if ms == [] then Ok(Str(value)) else Err(ms)
  }

  /** `BooleanField.run_validation` (the value already a boolean). */
  function RunFlag(required: bool, sent: SentFlag): (r: Result<SentFlag, seq<string>>)
    ensures r.Ok? <==> sent.Flag? || (sent.FlagAbsent? && !required)
    ensures r.Ok? ==> r.value == sent
  {
    match sent
    case FlagAbsent => if required then Err([RequiredMessage]) else Ok(FlagAbsent)
    case FlagNull => Err([NullMessage])
    case Flag(_) => Ok(sent)
  }

  /**
   * `IntegerField.run_validation` (the value already an integer): an
   * absent value is an error when required and otherwise skipped, `null`
   * is kept only where allowed, and an integer below `min_value` is
   * refused.
   */
  function RunIntField(required: bool, allowNull: bool, minValue: Option<nat>, sent: SentInt): (r: Result<SentInt, seq<string>>)
    ensures sent.IntAbsent? ==> r == if required then Err([RequiredMessage]) else Ok(IntAbsent)
    ensures sent.IntNull? ==> r == if allowNull then Ok(IntNull) else Err([NullMessage])
    ensures sent.Int? ==> (r.Ok? <==> minValue.None? || sent.i >= minValue.value)
    ensures sent.Int? && r.Ok? ==> r.value == sent
    ensures sent.Int? && r.Err? ==> r.error == [MinValueMessage(minValue.value)]
  {
    match sent
    case IntAbsent => if required then Err([RequiredMessage]) else Ok(IntAbsent)
    case IntNull => if allowNull then Ok(IntNull) else Err([NullMessage])
    case Int(i) =>
      if minValue.Some? && i < minValue.value then Err([MinValueMessage(minValue.value)]) else Ok(sent)
  }

  /** A required, non-null, non-blank field that passes holds its trimmed, non-empty value, and every validator passed. */
  lemma RequiredFieldValue(spec: CharSpec, sent: Sent, checks: Checks)
    requires spec.required && !spec.allowNull && !spec.allowBlank
    requires RunCharField(spec, sent, checks).Ok?
    ensures sent.Str? && PyStrip(sent.s) != "" && RunCharField(spec, sent, checks).value == Str(PyStrip(sent.s))
    ensures forall i :: 0 <= i < |spec.validators| ==> Check(spec.validators[i], PyStrip(sent.s), checks).None?
  {
  }

  /** A field's errors under its name, nothing when it passed. */
  function ErrorsOf<T>(field: string, r: Result<T, seq<string>>): (errs: seq<(string, seq<string>)>)
    ensures errs == [] <==> r.Ok?
    ensures r.Err? ==> errs == [(field, r.error)]
  {
    if r.Err? then [(field, r.error)] else []
  }

}

=== FILE: frontend_crypto.dfy ===
/**
 * The byte and text handling of frontend/src/lib/crypto.ts: the hex codec,
 * the `iv:ciphertext:tag` framing `enc` produces, and the format check and
 * recombination `dec` performs before decrypting.  Key derivation and
 * AES-GCM are external: the random IV and the sealed bytes the cipher
 * returns (ciphertext followed by the 16-byte tag) are inputs.
 */
module FrontendCrypto {
  import opened Wrappers
  import opened Text

  type Byte = b: int | 0 <= b < 256

  predicate IsHexDigit(c: char) {
    ('0' <= c <= '9') || ('a' <= c <= 'f') || ('A' <= c <= 'F')
  }

  /** What `toString(16)` emits: digits and lower-case letters. */
  predicate IsLowerHexDigit(c: char) {
    ('0' <= c <= '9') || ('a' <= c <= 'f')
  }

  function HexValue(c: char): (v: nat)
    requires IsHexDigit(c)
    ensures v < 16
  {
    if '0' <= c <= '9' then c as int - '0' as int
    else if 'a' <= c <= 'f' then c as int - 'a' as int + 10
    else c as int - 'A' as int + 10
  }

  /** The lower-case digit of a value below 16. */
  function HexDigit(d: nat): (c: char)
    requires d < 16
    ensures IsLowerHexDigit(c) && IsHexDigit(c) && HexValue(c) == d
  {
    if d < 10 then ('0' as int + d) as char else ('a' as int + d - 10) as char
  }

  /** `n.toString(16)`: base-16 digits without leading zeros. */
  function ToHexString(n: nat): (r: string)
    ensures |r| >= 1
  {
    if n < 16 then [HexDigit(n)] else ToHexString(n / 16) + [HexDigit(n % 16)]
  }

  /** `s.padStart(width, c)`. */
  function PadStart(s: string, width: nat, c: char): (r: string)
    ensures |r| == if |s| >= width then |s| else width
  {
    if |s| >= width then s else seq(width - |s|, _ => c) + s
  }

  /** The hex of one byte inside `bytesToHex`. */
  function ByteToHex(b: Byte): string {
    PadStart(ToHexString(b), 2, '0')
  }

  /** Every byte becomes exactly two lower-case digits: the high and the low nibble. */
  lemma ByteToHexDigits(b: Byte)
    ensures ByteToHex(b) == [HexDigit(b / 16), HexDigit(b % 16)]
  {
    if b >= 16 {
      assert ToHexString(b / 16) == [HexDigit(b / 16)];
    }
  }

  /** `bytesToHex`: the bytes' hex texts joined with nothing between them. */
  function BytesToHex(bytes: seq<Byte>): (r: string)
    decreases |bytes|
  {
    if |bytes| == 0 then "" else ByteToHex(bytes[0]) + BytesToHex(bytes[1..])
  }

  /** The text has two lower-case digits per byte, the high nibble first. */
  lemma {:induction false} BytesToHexSpec(bytes: seq<Byte>)
    ensures |BytesToHex(bytes)| == 2 * |bytes|
    ensures forall k :: 0 <= k < |bytes| ==>
              BytesToHex(bytes)[2 * k] == HexDigit(bytes[k] / 16) && BytesToHex(bytes)[2 * k + 1] == HexDigit(bytes[k] % 16)
    ensures forall i :: 0 <= i < |BytesToHex(bytes)| ==> IsLowerHexDigit(BytesToHex(bytes)[i])
    decreases |bytes|
  {
    if |bytes| > 0 {
      BytesToHexSpec(bytes[1..]);
      ByteToHexDigits(bytes[0]);
      var r := BytesToHex(bytes);
      var rest := BytesToHex(bytes[1..]);
      assert r == [HexDigit(bytes[0] / 16), HexDigit(bytes[0] % 16)] + rest;
      forall k | 1 <= k < |bytes|
        ensures r[2 * k] == HexDigit(bytes[k] / 16) && r[2 * k + 1] == HexDigit(bytes[k] % 16)
      {
        assert bytes[k] == bytes[1..][k - 1];
        assert r[2 * k] == rest[2 * (k - 1)];
        assert r[2 * k + 1] == rest[2 * (k - 1) + 1];
      }
    }
  }

  /**
   * `parseInt(pair, 16)` on a two-character piece: optional leading
   * white space or sign, an optional `0x` prefix, then the longest run of
   * hex digits; `None` is `NaN`.
   */
  function ParseHexPair(a: char, b: char): Option<int> {
    if IsHexDigit(a) && !(a == '0' && (b == 'x' || b == 'X')) then
      if IsHexDigit(b) then Some(HexValue(a) * 16 + HexValue(b)) else Some(HexValue(a))
    else if (IsJsWhitespace(a) || a == '+') && IsHexDigit(b) then Some(HexValue(b))
    else if a == '-' && IsHexDigit(b) then Some(-(HexValue(b) as int))
    else None
  }

  /** The conversion a `Uint8Array` element assignment applies: `NaN` becomes 0, other values wrap modulo 256. */
  function ToUint8(v: Option<int>): Byte {
    if v.None? then 0 else v.value % 256
  }

  /**
   * `hexToBytes`: an array of `length / 2` bytes (the fraction truncated), the
   * k-th parsed from characters 2k and 2k+1; the write past the end an odd
   * length leads to is dropped, as typed arrays drop it.
   */
  function HexToBytes(hex: string): (r: seq<Byte>)
    ensures |r| == |hex| / 2
  {
    seq(|hex| / 2, k requires 0 <= k < |hex| / 2 => ToUint8(ParseHexPair(hex[2 * k], hex[2 * k + 1])))
  }

  /** The two digits of a byte parse back to the byte. */
  lemma PairRoundTrip(b: Byte)
    ensures ToUint8(ParseHexPair(HexDigit(b / 16), HexDigit(b % 16))) == b
  {
  }

  /** Two characters that are the digits of a byte parse back to it. */
  lemma DigitsRoundTrip(hi: char, lo: char, b: Byte)
    requires hi == HexDigit(b / 16) && lo == HexDigit(b % 16)
    ensures ToUint8(ParseHexPair(hi, lo)) == b
  {
    PairRoundTrip(b);
  }

  /** Decoding undoes encoding for every byte sequence. */
  lemma HexRoundTrip(bytes: seq<Byte>)
    ensures HexToBytes(BytesToHex(bytes)) == bytes
  {
    BytesToHexSpec(bytes);
    var h := BytesToHex(bytes);
    assert |h| / 2 == |bytes|;
    var d := HexToBytes(h);
    assert |d| == |bytes|;
    forall k | 0 <= k < |bytes| ensures d[k] == bytes[k] {
      assert d[k] == ToUint8(ParseHexPair(h[2 * k], h[2 * k + 1]));
      DigitsRoundTrip(h[2 * k], h[2 * k + 1], bytes[k]);
    }
  }

  /** The error both functions raise when the key is not configured. */
  const KeyNotSet: string := "NEXT_PUBLIC_FERNET_KEY environment variable is not set."

  /** JavaScript truthiness of an environment value. */
  predicate Configured(key: Option<string>) {
    key.Some? && key.value != ""
  }

  /** Where `slice(0, -16)` and `slice(-16)` split the sealed bytes (both clamp at 0). */
  function TagStart(sealed: seq<Byte>): (k: nat)
    ensures k <= |sealed| && (|sealed| >= 16 ==> |sealed| - k == 16)
  {
    if |sealed| >= 16 then |sealed| - 16 else 0
  }

  /** `enc` after encryption: the IV, ciphertext and tag in hex, separated by colons. */
  function Enc(key: Option<string>, iv: seq<Byte>, sealed: seq<Byte>): (r: Result<string, string>)
    ensures r.Err? <==> !Configured(key)
    ensures r.Err? ==> r.error == KeyNotSet
  {
    if !Configured(key) then Err(KeyNotSet)
    else
      var k := TagStart(sealed);
      Ok(BytesToHex(iv) + ":" + BytesToHex(sealed[..k]) + ":" + BytesToHex(sealed[k..]))
  }

  /**
   * `dec` before decryption: the key check, the three-part format check,
   * then the IV and the ciphertext with the tag appended, ready for the
   * cipher.
   */
  function DecUnframe(key: Option<string>, data: string): (r: Result<(seq<Byte>, seq<Byte>), string>)
    ensures !Configured(key) ==> r == Err(KeyNotSet)
    ensures Configured(key) ==> (r == Err("Invalid encrypted data format.") <==> |Split(data, ':')| != 3)
  {
    if !Configured(key) then Err(KeyNotSet)
    else
      var parts := Split(data, ':');
      if |parts| != 3 then Err("Invalid encrypted data format.")
      else Ok((HexToBytes(parts[0]), HexToBytes(parts[1]) + HexToBytes(parts[2])))
  }

  /** No colon appears in hex text. */
  lemma HexHasNoColon(bytes: seq<Byte>)
    ensures ':' !in BytesToHex(bytes)
  {
    BytesToHexSpec(bytes);
  }

  /** The three hex fields of `enc`'s output, joined with colons. */
  lemma EncIsJoin(key: Option<string>, iv: seq<Byte>, sealed: seq<Byte>)
    requires Configured(key)
    ensures var k := TagStart(sealed);
            Enc(key, iv, sealed).value == Join([BytesToHex(iv), BytesToHex(sealed[..k]), BytesToHex(sealed[k..])], ':')
  {
    var k := TagStart(sealed);
    var parts := [BytesToHex(iv), BytesToHex(sealed[..k]), BytesToHex(sealed[k..])];
    assert parts[1..][1..] == [parts[2]];
    assert Join(parts[1..], ':') == parts[1] + [':'] + parts[2];
  }

  /** Splitting `enc`'s output on colons gives back its three hex fields. */
  lemma EncSplitsIntoFields(key: Option<string>, iv: seq<Byte>, sealed: seq<Byte>)
    requires Configured(key)
    ensures var k := TagStart(sealed);
            Split(Enc(key, iv, sealed).value, ':') == [BytesToHex(iv), BytesToHex(sealed[..k]), BytesToHex(sealed[k..])]
  {
    var k := TagStart(sealed);
    var parts := [BytesToHex(iv), BytesToHex(sealed[..k]), BytesToHex(sealed[k..])];
    var e := Enc(key, iv, sealed).value;
    assert e == Join(parts, ':') by {
      EncIsJoin(key, iv, sealed);
    }
    assert forall i :: 0 <= i < |parts| ==> ':' !in parts[i] by {
      HexHasNoColon(iv);
      HexHasNoColon(sealed[..k]);
      HexHasNoColon(sealed[k..]);
    }
    SplitJoin(parts, ':');
  }

  /**
   * Every `enc` output splits into exactly three parts; with the 16-byte IV
   * and a sealed text holding its 16-byte tag, the first and last are 32
   * hex digits each.
   */
  lemma EncHasThreeParts(key: Option<string>, iv: seq<Byte>, sealed: seq<Byte>)
    requires Configured(key)
    ensures |Split(Enc(key, iv, sealed).value, ':')| == 3
    ensures |iv| == 16 && |sealed| >= 16 ==>
              |Split(Enc(key, iv, sealed).value, ':')[0]| == 32 && |Split(Enc(key, iv, sealed).value, ':')[2]| == 32
  {
    var k := TagStart(sealed);
    EncSplitsIntoFields(key, iv, sealed);
    BytesToHexSpec(iv);
    BytesToHexSpec(sealed[k..]);
  }

  /** `dec`'s unframing recovers exactly the IV and sealed bytes `enc` framed: ciphertext and tag recombine. */
  lemma EncDecRoundTrip(key: Option<string>, iv: seq<Byte>, sealed: seq<Byte>)
    requires Configured(key)
    ensures DecUnframe(key, Enc(key, iv, sealed).value) == Ok((iv, sealed))
  {
    var k := TagStart(sealed);
    var parts := [BytesToHex(iv), BytesToHex(sealed[..k]), BytesToHex(sealed[k..])];
    assert sealed[..k] + sealed[k..] == sealed;
    var e := Enc(key, iv, sealed).value;
    EncSplitsIntoFields(key, iv, sealed);
    assert Split(e, ':') == parts;
    assert DecUnframe(key, e) == Ok((HexToBytes(parts[0]), HexToBytes(parts[1]) + HexToBytes(parts[2])));
    HexRoundTrip(iv);
    HexRoundTrip(sealed[..k]);
    HexRoundTrip(sealed[k..]);
  }
}

=== FILE: pagination.dfy ===
/**
 * The client-side pagination of the dashboard lists.  `BookingsSection` and
 * `ServicesSection` share one algorithm: three items a page, a window of at
 * most five page links around the current page, and an ellipsis followed
 * by a link to the last page.  `AllServicesSection` lists every page.
 */
module Pagination {

  const ItemsPerPage: nat := 3
  const MaxVisiblePages: nat := 5

  /** `Math.ceil(n / itemsPerPage)`: the fewest pages of three that hold `n` items. */
  function TotalPages(n: nat): (t: nat)
    ensures t * 3 >= n
    ensures t > 0 ==> (t - 1) * 3 < n
  {
    (n + 2) / 3
  }

  /** JavaScript's reading of a `slice` bound: negative counts from the end, and both ends clamp. */
  function SliceBound(len: nat, i: int): (k: nat)
    ensures k <= len
  {
    if i < 0 then (if len + i < 0 then 0 else len + i) else if i > len then len else i
  }

  /** `s.slice(start, end)`. */
  function JsSlice<T>(s: seq<T>, start: int, end: int): seq<T> {
    var a := SliceBound(|s|, start);
    var b := SliceBound(|s|, end);
    if a < b then s[a..b] else []
  }

  /** The items of one page: `items.slice((page - 1) * 3, (page - 1) * 3 + 3)`. */
  function PageItems<T>(items: seq<T>, page: int): (r: seq<T>)
    ensures |r| <= ItemsPerPage
    ensures 1 <= page <= TotalPages(|items|) ==>
              r != [] && r == items[(page - 1) * 3..if page * 3 < |items| then page * 3 else |items|]
    ensures page > TotalPages(|items|) ==> r == []
  {
    JsSlice(items, (page - 1) * 3, (page - 1) * 3 + 3)
  }

  /** The pages in order. */
  function Pages<T>(items: seq<T>): (ps: seq<seq<T>>)
    ensures |ps| == TotalPages(|items|)
  {
    seq(TotalPages(|items|), i requires 0 <= i < TotalPages(|items|) => PageItems(items, i + 1))
  }

  function Concat<T>(ss: seq<seq<T>>): seq<T>
    decreases |ss|
  {
    if |ss| == 0 then [] else ss[0] + Concat(ss[1..])
  }

  /** Page `i + 2` of a list is page `i + 1` of the list without its first three items. */
  lemma PageItemsShift<T>(items: seq<T>, i: nat)
    requires |items| > 3
    ensures PageItems(items, i + 2) == PageItems(items[3..], i + 1)
  {
    var rest := items[3..];
    var a := SliceBound(|rest|, i * 3);
    var b := SliceBound(|rest|, i * 3 + 3);
    assert SliceBound(|items|, (i + 1) * 3) == a + 3;
    assert SliceBound(|items|, (i + 1) * 3 + 3) == b + 3;
    if a < b {
      assert rest[a..b] == items[a + 3..b + 3];
    }
  }

  /** Paging from the second page on is paging the list without its first page. */
  lemma PagesShift<T>(items: seq<T>)
    requires |items| > 3
    ensures Pages(items) == [items[..3]] + Pages(items[3..])
  {
    var ps := Pages(items);
    var rest := Pages(items[3..]);
    assert |ps| == |rest| + 1;
    assert ps[0] == items[..3];
    forall i | 0 <= i < |rest| ensures ps[i + 1] == rest[i] {
      PageItemsShift(items, i);
    }
  }

  /** Concatenating the pages gives back every item in order, and every page holds one to three items. */
  lemma {:induction false} PagesConcatenate<T>(items: seq<T>)
    ensures Concat(Pages(items)) == items
    ensures forall i :: 0 <= i < |Pages(items)| ==> 1 <= |Pages(items)[i]| <= ItemsPerPage
    decreases |items|
  {
    var ps := Pages(items);
    if |items| == 0 {
    } else if |items| <= 3 {
      assert TotalPages(|items|) == 1;
      assert ps[0] == items[0..|items|] == items;
      assert |ps| == 1;
      assert ps == [items];
      assert Concat(ps[1..]) == [];
    } else {
      PagesShift(items);
      PagesConcatenate(items[3..]);
      assert ps[1..] == Pages(items[3..]);
      assert items == items[..3] + items[3..];
    }
  }

  /**
   * `renderPageNumbers`: every page when there are at most five, otherwise
   * five consecutive pages — the first five near the start, the last five
   * near the end, else two on either side of the current page.
   */
  function Window(total: nat, current: int): (w: seq<int>)
    ensures |w| == if total <= MaxVisiblePages then total else MaxVisiblePages
    ensures forall i :: 0 <= i < |w| ==> 1 <= w[i] <= total
    ensures forall i :: 0 < i < |w| ==> w[i] == w[i - 1] + 1
    ensures 1 <= current <= total ==> current in w
  {
    if total <= MaxVisiblePages then
      var w := seq(total, i requires 0 <= i < total => i + 1);
      assert 1 <= current <= total ==> w[current - 1] == current;
      w
    else if current <= 3 then [1, 2, 3, 4, 5]
    else if current >= total - 2 then [total - 4, total - 3, total - 2, total - 1, total]
    else [current - 2, current - 1, current, current + 1, current + 2]
  }

  /** The ellipsis and the last-page link follow the window when there are more than five pages and the last is far. */
  predicate ShowEllipsis(total: nat, current: int) {
    total > MaxVisiblePages && current < total - 2
  }

  /** The ellipsis never repeats the last page, and without it the last page is in the window. */
  lemma LastPageLinkedOnce(total: nat, current: int)
    requires total >= 1
    ensures ShowEllipsis(total, current) ==> total !in Window(total, current)
    ensures !ShowEllipsis(total, current) ==> total in Window(total, current)
  {
    var w := Window(total, current);
    if !ShowEllipsis(total, current) {
      assert w[|w| - 1] == total;
    }
  }

  /**
   * The ellipsis stands for at least one hidden page exactly when the window
   * ends two or more pages before the last one; with six pages and the
   * current among the first three it hides nothing.
   */
  lemma EllipsisHidesPagesIff(total: nat, current: int)
    requires ShowEllipsis(total, current)
    ensures var w := Window(total, current);
            w[|w| - 1] < total - 1 <==> (current <= 3 && total > 6) || (3 < current < total - 3)
  {
  }

  /** `Math.max(1, currentPage - 1)`. */
  function Previous(current: int): (p: int)
    ensures p >= 1 && p <= (if current > 1 then current - 1 else 1)
  {
    if current - 1 > 1 then current - 1 else 1
  }

  /** `Math.min(totalPages, currentPage + 1)`. */
  function Next(total: nat, current: int): (p: int)
    ensures p <= total && p <= current + 1
  {
    if total < current + 1 then total else current + 1
  }

  /** The controls are rendered only when there is more than one page. */
  predicate ShowControls(total: nat) {
    total > 1
  }

  /** Every page a control of the windowed pagination leads to: previous, next, the window and the last-page link. */
  function Targets(total: nat, current: int): seq<int> {
    [Previous(current), Next(total, current)] + Window(total, current) + (if ShowEllipsis(total, current) then [total] else [])
  }

  /** From a page in range, every control leads to a page in range. */
  lemma TargetsStayInRange(total: nat, current: int)
    requires 1 <= current <= total
    ensures forall i :: 0 <= i < |Targets(total, current)| ==> 1 <= Targets(total, current)[i] <= total
  {
    var w := Window(total, current);
    var t := Targets(total, current);
    forall i | 0 <= i < |t| ensures 1 <= t[i] <= total {
      if 2 <= i < 2 + |w| {
        assert t[i] == w[i - 2];
      }
    }
  }

  /** The "Showing a-b of n" line: the first and last position shown. */
  function ShowingRange(n: nat, page: int): (r: (int, int)) {
    ((page - 1) * 3 + 1, if (page - 1) * 3 + 3 < n then (page - 1) * 3 + 3 else n)
  }

  /** On a page in range, the line counts exactly the items the page shows. */
  lemma ShowingRangeCountsPage<T>(items: seq<T>, page: int)
    requires 1 <= page <= TotalPages(|items|)
    ensures var (a, b) := ShowingRange(|items|, page);
            1 <= a <= b <= |items| && b - a + 1 == |PageItems(items, page)|
  {
  }

  /** `AllServicesSection`'s page links: every page from 1 to the total. */
  function PageList(total: nat): (ps: seq<int>)
    ensures |ps| == total
    ensures forall i :: 0 <= i < total ==> ps[i] == i + 1
  {
    seq(total, i requires 0 <= i < total => i + 1)
  }

  /** Up to five pages the windowed and the full page lists agree. */
  lemma WindowIsPageListWhenFew(total: nat, current: int)
    requires total <= MaxVisiblePages
    ensures Window(total, current) == PageList(total)
  {
  }
}

=== FILE: payments_models.dfy ===
/**
 * The `Payment` model of backend/payments/models.py: its status state
 * machine, the save-time validation and the QR-token assignment.  Amounts
 * are integer cents (the field is a two-decimal `Decimal`); timestamps are
 * opaque integers supplied by the caller.
 */
module PaymentsModels {
  import opened Wrappers

  /** `STATUS_CHOICES`. */
  datatype PaymentStatus = Pending | Processing | Paid | Failed | Cancelled | Refunded {
    /** The value stored in the `status` column. */
    function Code(): string {
      match this
      case Pending => "pending"
      case Processing => "processing"
      case Paid => "paid"
      case Failed => "failed"
      case Cancelled => "cancelled"
      case Refunded => "refunded"
    }
  }

  /** The choices in declaration order. */
  const StatusChoices: seq<PaymentStatus> := [Pending, Processing, Paid, Failed, Cancelled, Refunded]

  /** The status a stored code denotes; `None` for a value outside the choices. */
  function ParseStatus(code: string): Option<PaymentStatus> {
    if code == "pending" then Some(Pending)
    else if code == "processing" then Some(Processing)
    else if code == "paid" then Some(Paid)
    else if code == "failed" then Some(Failed)
    else if code == "cancelled" then Some(Cancelled)
    else if code == "refunded" then Some(Refunded)
    else None
  }

  /** Codes and statuses are in one-to-one correspondence, and the six choices are all the statuses. */
  lemma StatusCodeRoundTrip(s: PaymentStatus, code: string)
    ensures ParseStatus(s.Code()) == Some(s)
    ensures ParseStatus(code).Some? ==> ParseStatus(code).value.Code() == code
    ensures s in StatusChoices && |StatusChoices| == 6
  {
  }

  /** A payment row; `None` stands for a NULL column. */
  datatype Payment = Payment(
    id: string,
    bookingId: string,
    amountCents: int,
    status: PaymentStatus,
    qrToken: Option<string>,
    sessionId: Option<string>,
    intentId: Option<string>,
    paymentMethod: Option<string>,
    currency: string,
    paidAt: Option<int>)

  /** A payment as first constructed for a booking: the field defaults. */
  function NewPayment(id: string, bookingId: string, amountCents: int): (p: Payment)
    ensures p.status == Pending && p.currency == "USD"
    ensures p.qrToken.None? && p.intentId.None? && p.paymentMethod.None? && p.paidAt.None?
  {
    Payment(id, bookingId, amountCents, Pending, None, None, None, None, "USD", None)
  }

  /** Python truthiness of an optional string. */
  predicate Present(s: Option<string>) {
    s.Some? && s.value != ""
  }

  /** The save-time invariant: a positive amount and a three-character currency. */
  predicate Valid(p: Payment) {
    p.amountCents > 0 && |p.currency| == 3
  }

  /** `Payment.clean`: the amount check comes first, then the currency length. */
  function Clean(p: Payment): (r: Result<Payment, string>)
    ensures r.Ok? <==> Valid(p)
    ensures r.Ok? ==> r.value == p
    ensures p.amountCents <= 0 ==> r == Err("Payment amount must be positive")
    ensures p.amountCents > 0 && |p.currency| != 3 ==> r == Err("Currency must be 3 characters (ISO 4217)")
  {
    if p.amountCents <= 0 then Err("Payment amount must be positive")
    else if |p.currency| != 3 then Err("Currency must be 3 characters (ISO 4217)")
    else Ok(p)
  }

  /** The random draws: each a `token_urlsafe(32)`, 43 characters long. */
  predicate DrawsWellFormed(draws: seq<string>) {
    forall k :: 0 <= k < |draws| ==> |draws[k]| == 43
  }

  /** Some draw is not yet held by a payment. */
  predicate HasFreeDraw(draws: seq<string>, taken: set<string>) {
    exists k :: 0 <= k < |draws| && draws[k] !in taken
  }

  /**
   * `_generate_qr_token`: draws tokens until one is not held by an existing
   * payment.  The random draws are the sequence `draws`; the source loops
   * until it finds a free one, which the precondition makes available.
   */
  function GenerateQrToken(draws: seq<string>, taken: set<string>): (token: string)
    requires DrawsWellFormed(draws)
    requires HasFreeDraw(draws, taken)
    ensures token !in taken && 0 < |token| <= 64
    ensures exists k :: 0 <= k < |draws| && draws[k] == token && forall j :: 0 <= j < k ==> draws[j] in taken
  {
    if draws[0] !in taken then draws[0]
    else
      assert forall k :: 1 <= k < |draws| ==> draws[k] == draws[1..][k - 1];
      GenerateQrToken(draws[1..], taken)
  }

  /**
   * `Payment.save`: a missing or empty QR token is replaced by a fresh one,
   * then `clean` runs, and the row is stored only when it passes.
   */
  function Save(p: Payment, draws: seq<string>, taken: set<string>): (r: Result<Payment, string>)
    requires DrawsWellFormed(draws)
    requires !Present(p.qrToken) ==> HasFreeDraw(draws, taken)
    ensures r.Ok? <==> Valid(p)
    ensures r.Err? ==> r == Clean(p)
    ensures r.Ok? ==> Valid(r.value) && Present(r.value.qrToken)
    ensures r.Ok? && Present(p.qrToken) ==> r.value == p
    ensures r.Ok? && !Present(p.qrToken) ==>
              r.value == p.(qrToken := r.value.qrToken) && r.value.qrToken.value !in taken
  {
    if Present(p.qrToken) then Clean(p)
    else Clean(p.(qrToken := Some(GenerateQrToken(draws, taken))))
  }

  /** What the `save` a transition ends with may need: well-formed draws, and a free one when the row has no token. */
  predicate CanSave(p: Payment, draws: seq<string>, taken: set<string>) {
    DrawsWellFormed(draws) && (!Present(p.qrToken) ==> HasFreeDraw(draws, taken))
  }

  /**
   * `mark_as_paid`: status paid at `now`, the intent id and method
   * overwritten only by truthy arguments, then `save`.  The save assigns a
   * token to a row without one and fails on a row `clean` rejects.
   */
  function MarkAsPaid(p: Payment, now: int, intentId: Option<string>, paymentMethod: Option<string>,
                      draws: seq<string>, taken: set<string>): (r: Result<Payment, string>)
    requires CanSave(p, draws, taken)
    ensures r.Ok? <==> Valid(p)
    ensures r.Err? ==> r == Clean(p)
    ensures r.Ok? ==> r.value.status == Paid && r.value.paidAt == Some(now)
    ensures r.Ok? ==> r.value.intentId == (if Present(intentId) then intentId else p.intentId)
    ensures r.Ok? ==> r.value.paymentMethod == (if Present(paymentMethod) then paymentMethod else p.paymentMethod)
    ensures r.Ok? ==> Present(r.value.qrToken) && (Present(p.qrToken) ==> r.value.qrToken == p.qrToken)
    ensures r.Ok? && !Present(p.qrToken) ==> r.value.qrToken.value !in taken
    ensures r.Ok? ==> r.value.(status := p.status, paidAt := p.paidAt, intentId := p.intentId,
                               paymentMethod := p.paymentMethod, qrToken := p.qrToken) == p
  {
    var q := p.(status := Paid, paidAt := Some(now));
    var q := if Present(intentId) then q.(intentId := intentId) else q;
    Save(if Present(paymentMethod) then q.(paymentMethod := paymentMethod) else q, draws, taken)
  }

  /** `mark_as_failed`: unconditionally failed, then `save`. */
  function MarkAsFailed(p: Payment, draws: seq<string>, taken: set<string>): (r: Result<Payment, string>)
    requires CanSave(p, draws, taken)
    ensures r.Ok? <==> Valid(p)
    ensures r.Err? ==> r == Clean(p)
    ensures r.Ok? ==> r.value.status == Failed && Present(r.value.qrToken)
    ensures r.Ok? ==> r.value.(status := p.status, qrToken := p.qrToken) == p
    ensures r.Ok? && Present(p.qrToken) ==> r.value.qrToken == p.qrToken
  {
    Save(p.(status := Failed), draws, taken)
  }

  predicate IsPaid(p: Payment) {
    p.status == Paid
  }

  predicate IsPending(p: Payment) {
    p.status == Pending
  }

  predicate CanCancel(p: Payment) {
    p.status in {Pending, Processing}
  }

  predicate CanRefund(p: Payment) {
    p.status == Paid
  }

  /** `cancel`: pending or processing become cancelled and are saved; any other payment is left as it is, unsaved. */
  function Cancel(p: Payment, draws: seq<string>, taken: set<string>): (r: Result<Payment, string>)
    requires CanSave(p, draws, taken)
    ensures !CanCancel(p) ==> r == Ok(p)
    ensures CanCancel(p) ==> (r.Ok? <==> Valid(p)) && (r.Err? ==> r == Clean(p))
    ensures CanCancel(p) && r.Ok? ==>
              r.value.status == Cancelled && Present(r.value.qrToken)
              && r.value.(status := p.status, qrToken := p.qrToken) == p
              && (Present(p.qrToken) ==> r.value.qrToken == p.qrToken)
  {
    if p.status == Pending || p.status == Processing then Save(p.(status := Cancelled), draws, taken) else Ok(p)
  }

  /** `refund`: paid becomes refunded and is saved; any other payment is left as it is, unsaved. */
  function Refund(p: Payment, draws: seq<string>, taken: set<string>): (r: Result<Payment, string>)
    requires CanSave(p, draws, taken)
    ensures !CanRefund(p) ==> r == Ok(p)
    ensures CanRefund(p) ==> (r.Ok? <==> Valid(p)) && (r.Err? ==> r == Clean(p))
    ensures CanRefund(p) && r.Ok? ==>
              r.value.status == Refunded && Present(r.value.qrToken)
              && r.value.(status := p.status, qrToken := p.qrToken) == p
              && (Present(p.qrToken) ==> r.value.qrToken == p.qrToken)
  {
    if p.status == Paid then Save(p.(status := Refunded), draws, taken) else Ok(p)
  }

  /** The guarded transitions are idempotent: repeating one on its saved result changes nothing. */
  lemma GuardedTransitionsIdempotent(p: Payment, draws: seq<string>, taken: set<string>)
    requires CanSave(p, draws, taken)
    ensures Cancel(p, draws, taken).Ok? ==>
              Cancel(Cancel(p, draws, taken).value, draws, taken) == Cancel(p, draws, taken)
    ensures Refund(p, draws, taken).Ok? ==>
              Refund(Refund(p, draws, taken).value, draws, taken) == Refund(p, draws, taken)
  {
  }

  /** The predicates say exactly when a guarded transition has an effect, and the two guards exclude each other. */
  lemma PredicatesMatchTransitions(p: Payment, draws: seq<string>, taken: set<string>)
    requires CanSave(p, draws, taken)
    ensures CanCancel(p) <==> Cancel(p, draws, taken) != Ok(p)
    ensures CanRefund(p) <==> Refund(p, draws, taken) != Ok(p)
    ensures CanRefund(p) <==> IsPaid(p)
    ensures !(CanCancel(p) && CanRefund(p))
    ensures IsPending(p) ==> CanCancel(p)
  {
  }

  /**
   * From a valid payment every transition's `save` succeeds and keeps the
   * row valid; a row that already has a token keeps it.
   */
  lemma TransitionsKeepValid(p: Payment, now: int, intentId: Option<string>, paymentMethod: Option<string>,
                             draws: seq<string>, taken: set<string>)
    requires Valid(p) && CanSave(p, draws, taken)
    ensures MarkAsPaid(p, now, intentId, paymentMethod, draws, taken).Ok?
            && Valid(MarkAsPaid(p, now, intentId, paymentMethod, draws, taken).value)
    ensures MarkAsFailed(p, draws, taken).Ok? && Valid(MarkAsFailed(p, draws, taken).value)
    ensures Cancel(p, draws, taken).Ok? && Valid(Cancel(p, draws, taken).value)
    ensures Refund(p, draws, taken).Ok? && Valid(Refund(p, draws, taken).value)
  {
  }
}

=== FILE: payments_views.dfy ===
/**
 * The decision logic of backend/payments/views.py: the ordered checks of
 * `create_stripe_checkout_session` as written and with the amount rule it
 * states, the dispatch of
 * `stripe_webhook` and the owner check of `payment_qr_data`.  Stripe is an
 * external service: the outcome of creating a session and of verifying a
 * webhook signature are inputs.  The payment and booking tables are
 * sequences of rows.
 */
module PaymentsViews {
  import opened Wrappers
  import opened Assoc
  import opened Text
  import opened CoreUtils
  import opened PaymentsModels
  import BookingsModels

  type Booking = BookingsModels.Booking
  type IdLookup = BookingsModels.IdLookup

  /** A lookup by a canonical id, as foreign keys hold. */
  function BookingById(bookings: seq<Booking>, id: string): Option<Booking> {
    BookingsModels.BookingById(bookings, id)
  }

  /** `Booking.objects.get(id=raw)` for an id the client sent, which the UUID field parses first. */
  function FindBooking(bookings: seq<Booking>, raw: string): IdLookup {
    BookingsModels.FindBooking(bookings, raw)
  }

  /**
   * The text of the `ValidationError` a malformed UUID raises: Python's
   * `str` of the list holding its one message, which quotes the value in
   * curly double quotes.
   */
  function InvalidUuidText(raw: string): string {
    "['\U{201C}" + raw + "\U{201D} is not a valid UUID.']"
  }

  /** `Payment.objects.get(id=...)`: the payment with that id, `None` for `DoesNotExist`. */
  function PaymentById(payments: seq<Payment>, id: string): (r: Option<Payment>)
    ensures r.Some? <==> exists i :: 0 <= i < |payments| && payments[i].id == id
    ensures r.Some? ==> r.value.id == id && r.value in payments
  {
    FindBy(payments, (p: Payment) => p.id, id)
  }

  /** Truthiness of a two-decimal `Decimal` held in cents: NULL and zero are falsy. */
  predicate NonZero(cents: Option<int>) {
    cents.Some? && cents.value != 0
  }

  /**
   * The amount rule the view states: the provider's quote when it is set,
   * else the budget, in cents (`int(x * 100)` is exact on a two-decimal
   * value); `None` when neither is set.
   */
  function AmountRule(quoteCents: Option<int>, budgetCents: Option<int>): (r: Option<int>)
    ensures r.Some? <==> NonZero(quoteCents) || NonZero(budgetCents)
    ensures r.Some? ==> r.value != 0
    ensures NonZero(quoteCents) ==> r == quoteCents
    ensures !NonZero(quoteCents) && NonZero(budgetCents) ==> r == budgetCents
  {
    if NonZero(quoteCents) then quoteCents
    else if NonZero(budgetCents) then budgetCents
    else None
  }

  /** The parameters of `stripe.checkout.Session.create` that depend on the request. */
  datatype SessionParams = SessionParams(
    currency: string,
    unitAmount: int,
    quantity: nat,
    metadata: seq<(string, string)>)

  /** What the checkout view does before talking to Stripe: answer at once, or ask for a session. */
  datatype CheckoutStep = Respond(response: Response) | CreateSession(params: SessionParams)

  /** The plain (non-envelope) response sent when no secret key is configured. */
  const MissingKeyResponse: Response :=
    Response(HTTP_500_INTERNAL_SERVER_ERROR, JObj([("error", JStr("Stripe secret key not configured"))]), map[])

  /** The generic handler's answer to the `AttributeError` that reading `booking.provider_quote` raises. */
  const QuoteReadFailure: Response :=
    ErrorResponse("Internal error: " + BookingsModels.NoAttributeText("provider_quote"), HTTP_500_INTERNAL_SERVER_ERROR)

  /** `provider_quote` is none of the attributes of a `Booking`. */
  lemma QuoteIsNoAttribute()
    ensures "provider_quote" !in BookingsModels.BookingAttributes
  {
  }

  /**
   * The checks before the price: the booking id is required, an id that
   * is no UUID makes the lookup raise a `ValidationError` (which the
   * view's generic handler turns into a 500), and the booking must exist.
   */
  function LookupStep(bookingId: Option<string>, bookings: seq<Booking>): (r: Result<Booking, Response>)
    ensures !Present(bookingId) ==> r == Err(ErrorResponse("booking_id is required", HTTP_400_BAD_REQUEST))
    ensures Present(bookingId) && FindBooking(bookings, bookingId.value).Malformed? ==>
              r == Err(ErrorResponse("Internal error: " + InvalidUuidText(bookingId.value), HTTP_500_INTERNAL_SERVER_ERROR))
    ensures Present(bookingId) && FindBooking(bookings, bookingId.value).Missing? ==>
              r == Err(ErrorResponse("Booking not found", HTTP_404_NOT_FOUND))
    ensures r.Ok? <==> Present(bookingId) && FindBooking(bookings, bookingId.value).Found?
    ensures r.Ok? ==> r.value == FindBooking(bookings, bookingId.value).booking
  {
    if !Present(bookingId) then Err(ErrorResponse("booking_id is required", HTTP_400_BAD_REQUEST))
    else match FindBooking(bookings, bookingId.value)
      case Malformed =>
        Err(ErrorResponse("Internal error: " + InvalidUuidText(bookingId.value), HTTP_500_INTERNAL_SERVER_ERROR))
      case Missing => Err(ErrorResponse("Booking not found", HTTP_404_NOT_FOUND))
      case Found(booking) => Ok(booking)
  }

  /**
   * `create_stripe_checkout_session` as written, up to Stripe.  Once a
   * booking is found, the amount rule reads `booking.provider_quote`,
   * which a `Booking` does not have: the read raises `AttributeError`
   * and the generic handler answers 500, so the price, the secret key
   * and Stripe are never reached.  The ownership check is disabled in the
   * source, so the requester plays no part.
   */
  function CheckoutDecision(bookingId: Option<string>, requester: string, bookings: seq<Booking>,
                            secretKey: Option<string>): (d: CheckoutStep)
    ensures d.Respond?
    ensures LookupStep(bookingId, bookings).Err? ==> d.response == LookupStep(bookingId, bookings).error
    ensures Present(bookingId) && FindBooking(bookings, bookingId.value).Found? ==> d.response == QuoteReadFailure
  {
    match LookupStep(bookingId, bookings)
    case Err(response) => Respond(response)
    case Ok(_) => Respond(QuoteReadFailure)
  }

  /**
   * The checkout with the quote the amount rule expects: `quoteOf` stands
   * for the booking's `provider_quote`, which the model does not have
   * (a quote that is always `None` is `getattr(booking, "provider_quote",
   * None)`).  The id, the booking, the amount and the secret key are
   * checked in the source's order; the `booking_id` metadata is the text
   * as sent, and the requester only fills the `user_id` metadata.
   */
  function FixedCheckoutDecision(bookingId: Option<string>, requester: string, bookings: seq<Booking>,
                                 quoteOf: Booking -> Option<int>, secretKey: Option<string>): (d: CheckoutStep)
    ensures LookupStep(bookingId, bookings).Err? ==> d == Respond(LookupStep(bookingId, bookings).error)
    ensures d == Respond(ErrorResponse("No price available for this booking", HTTP_400_BAD_REQUEST)) <==>
              Present(bookingId) && FindBooking(bookings, bookingId.value).Found?
              && FixedAmount(FindBooking(bookings, bookingId.value).booking, quoteOf).None?
    ensures d == Respond(MissingKeyResponse) <==>
              Present(bookingId) && FindBooking(bookings, bookingId.value).Found?
              && FixedAmount(FindBooking(bookings, bookingId.value).booking, quoteOf).Some? && !Present(secretKey)
    ensures d.CreateSession? <==>
              Present(bookingId) && FindBooking(bookings, bookingId.value).Found?
              && FixedAmount(FindBooking(bookings, bookingId.value).booking, quoteOf).Some? && Present(secretKey)
    ensures d.CreateSession? ==>
              d.params == SessionParams("usd", FixedAmount(FindBooking(bookings, bookingId.value).booking, quoteOf).value, 1,
                                        [("booking_id", bookingId.value), ("user_id", requester)])
  {
    match LookupStep(bookingId, bookings)
    case Err(response) => Respond(response)
    case Ok(booking) =>
      match FixedAmount(booking, quoteOf)
      case None => Respond(ErrorResponse("No price available for this booking", HTTP_400_BAD_REQUEST))
      case Some(amount) =>
        if !Present(secretKey) then Respond(MissingKeyResponse)
        else CreateSession(SessionParams("usd", amount, 1, [("booking_id", bookingId.value), ("user_id", requester)]))
  }

  /** The corrected checkout's amount: the amount rule on the quote and the budget. */
  function FixedAmount(b: Booking, quoteOf: Booking -> Option<int>): Option<int> {
    AmountRule(quoteOf(b), b.budgetCents)
  }

  /** What `stripe.checkout.Session.create` did: a session, a `StripeError`, or any other exception. */
  datatype StripeOutcome = Created(url: string, sessionId: string) | StripeFailure(message: string) | OtherFailure(message: string)

  /** The response once Stripe's outcome is known, for a step that asked for a session. */
  function Complete(d: CheckoutStep, outcome: StripeOutcome): (r: Response)
    ensures d.Respond? ==> r == d.response
    ensures d.CreateSession? && outcome.Created? ==>
              r.status == HTTP_200_OK
              && Field(r.body, "message") == Some(JStr("Stripe checkout session created successfully"))
              && Field(r.body, "data") ==
                   Some(JObj([("checkout_url", JStr(outcome.url)), ("session_id", JStr(outcome.sessionId))]))
    ensures d.CreateSession? && outcome.StripeFailure? ==>
              r == ErrorResponse("Stripe error: " + outcome.message, HTTP_400_BAD_REQUEST)
    ensures d.CreateSession? && outcome.OtherFailure? ==>
              r == ErrorResponse("Internal error: " + outcome.message, HTTP_500_INTERNAL_SERVER_ERROR)
  {
    match d
    case Respond(response) => response
    case CreateSession(_) =>
      match outcome
      case Created(url, id) =>
        SuccessResponse(JObj([("checkout_url", JStr(url)), ("session_id", JStr(id))]),
                        "Stripe checkout session created successfully")
      case StripeFailure(m) => ErrorResponse("Stripe error: " + m, HTTP_400_BAD_REQUEST)
      case OtherFailure(m) => ErrorResponse("Internal error: " + m, HTTP_500_INTERNAL_SERVER_ERROR)
  }

  /** `create_stripe_checkout_session` as written: Stripe's outcome is never consulted. */
  function Checkout(bookingId: Option<string>, requester: string, bookings: seq<Booking>, secretKey: Option<string>,
                    outcome: StripeOutcome): (r: Response)
    ensures r == CheckoutDecision(bookingId, requester, bookings, secretKey).response
    ensures r.status != HTTP_200_OK
  {
    Complete(CheckoutDecision(bookingId, requester, bookings, secretKey), outcome)
  }

  /** The corrected checkout, completed by Stripe's outcome when a session was requested. */
  function FixedCheckout(bookingId: Option<string>, requester: string, bookings: seq<Booking>,
                         quoteOf: Booking -> Option<int>, secretKey: Option<string>, outcome: StripeOutcome): (r: Response)
    ensures var d := FixedCheckoutDecision(bookingId, requester, bookings, quoteOf, secretKey);
            (d.Respond? ==> r == d.response)
            && (d.CreateSession? && outcome.Created? ==> r.status == HTTP_200_OK)
            && (d.CreateSession? && outcome.StripeFailure? ==>
                  r == ErrorResponse("Stripe error: " + outcome.message, HTTP_400_BAD_REQUEST))
            && (d.CreateSession? && outcome.OtherFailure? ==>
                  r == ErrorResponse("Internal error: " + outcome.message, HTTP_500_INTERNAL_SERVER_ERROR))
  {
    Complete(FixedCheckoutDecision(bookingId, requester, bookings, quoteOf, secretKey), outcome)
  }

  /**
   * As written, every request that names an existing booking fails with
   * the 500 of the missing `provider_quote` attribute, whatever the
   * booking's budget, the secret key and Stripe's outcome.
   */
  lemma AsWrittenCheckoutFails(bookingId: string, requester: string, bookings: seq<Booking>, secretKey: Option<string>,
                               outcome: StripeOutcome)
    requires bookingId != "" && FindBooking(bookings, bookingId).Found?
    ensures "provider_quote" !in BookingsModels.BookingAttributes
    ensures Checkout(Some(bookingId), requester, bookings, secretKey, outcome) == QuoteReadFailure
    ensures QuoteReadFailure.status == HTTP_500_INTERNAL_SERVER_ERROR
  {
    QuoteIsNoAttribute();
  }

  /** The correction changes only what happens to a found booking. */
  lemma FixedCheckoutAgreesWithoutBooking(bookingId: Option<string>, requester: string, bookings: seq<Booking>,
                                          quoteOf: Booking -> Option<int>, secretKey: Option<string>, outcome: StripeOutcome)
    requires !(Present(bookingId) && FindBooking(bookings, bookingId.value).Found?)
    ensures FixedCheckout(bookingId, requester, bookings, quoteOf, secretKey, outcome)
            == Checkout(bookingId, requester, bookings, secretKey, outcome)
  {
  }

  /**
   * Checkout does not depend on who asks: as written, any two requesters
   * get the same answer; corrected, the same verdict, and session requests
   * that differ only in the `user_id` metadata.
   */
  lemma CheckoutIgnoresOwnership(bookingId: Option<string>, u1: string, u2: string, bookings: seq<Booking>,
                                 quoteOf: Booking -> Option<int>, secretKey: Option<string>)
    ensures CheckoutDecision(bookingId, u1, bookings, secretKey) == CheckoutDecision(bookingId, u2, bookings, secretKey)
    ensures var d1 := FixedCheckoutDecision(bookingId, u1, bookings, quoteOf, secretKey);
            var d2 := FixedCheckoutDecision(bookingId, u2, bookings, quoteOf, secretKey);
            (d1.CreateSession? <==> d2.CreateSession?)
            && (d1.Respond? ==> d1 == d2)
            && (d1.CreateSession? ==> d1.params.(metadata := d2.params.metadata) == d2.params
                                       && d1.params.metadata[0] == d2.params.metadata[0])
  {
  }

  /** Corrected, a missing secret key is reported only for a booking that has a price: the amount is computed first. */
  lemma MissingKeyOnlyWithPrice(bookingId: Option<string>, requester: string, bookings: seq<Booking>,
                                quoteOf: Booking -> Option<int>, secretKey: Option<string>)
    requires Present(bookingId) && FindBooking(bookings, bookingId.value).Found?
    requires FixedAmount(FindBooking(bookings, bookingId.value).booking, quoteOf).None?
    ensures FixedCheckoutDecision(bookingId, requester, bookings, quoteOf, secretKey) ==
              FixedCheckoutDecision(bookingId, requester, bookings, quoteOf, None)
    ensures FixedCheckoutDecision(bookingId, requester, bookings, quoteOf, secretKey).response.status == HTTP_400_BAD_REQUEST
  {
  }

  /** Corrected, the session's amount is the quote whenever the booking has one, whatever its budget. */
  lemma QuoteTakesPrecedence(bookingId: string, requester: string, bookings: seq<Booking>,
                             quoteOf: Booking -> Option<int>, secretKey: string)
    requires bookingId != "" && secretKey != ""
    requires FindBooking(bookings, bookingId).Found?
    requires NonZero(quoteOf(FindBooking(bookings, bookingId).booking))
    ensures FixedCheckoutDecision(Some(bookingId), requester, bookings, quoteOf, Some(secretKey)).CreateSession?
    ensures FixedCheckoutDecision(Some(bookingId), requester, bookings, quoteOf, Some(secretKey)).params.unitAmount ==
              quoteOf(FindBooking(bookings, bookingId).booking).value
  {
  }

  /**
   * An id that is no UUID, such as "test", fails before the amount and the
   * secret key are looked at: a 500 carrying the validation message, as
   * written and corrected.
   */
  lemma MalformedBookingIdIsInternalError(raw: string, requester: string, bookings: seq<Booking>,
                                          quoteOf: Booking -> Option<int>, secretKey: Option<string>)
    requires raw != "" && 'u' !in raw && '-' !in raw && '{' !in raw && '}' !in raw && |raw| != 32
    ensures CheckoutDecision(Some(raw), requester, bookings, secretKey) ==
              Respond(ErrorResponse("Internal error: " + InvalidUuidText(raw), HTTP_500_INTERNAL_SERVER_ERROR))
    ensures FixedCheckoutDecision(Some(raw), requester, bookings, quoteOf, secretKey) ==
              CheckoutDecision(Some(raw), requester, bookings, secretKey)
  {
    BookingsModels.TestIdIsMalformed(bookings, raw);
  }

  /**
   * Two spellings of one UUID (hyphens, braces, letter case) get the same
   * answer as written; corrected, the same verdict, and session requests
   * that differ only in the `booking_id` metadata, which keeps the
   * spelling that was sent.
   */
  lemma CheckoutAcceptsAnySpelling(raw1: string, raw2: string, requester: string, bookings: seq<Booking>,
                                   quoteOf: Booking -> Option<int>, secretKey: Option<string>)
    requires raw1 != "" && raw2 != ""
    requires BookingsModels.ParseUuid(raw1).Some? && BookingsModels.ParseUuid(raw1) == BookingsModels.ParseUuid(raw2)
    ensures CheckoutDecision(Some(raw1), requester, bookings, secretKey) ==
            CheckoutDecision(Some(raw2), requester, bookings, secretKey)
    ensures var d1 := FixedCheckoutDecision(Some(raw1), requester, bookings, quoteOf, secretKey);
            var d2 := FixedCheckoutDecision(Some(raw2), requester, bookings, quoteOf, secretKey);
            (d1.Respond? ==> d1 == d2)
            && (d1.CreateSession? <==> d2.CreateSession?)
            && (d1.CreateSession? ==> d1.params.(metadata := d2.params.metadata) == d2.params
                                       && d1.params.metadata[0] == ("booking_id", raw1))
  {
    BookingsModels.SpellingsFindSameBooking(bookings, raw1, raw2);
  }

  // ---------------------------------------------------------------- webhook

  /** The parts of a verified Stripe event the handler reads; missing metadata is an empty list. */
  datatype StripeEvent = StripeEvent(eventType: string, metadata: seq<(string, string)>, paymentIntent: Option<string>)

  /** What `stripe.Webhook.construct_event` did. */
  datatype Verification =
    | Verified(event: StripeEvent)
    | InvalidPayload                      // ValueError
    | InvalidSignature                    // SignatureVerificationError
    | VerificationFailed(message: string) // any other exception

  /** A payment whose booking belongs to the user (`booking__user_id=user_id`). */
  predicate OwnedBy(p: Payment, bookings: seq<Booking>, user: string) {
    BookingById(bookings, p.bookingId).Some? && BookingById(bookings, p.bookingId).value.userId == user
  }

  /** The positions from `from` on whose flag is set, in ascending order. */
  function Positions(flags: seq<bool>, from: nat): seq<nat>
    requires from <= |flags|
    decreases |flags| - from
  {
    if from == |flags| then []
    else (if flags[from] then [from] else []) + Positions(flags, from + 1)
  }

  /** Every listed position is a set flag from `from` on. */
  lemma {:induction false} PositionsSound(flags: seq<bool>, from: nat)
    requires from <= |flags|
    ensures forall k :: 0 <= k < |Positions(flags, from)| ==>
              from <= Positions(flags, from)[k] < |flags| && flags[Positions(flags, from)[k]]
    decreases |flags| - from
  {
    if from < |flags| {
      PositionsSound(flags, from + 1);
      var rest := Positions(flags, from + 1);
      var head: seq<nat> := if flags[from] then [from] else [];
      assert Positions(flags, from) == head + rest;
    }
  }

  /** Every set flag from `from` on is listed. */
  lemma {:induction false} PositionsComplete(flags: seq<bool>, from: nat)
    requires from <= |flags|
    ensures forall i :: from <= i < |flags| && flags[i] ==> i in Positions(flags, from)
    decreases |flags| - from
  {
    if from < |flags| {
      PositionsComplete(flags, from + 1);
      var rest := Positions(flags, from + 1);
      var head: seq<nat> := if flags[from] then [from] else [];
      var ix := head + rest;
      assert Positions(flags, from) == ix;
      forall i | from <= i < |flags| && flags[i] ensures i in ix {
        if i == from {
          assert ix[0] == from;
        } else {
          assert i in rest;
        }
      }
    }
  }

  /** The listed positions ascend. */
  lemma {:induction false} PositionsAscend(flags: seq<bool>, from: nat)
    requires from <= |flags|
    ensures forall k, l :: 0 <= k < l < |Positions(flags, from)| ==> Positions(flags, from)[k] < Positions(flags, from)[l]
    decreases |flags| - from
  {
    if from < |flags| {
      PositionsAscend(flags, from + 1);
      PositionsSound(flags, from + 1);
      var rest := Positions(flags, from + 1);
      var head: seq<nat> := if flags[from] then [from] else [];
      var ix := head + rest;
      assert Positions(flags, from) == ix;
      forall k, l | 0 <= k < l < |ix| ensures ix[k] < ix[l] {
        assert ix[l] == rest[l - |head|];
        if k >= |head| {
          assert ix[k] == rest[k - |head|];
        }
      }
    }
  }

  /** The positions of the user's payments, in ascending order. */
  function OwnedIndices(payments: seq<Payment>, bookings: seq<Booking>, user: string): (ix: seq<nat>)
    ensures forall k :: 0 <= k < |ix| ==> ix[k] < |payments| && OwnedBy(payments[ix[k]], bookings, user)
    ensures forall i :: 0 <= i < |payments| && OwnedBy(payments[i], bookings, user) ==> i in ix
    ensures forall k, l :: 0 <= k < l < |ix| ==> ix[k] < ix[l]
  {
    var flags := seq(|payments|, i requires 0 <= i < |payments| => OwnedBy(payments[i], bookings, user));
    PositionsSound(flags, 0);
    PositionsComplete(flags, 0);
    PositionsAscend(flags, 0);
    Positions(flags, 0)
  }

  /** The QR tokens the stored payments hold: the uniqueness check of `_generate_qr_token` looks among them. */
  function TokensOf(payments: seq<Payment>): (t: set<string>)
    ensures forall i :: 0 <= i < |payments| && Present(payments[i].qrToken) ==> payments[i].qrToken.value in t
    ensures forall x :: x in t ==> exists i :: 0 <= i < |payments| && payments[i].qrToken == Some(x)
  {
    set i | 0 <= i < |payments| && Present(payments[i].qrToken) :: payments[i].qrToken.value
  }

  /** Every stored payment carries a QR token: each went through `save`, which assigns one. */
  predicate TokensAssigned(payments: seq<Payment>) {
    forall i :: 0 <= i < |payments| ==> Present(payments[i].qrToken)
  }

  /**
   * What saving any one payment of the table may need: well-formed random
   * draws, and a draw no stored payment holds unless every payment already
   * has its token.
   */
  predicate CanStore(payments: seq<Payment>, draws: seq<string>) {
    DrawsWellFormed(draws) && (TokensAssigned(payments) || HasFreeDraw(draws, TokensOf(payments)))
  }

  /** No two stored payments share a QR token (the column is unique). */
  predicate DistinctTokens(payments: seq<Payment>) {
    forall i, j :: 0 <= i < |payments| && 0 <= j < |payments| && i != j && Present(payments[i].qrToken) ==>
      payments[i].qrToken != payments[j].qrToken
  }

  /** The success body of the webhook: `{'status': 'success'}` with status 200. */
  const WebhookAck: Response := Response(HTTP_200_OK, JObj([("status", JStr("success"))]), map[])

  /**
   * `checkout.session.completed`: with both ids in the metadata, the single
   * payment of the user named by `user_id` is marked paid by Stripe and
   * saved.  No payment and several payments (`DoesNotExist`,
   * `MultipleObjectsReturned`) and a save that fails validation are
   * swallowed, leaving the table as it was.  The `booking_id` is only
   * checked for presence.
   */
  function CompleteSession(e: StripeEvent, payments: seq<Payment>, bookings: seq<Booking>, now: int,
                           draws: seq<string>): seq<Payment>
    requires CanStore(payments, draws)
  {
    var bookingId := Find(e.metadata, "booking_id");
    var userId := Find(e.metadata, "user_id");
    if !(Present(bookingId) && Present(userId)) then payments
    else
      var ix := OwnedIndices(payments, bookings, userId.value);
      if |ix| != 1 then payments
      else
        match MarkAsPaid(payments[ix[0]], now, e.paymentIntent, Some("stripe"), draws, TokensOf(payments))
        case Ok(paid) => payments[ix[0] := paid]
        case Err(_) => payments
  }

  /** `stripe_webhook`: the response and the payment table afterwards. */
  function StripeWebhook(signature: Option<string>, verification: Verification, payments: seq<Payment>,
                         bookings: seq<Booking>, now: int, draws: seq<string>): (r: (Response, seq<Payment>))
    requires CanStore(payments, draws)
    ensures !Present(signature) ==> r == (ErrorResponse("No signature provided", 400), payments)
    ensures Present(signature) && verification.InvalidPayload? ==> r == (ErrorResponse("Invalid payload", 400), payments)
    ensures Present(signature) && verification.InvalidSignature? ==> r == (ErrorResponse("Invalid signature", 400), payments)
    ensures Present(signature) && verification.VerificationFailed? ==>
              r == (ErrorResponse("Webhook verification failed: " + verification.message, 400), payments)
    ensures Present(signature) && verification.Verified? ==> r.0 == WebhookAck
    ensures verification.Verified? && verification.event.eventType != "checkout.session.completed" ==> r.1 == payments
    ensures |r.1| == |payments|
  {
    if !Present(signature) then (ErrorResponse("No signature provided", 400), payments)
    else match verification
      case InvalidPayload => (ErrorResponse("Invalid payload", 400), payments)
      case InvalidSignature => (ErrorResponse("Invalid signature", 400), payments)
      case VerificationFailed(m) => (ErrorResponse("Webhook verification failed: " + m, 400), payments)
      case Verified(e) =>
        if e.eventType == "checkout.session.completed" then (WebhookAck, CompleteSession(e, payments, bookings, now, draws))
        else (WebhookAck, payments)
  }

  /** A completed session without both metadata ids changes no payment. */
  lemma MissingMetadataChangesNothing(signature: Option<string>, e: StripeEvent, payments: seq<Payment>,
                                      bookings: seq<Booking>, now: int, draws: seq<string>)
    requires CanStore(payments, draws)
    requires !Present(Find(e.metadata, "booking_id")) || !Present(Find(e.metadata, "user_id"))
    ensures StripeWebhook(signature, Verified(e), payments, bookings, now, draws).1 == payments
  {
  }

  /**
   * With both ids present and exactly one payment of that user, that
   * payment (and only it) becomes paid by Stripe with the session's intent,
   * keeping its QR token or receiving one no other payment holds; which
   * booking the metadata names plays no part.
   */
  lemma CompletedSessionMarksUsersPayment(signature: string, e: StripeEvent, payments: seq<Payment>,
                                          bookings: seq<Booking>, now: int, draws: seq<string>, i: nat)
    requires CanStore(payments, draws)
    requires signature != "" && e.eventType == "checkout.session.completed"
    requires Present(Find(e.metadata, "booking_id")) && Present(Find(e.metadata, "user_id"))
    requires i < |payments| && Valid(payments[i])
    requires OwnedIndices(payments, bookings, Find(e.metadata, "user_id").value) == [i]
    ensures var after := StripeWebhook(Some(signature), Verified(e), payments, bookings, now, draws).1;
            after == payments[i := MarkAsPaid(payments[i], now, e.paymentIntent, Some("stripe"), draws,
                                              TokensOf(payments)).value]
            && after[i].status == Paid && after[i].paymentMethod == Some("stripe")
            && after[i].paidAt == Some(now) && Present(after[i].qrToken)
            && (Present(payments[i].qrToken) ==> after[i].qrToken == payments[i].qrToken)
            && (!Present(payments[i].qrToken) ==> after[i].qrToken.value !in TokensOf(payments))
  {
    TransitionsKeepValid(payments[i], now, e.paymentIntent, Some("stripe"), draws, TokensOf(payments));
  }

  /** Whatever the event, the only payment the webhook can change belongs to the user named in the metadata. */
  lemma WebhookChangesOnlyThatUsersPayment(signature: Option<string>, v: Verification, payments: seq<Payment>,
                                           bookings: seq<Booking>, now: int, draws: seq<string>, j: nat)
    requires CanStore(payments, draws)
    requires j < |payments|
    requires StripeWebhook(signature, v, payments, bookings, now, draws).1[j] != payments[j]
    ensures v.Verified? && v.event.eventType == "checkout.session.completed"
    ensures Present(Find(v.event.metadata, "user_id"))
    ensures OwnedBy(payments[j], bookings, Find(v.event.metadata, "user_id").value)
    ensures StripeWebhook(signature, v, payments, bookings, now, draws).1[j].status == Paid
  {
    var ix := OwnedIndices(payments, bookings, Find(v.event.metadata, "user_id").value);
    assert |ix| == 1 && ix[0] == j;
  }

  /** The webhook keeps QR tokens unique: the payment it saves keeps its token or draws one nobody holds. */
  lemma WebhookKeepsTokensDistinct(signature: Option<string>, v: Verification, payments: seq<Payment>,
                                   bookings: seq<Booking>, now: int, draws: seq<string>)
    requires CanStore(payments, draws)
    requires DistinctTokens(payments)
    ensures DistinctTokens(StripeWebhook(signature, v, payments, bookings, now, draws).1)
  {
    var after := StripeWebhook(signature, v, payments, bookings, now, draws).1;
    if after != payments {
      assert v.Verified? && v.event.eventType == "checkout.session.completed";
      var e := v.event;
      var ix := OwnedIndices(payments, bookings, Find(e.metadata, "user_id").value);
      assert |ix| == 1;
      var k := ix[0];
      var r := MarkAsPaid(payments[k], now, e.paymentIntent, Some("stripe"), draws, TokensOf(payments));
      assert r.Ok? && after == payments[k := r.value];
      forall i, j | 0 <= i < |after| && 0 <= j < |after| && i != j && Present(after[i].qrToken)
        ensures after[i].qrToken != after[j].qrToken
      {
        if i == k {
          if !Present(payments[k].qrToken) {
            assert after[j] == payments[j];
            assert after[i].qrToken.value !in TokensOf(payments);
          }
        } else if j == k {
          if !Present(payments[k].qrToken) {
            assert after[j].qrToken.value !in TokensOf(payments);
          }
        }
      }
    }
  }

  // ---------------------------------------------------------------- QR data

  /** The not-found answer of `payment_qr_data`. */
  const PaymentNotFound: Response := ErrorResponse("Payment not found", HTTP_404_NOT_FOUND)

  /**
   * `payment_qr_data`: the payment's QR data for its owner; a payment of
   * another user is answered exactly like a payment that does not exist.
   * A payment whose booking row is missing raises `Booking.DoesNotExist`,
   * which only the generic handler catches.
   */
  function PaymentQrData(paymentId: string, requester: string, payments: seq<Payment>, bookings: seq<Booking>): (r: Response)
    ensures PaymentById(payments, paymentId).None? ==> r == PaymentNotFound
    ensures r.status == HTTP_200_OK <==>
              PaymentById(payments, paymentId).Some? && OwnedBy(PaymentById(payments, paymentId).value, bookings, requester)
    ensures r.status == HTTP_200_OK ==>
              var p := PaymentById(payments, paymentId).value;
              Field(r.body, "data") == Some(JObj([
                ("qr_token", if p.qrToken.Some? then JStr(p.qrToken.value) else JNull),
                ("status", JStr(p.status.Code())),
                ("amount", JStr(CentsText(p.amountCents))),
                ("currency", JStr(p.currency))]))
  {
    match PaymentById(payments, paymentId)
    case None => PaymentNotFound
    case Some(p) =>
      match BookingById(bookings, p.bookingId)
      case None => ErrorResponse("Internal error: Booking matching query does not exist.", HTTP_500_INTERNAL_SERVER_ERROR)
      case Some(b) =>
        if b.userId != requester then PaymentNotFound
        else SuccessResponse(JObj([
               ("qr_token", if p.qrToken.Some? then JStr(p.qrToken.value) else JNull),
               ("status", JStr(p.status.Code())),
               ("amount", JStr(CentsText(p.amountCents))),
               ("currency", JStr(p.currency))]),
             "Payment QR data retrieved successfully")
  }

  /** Someone who does not own a payment cannot tell it apart from a payment id that does not exist. */
  lemma QrDataMasksOwnership(paymentId: string, otherId: string, requester: string, payments: seq<Payment>,
                             bookings: seq<Booking>)
    requires PaymentById(payments, paymentId).Some?
    requires BookingById(bookings, PaymentById(payments, paymentId).value.bookingId).Some?
    requires !OwnedBy(PaymentById(payments, paymentId).value, bookings, requester)
    requires PaymentById(payments, otherId).None?
    ensures PaymentQrData(paymentId, requester, payments, bookings) == PaymentQrData(otherId, requester, payments, bookings)
  {
  }
}

=== FILE: simple_map.dfy ===
/**
 * The decisions of `SimpleMap` in frontend/src/components/maps/SimpleMap.tsx:
 * how the address and city props become the location to geocode, and when
 * the effect reloads the map.
 */
module SimpleMap {
  import opened Wrappers
  import opened Text

  /** `x?.trim().replace(/\/+$/, '').replace(/,+$/, '') || ''`. */
  function CleanPart(x: Option<string>): string {
    if x.None? then "" else DropTrailing(DropTrailing(JsTrim(x.value), '/'), ',')
  }

  /** The location to geocode: both cleaned parts joined by `", "`, or whichever one is not empty. */
  function Location(address: Option<string>, city: Option<string>): (loc: string)
    ensures loc == "" <==> CleanPart(address) == "" && CleanPart(city) == ""
    ensures StartsWith(loc, CleanPart(address))
  {
    var a := CleanPart(address);
    var c := CleanPart(city);
    if a != "" && c != "" then a + ", " + c else if a != "" then a else c
  }

  /** A location part as the component leaves it: white space at neither end, no trailing comma or slash. */
  predicate CleanText(s: string) {
    Trimmed(s) && (|s| == 0 || (s[|s| - 1] != '/' && s[|s| - 1] != ','))
  }

  /** A cleaned part never ends with a comma, and cleaning keeps exactly the parts that are already clean. */
  lemma CleanPartSpec(s: string)
    ensures var c := CleanPart(Some(s));
            && (|c| == 0 || c[|c| - 1] != ',')
            && (c == s <==> CleanText(s))
  {
    var t := JsTrim(s);
    var u := DropTrailing(t, '/');
    var c := CleanPart(Some(s));
    JsTrimSpec(s);
    DropEndSpec(t, x => x == '/');
    DropEndSpec(u, x => x == ',');
    if c == s {
      assert |t| == |s|;
      var i, j :| 0 <= i <= j <= |s| && t == s[i..j];
      assert t == s;
      assert u == s;
    }
    if CleanText(s) {
      DropEndFixed(s, x => x == '/');
      DropEndFixed(s, x => x == ',');
    }
  }

  /** With clean props the location is exactly the props joined, the address first. */
  lemma CleanPropsLocation(address: string, city: string)
    requires CleanText(address) && CleanText(city)
    ensures Location(Some(address), Some(city)) ==
              if address != "" && city != "" then address + ", " + city else address + city
  {
    CleanPartSpec(address);
    CleanPartSpec(city);
  }

  /** What the effect remembers between renders. */
  datatype MapState = MapState(lastLocation: string, hasMap: bool)

  /**
   * One run of the effect: when the location is unchanged and a map exists
   * it returns early; otherwise it records the location and loads the map.
   * The result is the new state and whether loading was started.
   */
  function Effect(st: MapState, address: Option<string>, city: Option<string>): (r: (MapState, bool))
    ensures r.1 <==> Location(address, city) != st.lastLocation || !st.hasMap
    ensures r.1 ==> r.0 == st.(lastLocation := Location(address, city))
    ensures !r.1 ==> r.0 == st
  {
    var current := Location(address, city);
    if current == st.lastLocation && st.hasMap then (st, false)
    else (st.(lastLocation := current), true)
  }

  /** Once a map exists, rendering again with the same props does not reload it. */
  lemma SamePropsDoNotReload(st: MapState, address: Option<string>, city: Option<string>)
    ensures var next := Effect(st, address, city).0.(hasMap := true);
            !Effect(next, address, city).1 && Effect(next, address, city).0 == next
  {
  }
}

=== FILE: text.dfy ===
/**
 * String operations of the two runtimes the system is written for: Python's
 * `str.strip`/`upper`/`lower`/`title`/`split` on the backend and JavaScript's
 * `trim`, trailing-run `replace` and `split` on the frontend.  Strings are
 * sequences of Unicode scalar values; letter case is modelled on ASCII letters.
 */
module Text {

  /** Python's `str.isspace()`, the set `str.strip()` removes. */
  predicate IsPyWhitespace(c: char) {
    c == ' ' || ('\t' <= c <= '\r') || ('\U{1C}' <= c <= '\U{1F}') || c == '\U{85}' || c == '\U{A0}'
    || c == '\U{1680}' || ('\U{2000}' <= c <= '\U{200A}') || c == '\U{2028}' || c == '\U{2029}'
    || c == '\U{202F}' || c == '\U{205F}' || c == '\U{3000}'
  }

  /** ECMAScript WhiteSpace and LineTerminator: what `String.prototype.trim` removes and regex `\s` matches. */
  predicate IsJsWhitespace(c: char) {
    c == ' ' || ('\t' <= c <= '\r') || c == '\U{A0}' || c == '\U{1680}'
    || ('\U{2000}' <= c <= '\U{200A}') || c == '\U{2028}' || c == '\U{2029}'
    || c == '\U{202F}' || c == '\U{205F}' || c == '\U{3000}' || c == '\U{FEFF}'
  }

  predicate IsAsciiDigit(c: char) {
    '0' <= c <= '9'
  }

  predicate IsAsciiLetter(c: char) {
    ('a' <= c <= 'z') || ('A' <= c <= 'Z')
  }

  /** Removes the longest suffix of characters satisfying `p`. */
  function DropEnd(s: string, p: char -> bool): string
    decreases |s|
  {
    if |s| == 0 || !p(s[|s| - 1]) then s else DropEnd(s[..|s| - 1], p)
  }

  /** `DropEnd` keeps a prefix, ends on a character outside `p`, and drops only characters in `p`. */
  lemma {:induction false} DropEndSpec(s: string, p: char -> bool)
    ensures var r := DropEnd(s, p);
            && |r| <= |s| && r == s[..|r|]
            && (|r| == 0 || !p(r[|r| - 1]))
            && (forall i :: |r| <= i < |s| ==> p(s[i]))
    decreases |s|
  {
    if |s| > 0 && p(s[|s| - 1]) {
      DropEndSpec(s[..|s| - 1], p);
    }
  }

  /** Removes the longest prefix of characters satisfying `p`. */
  function DropStart(s: string, p: char -> bool): string
    decreases |s|
  {
    if |s| == 0 || !p(s[0]) then s else DropStart(s[1..], p)
  }

  /** `DropStart` keeps a suffix, starts on a character outside `p`, and drops only characters in `p`. */
  lemma {:induction false} DropStartSpec(s: string, p: char -> bool)
    ensures var r := DropStart(s, p);
            && |r| <= |s| && r == s[|s| - |r|..]
            && (|r| == 0 || !p(r[0]))
            && (forall i :: 0 <= i < |s| - |r| ==> p(s[i]))
    decreases |s|
  {
    if |s| > 0 && p(s[0]) {
      DropStartSpec(s[1..], p);
    }
  }

  /** Python `s.strip()`. */
  function PyStrip(s: string): string {
    DropStart(DropEnd(s, IsPyWhitespace), IsPyWhitespace)
  }

  /** JavaScript `s.trim()`. */
  function JsTrim(s: string): string {
    DropStart(DropEnd(s, IsJsWhitespace), IsJsWhitespace)
  }

  /** JavaScript `s.replace(/c+$/, '')`: removes the trailing run of `c`. */
  function DropTrailing(s: string, c: char): string {
    DropEnd(s, x => x == c)
  }

  lemma {:induction false} DropEndIdempotent(s: string, p: char -> bool)
    ensures DropEnd(DropEnd(s, p), p) == DropEnd(s, p)
  {
    DropEndSpec(s, p);
  }

  lemma {:induction false} DropEndAppend(s: string, t: string, p: char -> bool)
    requires forall i :: 0 <= i < |t| ==> p(t[i])
    ensures DropEnd(s + t, p) == DropEnd(s, p)
    decreases |t|
  {
    if |t| > 0 {
      assert (s + t)[..|s + t| - 1] == s + t[..|t| - 1];
      DropEndAppend(s, t[..|t| - 1], p);
    } else {
      assert s + t == s;
    }
  }

  /** `DropEnd` leaves a string unchanged exactly when its last character is outside `p`. */
  lemma DropEndFixed(s: string, p: char -> bool)
    ensures DropEnd(s, p) == s <==> |s| == 0 || !p(s[|s| - 1])
  {
    if |s| > 0 && p(s[|s| - 1]) {
      DropEndSpec(s, p);
    }
  }

  /** `DropStart` leaves a string unchanged exactly when its first character is outside `p`. */
  lemma DropStartFixed(s: string, p: char -> bool)
    ensures DropStart(s, p) == s <==> |s| == 0 || !p(s[0])
  {
    if |s| > 0 && p(s[0]) {
      DropStartSpec(s, p);
    }
  }

  /** Neither end of `s` is white space. */
  predicate Trimmed(s: string) {
    |s| == 0 || (!IsJsWhitespace(s[0]) && !IsJsWhitespace(s[|s| - 1]))
  }

  /**
   * `trim` returns a piece of its input with white space at neither end,
   * and returns its input unchanged exactly when that input is already so.
   */
  lemma JsTrimSpec(s: string)
    ensures Trimmed(JsTrim(s))
    ensures exists i, j :: 0 <= i <= j <= |s| && JsTrim(s) == s[i..j]
    ensures JsTrim(s) == s <==> Trimmed(s)
  {
    var e := DropEnd(s, IsJsWhitespace);
    DropEndSpec(s, IsJsWhitespace);
    var t := DropStart(e, IsJsWhitespace);
    DropStartSpec(e, IsJsWhitespace);
    assert t == s[|e| - |t|..|e|];
    if |t| > 0 {
      assert t[|t| - 1] == e[|e| - 1];
    }
    if Trimmed(s) {
      DropEndFixed(s, IsJsWhitespace);
      DropStartFixed(s, IsJsWhitespace);
    }
  }

  /** Trimming is insensitive to whitespace appended at the end. */
  lemma JsTrimAppendWhitespace(s: string, t: string)
    requires forall i :: 0 <= i < |t| ==> IsJsWhitespace(t[i])
    ensures JsTrim(s + t) == JsTrim(s)
  {
    DropEndAppend(s, t, IsJsWhitespace);
  }

  function UpperChar(c: char): (u: char)
    ensures IsAsciiLetter(u) <==> IsAsciiLetter(c)
  {
    if 'a' <= c <= 'z' then (c as int - 32) as char else c
  }

  function LowerChar(c: char): (l: char)
    ensures IsAsciiLetter(l) <==> IsAsciiLetter(c)
  {
    if 'A' <= c <= 'Z' then (c as int + 32) as char else c
  }

  /** Python `s.upper()` (ASCII letters). */
  function Upper(s: string): (r: string)
    ensures |r| == |s|
  {
    seq(|s|, i requires 0 <= i < |s| => UpperChar(s[i]))
  }

  /** Python `s.lower()` (ASCII letters). */
  function Lower(s: string): (r: string)
    ensures |r| == |s|
  {
    seq(|s|, i requires 0 <= i < |s| => LowerChar(s[i]))
  }

  /**
   * Python `s.title()` continued after a character that was (`prevCased`) or
   * was not a letter: a letter is upper-cased at the start of a word and
   * lower-cased inside one; every other character is kept and ends the word.
   */
  function TitleFrom(s: string, prevCased: bool): (r: string)
    decreases |s|
  {
    if |s| == 0 then ""
    else if IsAsciiLetter(s[0]) then
      [if prevCased then LowerChar(s[0]) else UpperChar(s[0])] + TitleFrom(s[1..], true)
    else [s[0]] + TitleFrom(s[1..], false)
  }

  /** Python `s.title()`. */
  function Title(s: string): string {
    TitleFrom(s, false)
  }

  lemma {:induction false} TitleFromLength(s: string, prevCased: bool)
    ensures |TitleFrom(s, prevCased)| == |s|
    decreases |s|
  {
    if |s| > 0 {
      TitleFromLength(s[1..], IsAsciiLetter(s[0]));
    }
  }

  /** Title-casing is idempotent: a title-cased string is a fixed point of `title()`. */
  lemma {:induction false} TitleFromIdempotent(s: string, prevCased: bool)
    ensures TitleFrom(TitleFrom(s, prevCased), prevCased) == TitleFrom(s, prevCased)
    decreases |s|
  {
    if |s| > 0 {
      var t := TitleFrom(s, prevCased);
      var rest := TitleFrom(s[1..], IsAsciiLetter(s[0]));
      assert t == [t[0]] + rest;
      assert t[1..] == rest;
      assert IsAsciiLetter(t[0]) <==> IsAsciiLetter(s[0]);
      TitleFromIdempotent(s[1..], IsAsciiLetter(s[0]));
    }
  }

  /** Python's `title()` character by character: a letter is upper-cased exactly when it follows a non-letter. */
  lemma {:induction false} TitleFromAt(s: string, prevCased: bool, i: nat)
    requires i < |s|
    ensures |TitleFrom(s, prevCased)| == |s|
    ensures TitleFrom(s, prevCased)[i] ==
              if !IsAsciiLetter(s[i]) then s[i]
              else if (if i == 0 then prevCased else IsAsciiLetter(s[i - 1])) then LowerChar(s[i])
              else UpperChar(s[i])
    decreases i
  {
    TitleFromLength(s, prevCased);
    if i > 0 {
      TitleFromAt(s[1..], IsAsciiLetter(s[0]), i - 1);
    }
  }

  lemma TitleAt(s: string, i: nat)
    requires 0 < i < |s|
    ensures |Title(s)| == |s|
    ensures IsAsciiLetter(s[i]) && !IsAsciiLetter(s[i - 1]) ==> Title(s)[i] == UpperChar(s[i])
    ensures IsAsciiLetter(s[i]) && IsAsciiLetter(s[i - 1]) ==> Title(s)[i] == LowerChar(s[i])
  {
    TitleFromAt(s, false, i);
  }

  lemma TitleIdempotent(s: string)
    ensures Title(Title(s)) == Title(s)
  {
    TitleFromIdempotent(s, false);
  }

  /** `s.startswith(prefix)` / `s.startsWith(prefix)`. */
  predicate StartsWith(s: string, prefix: string) {
    |prefix| <= |s| && s[..|prefix|] == prefix
  }

  /** Index of the first occurrence of `c` in `s`. */
  function IndexOf(s: string, c: char): (k: nat)
    requires c in s
    ensures k < |s| && s[k] == c && c !in s[..k]
  {
    if s[0] == c then 0 else
      assert c in s[1..] by { var j :| 0 <= j < |s| && s[j] == c; assert s[1..][j - 1] == c; }
      var k := 1 + IndexOf(s[1..], c);
      assert s[..k] == [s[0]] + s[1..][..k - 1];
      k
  }

  /** Joins `parts` with the separator `sep` between consecutive parts. */
  function Join(parts: seq<string>, sep: char): string
    decreases |parts|
  {
    if |parts| == 0 then ""
    else if |parts| == 1 then parts[0]
    else parts[0] + [sep] + Join(parts[1..], sep)
  }

  /**
   * `s.split(sep)` for a one-character separator, which Python and JavaScript
   * agree on: the maximal separator-free pieces, in order, empty pieces kept.
   */
  function Split(s: string, sep: char): (parts: seq<string>)
    ensures |parts| >= 1
    ensures forall i :: 0 <= i < |parts| ==> sep !in parts[i]
    ensures Join(parts, sep) == s
    decreases |s|
  {
    if sep !in s then [s]
    else
      var k := IndexOf(s, sep);
      var rest := Split(s[k + 1..], sep);
      assert s == s[..k] + [sep] + s[k + 1..];
      [s[..k]] + rest
  }

  /** Splitting at the first separator: the piece before it, then the split of the rest. */
  lemma SplitAtFirst(s: string, sep: char, k: nat)
    requires k < |s| && s[k] == sep && sep !in s[..k]
    ensures Split(s, sep) == [s[..k]] + Split(s[k + 1..], sep)
  {
    assert sep in s;
    assert IndexOf(s, sep) == k;
  }

  /** Joining two or more parts puts the first part and a separator before the rest. */
  lemma JoinCons(parts: seq<string>, sep: char)
    requires |parts| >= 2
    ensures Join(parts, sep) == parts[0] + [sep] + Join(parts[1..], sep)
  {
  }

  /** Splitting undoes joining when no part contains the separator. */
  lemma {:induction false} SplitJoin(parts: seq<string>, sep: char)
    requires |parts| >= 1
    requires forall i :: 0 <= i < |parts| ==> sep !in parts[i]
    ensures Split(Join(parts, sep), sep) == parts
    decreases |parts|
  {
    if |parts| == 1 {
      assert Join(parts, sep) == parts[0];
    } else {
      var p0 := parts[0];
      var tail := Join(parts[1..], sep);
      var s := p0 + [sep] + tail;
      JoinCons(parts, sep);
      assert s[..|p0|] == p0 && s[|p0|] == sep && s[|p0| + 1..] == tail;
      SplitAtFirst(s, sep, |p0|);
      SplitJoin(parts[1..], sep);
      assert parts == [p0] + parts[1..];
    }
  }

  /** Python `s.split(sep)[0]`: everything before the first separator. */
  function FirstField(s: string, sep: char): (r: string)
    ensures sep !in r
    ensures StartsWith(s, r)
    ensures |r| < |s| ==> s[|r|] == sep
  {
    if sep in s then
      var k := IndexOf(s, sep);
      assert Split(s, sep)[0] == s[..k];
      Split(s, sep)[0]
    else
      assert Split(s, sep) == [s];
      Split(s, sep)[0]
  }

  function DigitChar(d: nat): (c: char)
    requires d < 10
    ensures IsAsciiDigit(c)
  {
    ('0' as int + d) as char
  }

  /** Python `str(n)` / JavaScript `String(n)` for a natural number. */
  function NatToDecimal(n: nat): (r: string)
    ensures |r| >= 1
    ensures forall i :: 0 <= i < |r| ==> IsAsciiDigit(r[i])
  {
    if n < 10 then [DigitChar(n)] else NatToDecimal(n / 10) + [DigitChar(n % 10)]
  }

  /** The value of an ASCII digit. */
  function DigitValue(c: char): nat
    requires IsAsciiDigit(c)
  {
    c as int - '0' as int
  }

  /** The number a string of ASCII digits denotes; the inverse of `NatToDecimal`. */
  function DecimalValue(s: string): nat
    requires forall i :: 0 <= i < |s| ==> IsAsciiDigit(s[i])
  {
    if |s| == 0 then 0 else DecimalValue(s[..|s| - 1]) * 10 + DigitValue(s[|s| - 1])
  }

  /** Reading back the decimal text of `n` gives `n`, and the text has no leading zero. */
  lemma {:induction false} NatToDecimalRoundTrip(n: nat)
    ensures DecimalValue(NatToDecimal(n)) == n
    ensures NatToDecimal(n)[0] == '0' ==> n == 0
  {
    if n >= 10 {
      NatToDecimalRoundTrip(n / 10);
      var r := NatToDecimal(n);
      assert r[..|r| - 1] == NatToDecimal(n / 10);
      assert r[0] == NatToDecimal(n / 10)[0];
    }
  }

  /** `str(amount)` of a two-decimal `Decimal` held in cents: `[-]units.cc`. */
  function CentsText(cents: int): (t: string)
    ensures |t| >= 4 && t[|t| - 3] == '.'
    ensures cents < 0 <==> t[0] == '-'
  {
    var m: nat := if cents < 0 then -cents else cents;
    var units := NatToDecimal(m / 100) + "." + [DigitChar(m % 100 / 10), DigitChar(m % 10)];
    if cents < 0 then "-" + units else units
  }

  /** The text of a non-negative amount reads back as the amount: units before the point, two digits of cents after. */
  lemma CentsTextRoundTrip(cents: nat)
    ensures var t := CentsText(cents);
            (forall i :: 0 <= i < |t| && i != |t| - 3 ==> IsAsciiDigit(t[i]))
            && DecimalValue(t[..|t| - 3]) * 100 + DecimalValue(t[|t| - 2..]) == cents
  {
    var t := CentsText(cents);
    var u := NatToDecimal(cents / 100);
    assert t[..|t| - 3] == u;
    NatToDecimalRoundTrip(cents / 100);
    var frac := t[|t| - 2..];
    assert frac == [DigitChar(cents % 100 / 10), DigitChar(cents % 10)];
    assert frac[..1] == [DigitChar(cents % 100 / 10)];
    assert frac[..1][..0] == [];
    assert DigitValue(frac[0]) == cents % 100 / 10 && DigitValue(frac[1]) == cents % 10;
    assert DecimalValue(frac[..1]) == cents % 100 / 10;
  }

  /** JavaScript `s.length`: UTF-16 code units, two for a character outside the Basic Multilingual Plane. */
  function JsLength(s: string): (n: nat)
    ensures |s| <= n <= 2 * |s|
  {
    if |s| == 0 then 0 else JsLength(s[..|s| - 1]) + (if s[|s| - 1] as int >= 0x1_0000 then 2 else 1)
  }
}

=== FILE: validations.dfy ===
/**
 * The zod schemas of frontend/src/lib/validations: `loginSchema` and
 * `registerSchema` (auth.ts), `bookingSchema` (booking.ts) and
 * `profileSchema` (profile.ts), each as the list of issues a form value
 * yields; a form is accepted exactly when the list is empty.  What zod's
 * `.email()`, JavaScript's `Number` and `Date` decide is supplied by the
 * caller.
 */
module Validations {
  import opened Wrappers
  import opened Text
  import opened Zod
  import BookingsModels

  /** The account roles both schemas allow. */
  const Roles: seq<string> := ["customer", "provider"]

  // ---------------------------------------------------------------- auth.ts

  datatype LoginForm = LoginForm(email: string, password: string, role: Option<string>)

  /** `loginSchema`. */
  function LoginIssues(f: LoginForm, isEmail: string -> bool): (r: seq<Issue>)
    ensures r == [] <==> isEmail(f.email) && JsLength(f.password) >= 8 && (f.role.Some? ==> f.role.value in Roles)
  {
    Check("email", isEmail(f.email), "Please enter a valid email address")
    + Min("password", f.password, 8, "Password must be at least 8 characters")
    + (if f.role.Some? then Enum("role", f.role.value, Roles) else [])
  }

  datatype RegisterForm = RegisterForm(
    firstName: string,
    lastName: string,
    username: string,
    email: string,
    password: string,
    passwordConfirm: string,
    consent: bool,
    role: string,
    city: Option<string>,
    vaccinated: bool,
    providerId: Option<string>)

  /** The field checks of `registerSchema`, in key order. */
  function RegisterFieldIssues(f: RegisterForm, isEmail: string -> bool): (r: seq<Issue>)
    ensures r == [] <==> JsLength(f.firstName) >= 1 && JsLength(f.lastName) >= 1 && JsLength(f.username) >= 3
                         && isEmail(f.email) && JsLength(f.password) >= 8 && f.consent && f.role in Roles
  {
    Min("first_name", f.firstName, 1, "First name is required")
    + Min("last_name", f.lastName, 1, "Last name is required")
    + Min("username", f.username, 3, "Username must be at least 3 characters")
    + Check("email", isEmail(f.email), "Please enter a valid email address")
    + Min("password", f.password, 8, "Password must be at least 8 characters")
    + Check("consent", f.consent, "You must agree to the terms and conditions")
    + Enum("role", f.role, Roles)
  }

  /** The second refinement: a provider needs a provider id of exactly 16 characters. */
  predicate ProviderIdOk(f: RegisterForm) {
    f.role == "provider" ==> f.providerId.Some? && f.providerId.value != "" && JsLength(f.providerId.value) == 16
  }

  /**
   * `registerSchema`: the field checks, then (unless the role aborted the
   * object) the confirmation refinement and the provider-id refinement.
   */
  function RegisterIssues(f: RegisterForm, isEmail: string -> bool): (r: seq<Issue>)
    ensures r == [] <==> RegisterFieldIssues(f, isEmail) == [] && f.password == f.passwordConfirm && ProviderIdOk(f)
  {
    RegisterFieldIssues(f, isEmail)
    + (if f.role !in Roles then []
       else Check("password_confirm", f.password == f.passwordConfirm, "Passwords do not match")
            + Check("provider_id", ProviderIdOk(f), "Provider ID is required and must be exactly 16 characters"))
  }

  /** A mismatched confirmation is reported on `password_confirm`, whatever else is wrong, for either role. */
  lemma MismatchReportedOnConfirmField(f: RegisterForm, isEmail: string -> bool)
    requires f.role in Roles && f.password != f.passwordConfirm
    ensures Issue("password_confirm", "Passwords do not match") in RegisterIssues(f, isEmail)
  {
    var tail := Check("password_confirm", f.password == f.passwordConfirm, "Passwords do not match")
                + Check("provider_id", ProviderIdOk(f), "Provider ID is required and must be exactly 16 characters");
    assert tail[0] == Issue("password_confirm", "Passwords do not match");
    assert RegisterIssues(f, isEmail) == RegisterFieldIssues(f, isEmail) + tail;
  }

  /** The provider id matters only for providers: a customer's form is judged the same whatever id it carries. */
  lemma ProviderIdOnlyForProviders(f: RegisterForm, id: Option<string>, isEmail: string -> bool)
    requires f.role == "customer"
    ensures RegisterIssues(f, isEmail) == RegisterIssues(f.(providerId := id), isEmail)
  {
  }

  /** A provider is accepted only with a 16-character id, which the customer role never needs. */
  lemma ProviderNeedsSixteenCharacterId(f: RegisterForm, isEmail: string -> bool)
    requires f.role == "provider"
    ensures RegisterIssues(f, isEmail) == [] ==> f.providerId.Some? && JsLength(f.providerId.value) == 16
    ensures f.providerId.None? ==>
              Issue("provider_id", "Provider ID is required and must be exactly 16 characters") in RegisterIssues(f, isEmail)
  {
    if f.providerId.None? {
      var conf := Check("password_confirm", f.password == f.passwordConfirm, "Passwords do not match");
      var tail := conf + Check("provider_id", false, "Provider ID is required and must be exactly 16 characters");
      assert tail[|conf|] == Issue("provider_id", "Provider ID is required and must be exactly 16 characters");
      assert RegisterIssues(f, isEmail) == RegisterFieldIssues(f, isEmail) + tail;
    }
  }

  // ---------------------------------------------------------------- booking.ts

  /** The service types the booking form offers. */
  const ServiceTypeOptions: seq<string> := ["cleaning", "plumbing", "electrical", "gardening", "other"]

  /** The form offers exactly the service types the backend model declares. */
  lemma ServiceTypesMatchBackend(code: string)
    ensures code in ServiceTypeOptions <==> BookingsModels.ParseServiceType(code).Some?
    ensures |ServiceTypeOptions| == |BookingsModels.ServiceTypes|
    ensures forall i :: 0 <= i < |ServiceTypeOptions| ==> ServiceTypeOptions[i] == BookingsModels.ServiceTypes[i].Code()
  {
  }

  datatype BookingForm = BookingForm(
    serviceType: Option<string>,
    budget: Option<string>,
    date: string,
    time: string,
    duration: string,
    address: string,
    city: string,
    phone: string,
    description: Option<string>)

  /** A character the phone pattern `^[\d\s\+\-\(\)]+$` admits. */
  predicate IsPhoneChar(c: char) {
    IsAsciiDigit(c) || IsJsWhitespace(c) || c == '+' || c == '-' || c == '(' || c == ')'
  }

  predicate MatchesPhonePattern(s: string) {
    |s| > 0 && forall i :: 0 <= i < |s| ==> IsPhoneChar(s[i])
  }

  /** The budget refinement: empty, or a number that is not `NaN` and not negative. */
  predicate BudgetOk(budget: Option<string>, toNumber: string -> Option<real>) {
    budget.None? || budget.value == "" || (toNumber(budget.value).Some? && toNumber(budget.value).value >= 0.0)
  }

  /** The service-type field: missing gives the required message, an unknown code the enum message. */
  function ServiceTypeIssues(serviceType: Option<string>): (r: seq<Issue>)
    ensures r == [] <==> serviceType.Some? && serviceType.value in ServiceTypeOptions
    ensures forall i :: i in r ==> i.path == "service_type"
  {
    if serviceType.None? then [Issue("service_type", "Please select a service type")]
    else Enum("service_type", serviceType.value, ServiceTypeOptions)
  }

  /** The field checks of `bookingSchema`, in key order. */
  function BookingFieldIssues(f: BookingForm, toNumber: string -> Option<real>): (r: seq<Issue>)
    ensures r == [] <==> ServiceTypeIssues(f.serviceType) == [] && BudgetOk(f.budget, toNumber)
                         && JsLength(f.date) >= 1 && JsLength(f.time) >= 1 && JsLength(f.duration) >= 1
                         && JsLength(f.address) >= 5 && JsLength(f.city) >= 2
                         && JsLength(f.phone) >= 10 && MatchesPhonePattern(f.phone)
  {
    ServiceTypeIssues(f.serviceType)
    + Check("budget", BudgetOk(f.budget, toNumber), "Budget must be a positive number")
    + Min("date", f.date, 1, "Date is required")
    + Min("time", f.time, 1, "Time is required")
    + Min("duration", f.duration, 1, "Duration is required")
    + Min("address", f.address, 5, "Address must be at least 5 characters")
    + Min("city", f.city, 2, "City must be at least 2 characters")
    + Min("phone", f.phone, 10, "Phone number must be at least 10 digits")
    + Check("phone", MatchesPhonePattern(f.phone), "Invalid phone number format")
  }

  /**
   * The future-date refinement: `new Date(date + "T" + time) > now`.
   * `toInstant` is JavaScript's date parsing, `None` for an invalid date
   * (whose comparison is false).
   */
  predicate InFuture(f: BookingForm, toInstant: string -> Option<int>, now: int) {
    toInstant(f.date + "T" + f.time).Some? && toInstant(f.date + "T" + f.time).value > now
  }

  /** `bookingSchema`: the field checks, then the date refinement unless the service type aborted the object. */
  function BookingIssues(f: BookingForm, toNumber: string -> Option<real>, toInstant: string -> Option<int>,
                         now: int): (r: seq<Issue>)
    ensures r == [] <==> BookingFieldIssues(f, toNumber) == [] && InFuture(f, toInstant, now)
  {
    BookingFieldIssues(f, toNumber)
    + (if ServiceTypeIssues(f.serviceType) != [] then []
       else Check("date", InFuture(f, toInstant, now), "Selected date and time must be in the future"))
  }

  /** An empty budget is never an error, whatever `Number` would make of it. */
  lemma EmptyBudgetAccepted(f: BookingForm, toNumber: string -> Option<real>)
    requires f.budget.None? || f.budget == Some("")
    ensures Issue("budget", "Budget must be a positive number") !in BookingFieldIssues(f, toNumber)
  {
  }

  /** A well-formed booking whose time is not in the future fails on `date` alone. */
  lemma PastDateReportedOnDate(f: BookingForm, toNumber: string -> Option<real>, toInstant: string -> Option<int>,
                               now: int)
    requires BookingFieldIssues(f, toNumber) == [] && !InFuture(f, toInstant, now)
    ensures BookingIssues(f, toNumber, toInstant, now) == [Issue("date", "Selected date and time must be in the future")]
  {
  }

  // ---------------------------------------------------------------- profile.ts

  datatype ProfileForm = ProfileForm(firstName: string, lastName: string, email: string, city: Option<string>)

  /** `profileSchema`: both names non-empty and a valid email; the city is free. */
  function ProfileIssues(f: ProfileForm, isEmail: string -> bool): (r: seq<Issue>)
    ensures r == [] <==> JsLength(f.firstName) >= 1 && JsLength(f.lastName) >= 1 && isEmail(f.email)
  {
    Min("first_name", f.firstName, 1, "First name is required")
    + Min("last_name", f.lastName, 1, "Last name is required")
    + Check("email", isEmail(f.email), "Invalid email address")
  }

  /** The city never affects the profile verdict. */
  lemma ProfileCityUnconstrained(f: ProfileForm, city: Option<string>, isEmail: string -> bool)
    ensures ProfileIssues(f, isEmail) == ProfileIssues(f.(city := city), isEmail)
  {
  }

  /** A non-empty name always passes `min(1)`: the length in code units is at least the length in characters. */
  lemma NonEmptyNamePasses(name: string, isEmail: string -> bool, lastName: string, email: string)
    requires name != "" && lastName != "" && isEmail(email)
    ensures ProfileIssues(ProfileForm(name, lastName, email, None), isEmail) == []
  {
  }
}

=== FILE: wrappers.dfy ===
/** Failure-compatible result types shared by every module of the model. */
module Wrappers {

  /** A value that may be absent (Python `None`, JavaScript `undefined`). */
  datatype Option<+T> = None | Some(value: T) {
    function GetOr(default: T): T {
      match this
      case Some(v) => v
      case None => default
    }
  }

  /** Either a successful value or an error, for operations that raise or return an error response. */
  datatype Result<+R, +E> = Ok(value: R) | Err(error: E) {
    predicate IsFailure() {
      Err?
    }

    function PropagateFailure<U>(): Result<U, E>
      requires Err?
    {
      Err(error)
    }

    function Extract(): R
      requires Ok?
    {
      value
    }
  }
}

=== FILE: zod.dfy ===
/**
 * The part of zod's behaviour the frontend schemas rely on: a failed check
 * reports an issue (path and message) and parsing goes on, so one parse
 * reports every failing field; a value outside an enum aborts the object,
 * and then the object-level refinements do not run.
 */
module Zod {
  import opened Text

  datatype Issue = Issue(path: string, message: string)

  /** `z.string().min(n, message)`: length counted in UTF-16 code units, as JavaScript does. */
  function Min(path: string, s: string, n: nat, message: string): (r: seq<Issue>)
    ensures r == [] <==> JsLength(s) >= n
    ensures r != [] ==> r == [Issue(path, message)]
    ensures forall i :: i in r ==> i.path == path
  {
    if JsLength(s) < n then [Issue(path, message)] else []
  }

  /** A check given as a condition: an issue exactly when the condition fails. */
  function Check(path: string, ok: bool, message: string): (r: seq<Issue>)
    ensures r == [] <==> ok
    ensures forall i :: i in r ==> i.path == path
  {
    if ok then [] else [Issue(path, message)]
  }

  /** zod's message for a value outside an enum. */
  function EnumMessage(options: seq<string>, received: string): string {
    "Invalid enum value. Expected " + QuotedOptions(options) + ", received '" + received + "'"
  }

  /** `'a' | 'b' | ...`. */
  function QuotedOptions(options: seq<string>): string
    decreases |options|
  {
    if |options| == 0 then ""
    else if |options| == 1 then "'" + options[0] + "'"
    else "'" + options[0] + "' | " + QuotedOptions(options[1..])
  }

  /** `z.enum(options)`. */
  function Enum(path: string, value: string, options: seq<string>): (r: seq<Issue>)
    ensures r == [] <==> value in options
    ensures forall i :: i in r ==> i.path == path
  {
    if value in options then [] else [Issue(path, EnumMessage(options, value))]
  }

  /** The paths that carry an issue. */
  function Paths(issues: seq<Issue>): set<string> {
    set i | i in issues :: i.path
  }
}
